=== FILE: README.md ===
# Simple mortgage calculator — a Dafny model of its core

This project models the logic of the Simple-mortgage-calc web application
and proves properties of it:

- the stand-alone loan calculator (`LoanCalculator` and `InputValidator`):
  the annuity payment, the totals and the amortization schedule;
- the security utilities: `sanitizeInput`, `sanitizeEmail`, `sanitizeURL`,
  the CSRF token helpers, `apiSecurity` (request headers, the response check
  and the recursive data sanitizer), `inputValidation` and the sliding-window
  `rateLimiting`;
- the Immutable.js collection helpers over bank records: look-up by id,
  filtering by criteria, sorting, grouping and the statistics;
- the banks slice of the Redux store and its selectors;
- the `useFormValidation` hook and the sign-up rules of the patterns demo page;
- the locale choice (`getLocale`, `setLocale`, `useLocale`);
- the stand-alone cookie banner (its `document.cookie` parser and consent flow)
  and the `useCookies` consent hook.

Each source component is one module.  Three shared modules carry what
JavaScript provides: `Wrappers` (`Option`, `Result`), `Text` (white space, ASCII
case folding, `trim`, `includes`, `indexOf`, `split`, decimal rendering,
subsequences) and `JsValue` (primitive values, truthiness, `===`, plain objects
as insertion-ordered key lists).  `Seqs` gives `Array.prototype.filter` a
reference definition.  A thrown JavaScript error is a `Failure` carrying its
message.  Time (`Date.now()`), randomness (`crypto.getRandomValues`),
`parseFloat`, the browser language, `localStorage` and the cookie store are
parameters.  Amounts are exact reals: the model computes what the formulas
mean, not their floating-point rendering.  Strings are sequences of Unicode
characters; `length` and `<` are stated on their UTF-16 code units, as
JavaScript counts and compares them.

## Model

| member | source | states |
|---|---|---|
| LoanEngine.NewLoan | public/calculator.js:2-8 | The calculator finances the principal less the down payment; the monthly rate is the annual percentage / 1200 and there are 12 payments a year (kept as an invariant of the `Loan` type). |
| LoanEngine.MonthlyPayment | public/calculator.js:10-13 | The payment m satisfies the annuity equation m·((1+r)^n − 1) = P·r·(1+r)^n, is zero for nothing financed, and exceeds one month's interest for a positive loan (so the balance falls). |
| LoanEngine.ClosedFormPaymentAgrees | src/pages/Calc/index.jsx:62 | The calculator's formula P·r/(1 − (1+r)^−n) and the Calc page's formula P·r·(1+r)^n/((1+r)^n − 1) give the same payment. |
| LoanEngine.FinalBalanceZero | public/calculator.js:10-13 | Paying the computed payment for all n months leaves exactly zero balance: the formula amortizes the loan. |
| LoanEngine.BalanceClosedForm | public/calculator.js:26-29 | After k months of the schedule's recurrence, the balance B_k satisfies B_k·r = P·(1+r)^k·r − m·((1+r)^k − 1). |
| LoanEngine.ClosedFormNext | public/calculator.js:27-29 | One month of the recurrence carries the closed form from k − 1 to k months. |
| LoanEngine.ClosedFormStep | public/calculator.js:27-29 | The algebra of one month: the interest, principal and balance update keeps the closed form with the growth multiplied by 1 + r. |
| LoanEngine.BalanceStep | public/calculator.js:27-29 | The balance after k + 1 months is the balance after k months less the payment plus that balance's interest. |
| LoanEngine.FullDownPaymentZeroPayment | public/calculator.js:3-12 | A down payment equal to the price makes the monthly payment zero. |
| LoanEngine.TotalPayment | public/calculator.js:15-17 | The total paid is the payment times 12 per year of the term. |
| LoanEngine.TotalInterest | public/calculator.js:19-21 | Interest plus financed amount equals the total paid. |
| LoanEngine.TotalInterestNonNegative | public/calculator.js:10-21 | For a non-negative financed amount, the interest over the term with the computed payment is never negative. |
| LoanEngine.GrowthBound | public/calculator.js:12 | (1+r)^n − 1 ≤ n·r·(1+r)^n for a positive rate: the bound the interest sign rests on. |
| LoanEngine.InterestSign | public/calculator.js:12-20 | From the annuity equation and the growth bound, payments times months minus principal is non-negative. |
| LoanEngine.ScheduleRow | public/calculator.js:27-31 | A row's interest is the opening balance times the monthly rate, principal plus interest equals the payment, and the balance drops by the principal part. |
| LoanEngine.GenerateAmortizationSchedule | public/calculator.js:23-38 | One row per payment numbered from 1, each following from the previous balance; row k closes at the recurrence balance after k + 1 months; with the computed payment the last balance is zero, the principal column sums to the financed amount and the interest column to the total interest. |
| LoanEngine.ScheduleSettles | public/calculator.js:23-38 | A full schedule at the computed payment ends at zero and its columns add up to the loan and to the total interest. |
| LoanEngine.RecurrenceSums | public/calculator.js:27-29 | The principal column telescopes to the drop in balance; principal and interest columns together are the payments made. |
| LoanEngine.RecurrenceBalance | public/calculator.js:26-29 | Row k's balance is the balance after k + 1 months of the recurrence. |
| LoanEngine.RecurrenceRows | public/calculator.js:29-34 | Every row of a schedule built by the recurrence has month k + 1 and that month's closing balance. |
| LoanEngine.RecurrenceAppend | public/calculator.js:26-35 | Appending the next month's row keeps a schedule following the recurrence. |
| LoanEngine.RecurrencePrefix | public/calculator.js:26-35 | Every prefix of a schedule following the recurrence follows it too. |
| LoanEngine.PowAboveOne | public/calculator.js:12 | (1+r)^n exceeds 1 for a positive rate and at least one payment, so the formula never divides by zero. |
| LoanEngine.PowAtLeastOne | public/calculator.js:12 | (1+r)^n is at least 1 for a non-negative rate. |
| LoanValidator.Validate | public/calculator.js:42-65 | The rate, term and bank-name patterns are checked in that order, the first failing one decides the alert; acceptance holds exactly when all three match and the four numbers are non-negative and not NaN; the silent refusal happens only after all patterns pass. |
| LoanValidator.RateRegexExactly | public/calculator.js:45-52 | The rate pattern accepts exactly the decimal numerals of 1 to 99. |
| LoanValidator.YearsRegexExactly | public/calculator.js:54-57 | The term pattern accepts exactly the decimal numerals of 1 to 50. |
| LoanValidator.TwoDigitNumeral | public/calculator.js:45-46 | A one- or two-digit numeral without a leading zero renders its own value, between 1 and 99. |
| LoanValidator.NumeralBelowHundred | public/calculator.js:45-46 | Every number from 1 to 99 renders as one or two digits without a leading zero. |
| LoanValidator.PolicyExamples | public/calculator.js:45-47 | Boundary cases: rates 0, 100 and 5.5 are refused, 1 and 99 accepted; term 50 is accepted and 51 refused; a lower-case or 51-character bank name is refused. |
| Text.Trim | src/utils/security.js:27 | `trim` returns the slice left after dropping white space at both ends, and nothing it drops is anything but white space. |
| Text.TrimPadded | src/utils/security.js:27 | Trimming white-space padding around a non-empty trimmed text gives that text back. |
| Text.TrimOfTrimmed | src/utils/security.js:27 | Trimming is the identity on trimmed text. |
| Text.TrimIsSubsequence | src/utils/security.js:27 | Trimming only deletes characters. |
| Text.ToLower | src/utils/security.js:35 | Lower-casing keeps the length and folds each character on its own. |
| Text.ToLowerNoUpper | src/utils/security.js:35 | Lower-cased text has no upper-case letter, and lower-casing twice is lower-casing once. |
| Text.IndexOf | src/components/CookiesBanner/index.js:24 | The first occurrence, with nothing earlier, and none exactly when the text does not contain the pattern. |
| Text.Split | src/components/CookiesBanner/index.js:24 | `split` gives at least one part, no part contains the separator, and joining the parts with it rebuilds the text. |
| Text.SplitTwice | src/components/CookiesBanner/index.js:24-25 | Two non-overlapping occurrences of the separator give at least three parts. |
| Text.UpTo | src/components/CookiesBanner/index.js:25 | `split(';').shift()`: the prefix before the first `;`, which contains none. |
| Text.DecimalRoundTrip | public/calculator.js:45-46 | Reading back the decimal rendering of a number gives the number. |
| Text.CodeUnits | src/utils/security.js:167 | A character is one UTF-16 code unit, its own value, below U+10000 and two units, a high and then a low surrogate, above. |
| Text.SurrogatePairDecodes | src/utils/security.js:167 | The surrogate pair of a character above U+FFFF decodes back to that character. |
| Text.CodeUnitsDiffer | src/utils/immutable-utils.js:42 | Two different characters differ at some code unit, with the units before it equal. |
| Text.Utf16 | src/utils/security.js:167 | A string has between one and two code units per character, exactly one each when every character lies below U+10000. |
| Text.Utf16Length | src/utils/security.js:167 | `length` counts code units: at least the characters and at most twice as many. |
| Text.Utf16Injective | src/utils/immutable-utils.js:42 | Different strings have different code-unit sequences. |
| Text.SubsequenceUtf16Length | src/utils/security.js:166-167 | Deleting characters never makes a string longer in code units. |
| Sanitize.DeleteAngles | src/utils/security.js:24 | The result has no `<` or `>` and is the input with characters deleted. |
| Sanitize.DeleteJavascript | src/utils/security.js:25 | The case-insensitive `javascript:` deletion only deletes characters. |
| Sanitize.HandlerAtStart | src/utils/security.js:26 | A match of `on\w+=` is `on` in any case, at least one word character and the `=`. |
| Sanitize.DeleteEventHandlers | src/utils/security.js:26 | The handler deletion only deletes characters. |
| Sanitize.SanitizeString | src/utils/security.js:23-27 | The sanitized string has no angle brackets, no white space at either end, and is a subsequence of the input, so never longer. |
| Sanitize.SanitizeInput | src/utils/security.js:19-28 | A non-string is returned unchanged; a string gets the guarantees of the string sanitizer. |
| Sanitize.CleanIsFixedPoint | src/utils/security.js:23-27 | A string none of the passes matches and that is trimmed is returned unchanged. |
| Sanitize.PlainKept | src/utils/security.js:23-27 | Printable text without brackets, `j` or an `on` pair is returned unchanged. |
| Sanitize.PaddedPlainKept | src/utils/security.js:23-27 | Around such text, the white-space padding is all that is removed. |
| Sanitize.DeleteAnglesKeeps | src/utils/security.js:24 | Text without brackets is untouched by the bracket pass. |
| Sanitize.DeleteJavascriptKeeps | src/utils/security.js:25 | Text where no `javascript:` starts is untouched by the protocol pass. |
| Sanitize.DeleteEventHandlersKeeps | src/utils/security.js:26 | Text where no handler starts is untouched by the handler pass. |
| Sanitize.DeleteAnglesAppend | src/utils/security.js:24 | The bracket pass works piecewise over a concatenation. |
| Sanitize.DeleteJavascriptSkips | src/utils/security.js:25 | A global replace copies every position before the first match. |
| Sanitize.JavascriptPrefixDropped | src/utils/security.js:25 | A leading `javascript:` is removed whole and the scan resumes after it. |
| Sanitize.LeadingProtocolDropped | src/utils/security.js:23-27 | Before plain text, a leading `javascript:` is all that is removed. |
| Sanitize.LeadingHandlerDropped | src/utils/security.js:23-27 | Before plain text, a leading `on…=` handler is all that is removed. |
| Sanitize.AnglesOnlyRemoved | src/utils/security.js:23-27 | When the text left after the brackets go is plain, the brackets are all that is removed. |
| Sanitize.BracketsDropped | src/utils/security.js:24 | A bracketed word loses exactly its two brackets. |
| Sanitize.EmailPatternMatchesRegex | src/utils/security.js:34 | The direct check (one `@`, a later `.`, non-empty parts, no white space) is exactly the regular expression read as the concatenation of its groups. |
| Sanitize.EmailPartsJoin | src/utils/security.js:34 | Three non-empty parts without white space or `@` joined as `a@b.c` match the address pattern. |
| Sanitize.SanitizeEmail | src/utils/security.js:31-38 | An empty email gives ""; otherwise the result is "" or an address matching the pattern, lower case, trimmed, and obtained from the lower-cased input by deleting characters. |
| Sanitize.SanitizeEmailValue | src/utils/security.js:31-38 | On any value: a falsy value gives `''`, a truthy non-string throws a TypeError (and nothing else throws), and a string is checked as `SanitizeEmail` does. |
| Sanitize.SanitizeEmailStable | src/utils/security.js:31-38 | A returned address with nothing left for `sanitizeInput` to remove is a fixed point: checking it again gives it back. |
| Sanitize.EmailNeedsAtAndDot | src/utils/security.js:34-37 | Without an `@` or without a `.` the result is always "". |
| Sanitize.LoweredPunctuation | src/utils/security.js:35 | Lower-casing creates no `@` or `.`. |
| Sanitize.PlainAddressKept | src/utils/security.js:31-38 | A plain lower-case address comes back as it is. |
| Sanitize.CleanAddressKept | src/utils/security.js:31-38 | Any input whose lower-cased, trimmed form is clean and has the address shape comes back as exactly that form: upper case and padding go, and letters such as `j` or words such as `on` stay. |
| Sanitize.PlainNonAddressRefused | src/utils/security.js:31-38 | A plain lower-case text that is not an address gives "". |
| Sanitize.SanitizeUrl | src/utils/security.js:41-54 | An empty URL gives ""; otherwise the result always starts with `http://`, `https://`, `/` or `#`: the sanitized trimmed text if it already does, and that text behind `https://` if not. |
| Sanitize.SanitizeUrlValue | src/utils/security.js:41-54 | On any value: a falsy value gives `''`, a truthy non-string throws a TypeError (and nothing else throws), a string is handled as `SanitizeUrl` does, and a non-empty result always starts with an allowed scheme, `/` or `#`. |
| Sanitize.CleanPrefixedUrlUnchanged | src/utils/security.js:41-54 | A clean URL with an allowed start comes back unchanged. |
| Sanitize.PlainPrefixedUrlUnchanged | src/utils/security.js:41-54 | The same for plain text. |
| Sanitize.PlainUrlGetsScheme | src/utils/security.js:49-51 | Plain text without an allowed start only gains the `https://` scheme. |
| SanitizeExamples.ProtocolRemoved | src/utils/security.test.js:48-53 | `javascript:alert("xss")` sanitizes to `alert("xss")`. |
| SanitizeExamples.HandlerRemoved | src/utils/security.test.js:55-60 | `onclick=alert("xss")` sanitizes to `alert("xss")`. |
| SanitizeExamples.TagBracketsRemoved | src/utils/security.test.js:40-46 | `<script>alert("xss")</script>` loses only its brackets. |
| SanitizeExamples.ProtocolRecreated | src/utils/security.js:25 | One left-to-right pass over `javajavascript:script:…` joins the halves into a new `javascript:`. |
| SanitizeExamples.RecreatedSurvives | src/utils/security.js:23-27 | The re-created protocol survives the remaining passes: the sanitized text still starts with `javascript:`. |
| SanitizeExamples.SanitizeInputNotIdempotent | src/utils/security.js:23-27 | Sanitizing that result again changes it, so the sanitizer is not idempotent. |
| SanitizeExamples.AddressNormalised | src/utils/security.test.js:70-75 | `  TEST@EXAMPLE.COM  ` becomes `test@example.com`. |
| SanitizeExamples.MissingPartsRefused | src/utils/security.test.js:77-83 | `invalid` and `test@` give "". |
| SanitizeExamples.LeadingAtRefused | src/utils/security.test.js:77-83 | `@example.com` gives "". |
| SanitizeExamples.DangerousAddressKept | src/utils/security.js:31-38 | An address whose local part is a script tag is kept with its brackets deleted, not refused. |
| SanitizeExamples.AllowedUrlsUnchanged | src/utils/security.test.js:101-112 | `https://…`, `http://…`, `/relative/path` and `#anchor` come back unchanged. |
| SanitizeExamples.HostGetsScheme | src/utils/security.test.js:94-99 | `example.com` becomes `https://example.com`. |
| SanitizeExamples.ProtocolUrlRewritten | src/utils/security.test.js:114-119 | `javascript:alert("xss")` as a URL becomes `https://alert("xss")`. |
| Csrf.HexChar | src/utils/security.js:60 | Each digit value 0..15 gives a lower-case hex character that reads back as that value. |
| Csrf.ByteToHex | src/utils/security.js:60 | `toString(16)` writes one digit exactly for bytes below 16 and never a leading zero. |
| Csrf.PadStart | src/utils/security.js:60 | `padStart` fills at the front up to the width and keeps the text at the end. |
| Csrf.ByteHex | src/utils/security.js:60 | Each byte becomes exactly two hex digits whose value is the byte. |
| Csrf.HexEncode | src/utils/security.js:60 | The encoding has two hex digits per byte, pair i encoding byte i. |
| Csrf.HexRoundTrip | src/utils/security.js:60 | Decoding the encoding gives the bytes back. |
| Csrf.HexEncodeInjective | src/utils/security.js:60 | Different bytes give different encodings. |
| Csrf.GenerateCsrfToken | src/utils/security.js:57-61 | A token is 64 lower-case hex characters that decode to the 32 random bytes. |
| Csrf.ValidateCsrfToken | src/utils/security.js:64-67 | A falsy token or stored token is refused; otherwise acceptance is exactly strict equality. |
| Csrf.TokenChecks | src/utils/security.test.js:123-139 | A token validates against itself and against nothing else, and a missing token on either side is refused. |
| Csrf.DistinctRandomDistinctTokens | src/utils/security.js:57-67 | Tokens from different random bytes never validate against each other. |
| JsValue.KeyIndex | src/utils/security.js:152 | The position of a key among an object's entries, absent exactly when no entry has the key. |
| JsValue.Assign | src/utils/security.js:116-124 | Defining a property, as a spread or object literal does, keeps keys distinct, replaces an existing key in place or appends a new one, and leaves every other entry where it was; `__proto__` is an ordinary key here. |
| JsValue.Get | src/utils/security.js:131 | A property read finds the entry of that key, and is `undefined` exactly when there is none. |
| JsValue.GetAssign | src/utils/security.js:152 | Reading back after an assignment gives the value; every other key reads as before. |
| JsValue.KeyIndexUnique | src/utils/security.js:152 | With distinct keys a key has one position. |
| JsValue.LexLessIrreflexive | src/utils/immutable-utils.js:41-45 | String `<`, which compares UTF-16 code units, is irreflexive. |
| JsValue.LexLessTransitive | src/utils/immutable-utils.js:41-45 | String `<` on code units is transitive. |
| JsValue.LexLessTotal | src/utils/immutable-utils.js:41-45 | Two different strings are ordered one way and never both, because the UTF-16 encoding is injective. |
| JsValue.UnitsLessIrreflexive | src/utils/immutable-utils.js:42 | The code-unit order is irreflexive. |
| JsValue.UnitsLessTransitive | src/utils/immutable-utils.js:42 | The code-unit order is transitive. |
| JsValue.UnitsLessTotal | src/utils/immutable-utils.js:42 | Two different code-unit sequences are ordered exactly one way. |
| JsValue.AstralBeforeHighBmp | src/utils/immutable-utils.js:42 | A character above U+FFFF sorts before U+FF61 although its code point is larger: strings compare by code unit. |
| JsValue.SetProperty | src/utils/security.js:152 | `obj[key] = value` reads back as the value and leaves other keys as they were; assigning `__proto__` adds no own entry. |
| JsValue.GetAssignOthers | src/utils/security.js:152 | After defining a key every other key reads as before. |
| ApiSecurity.AddSecurityHeaders | src/utils/security.js:115-126 | The decorated request keeps distinct keys, gains at most the `headers` entry, keeps every other setting, and carries the four security headers with their fixed values whatever headers it had. |
| ApiSecurity.HeadersOfDecorated | src/utils/security.js:117-124 | Its headers are the original headers spread, then the four security headers assigned in order. |
| ApiSecurity.SecurityHeadersPresent | src/utils/security.js:120-123 | The four security headers are present with their fixed values, overriding any the caller set. |
| ApiSecurity.OtherHeadersKept | src/utils/security.js:119 | Every other header keeps the value the caller gave. |
| ApiSecurity.OtherSettingsKept | src/utils/security.js:117 | Every setting other than `headers` is kept. |
| ApiSecurity.HeaderOf | src/utils/security.js:118-124 | A header of the decorated request is the last value assigned to it in the spread. |
| ApiSecurity.SecurityHeaderWritten | src/utils/security.js:120-123 | Whatever the spread headers held, each security header ends with its fixed value. |
| ApiSecurity.HeaderKeysDistinct | src/utils/security.js:120-123 | The four header names are different. |
| ApiSecurity.SpreadHeaders | src/utils/security.js:119 | Spreading an object with distinct keys copies its entries in order; `undefined` or `null` spreads nothing. |
| ApiSecurity.AssignAll | src/utils/security.js:116-124 | Defining the literal's properties one after another keeps the keys distinct. |
| ApiSecurity.AssignAllFresh | src/utils/security.js:118-124 | Assigning keys that are all new appends them in order. |
| ApiSecurity.GetAssignAllLast | src/utils/security.js:118-124 | The last assignment to a key decides its value. |
| ApiSecurity.GetAssignAllUntouched | src/utils/security.js:118-124 | Assignments to other keys leave a key as it was. |
| ApiSecurity.ValidateResponse | src/utils/security.js:129-137 | The response is returned unchanged unless it throws; a non-object response, or one whose `headers` is missing, `undefined` or `null`, throws a TypeError; it throws the content-type error exactly when a content type is present, truthy and lacks `application/json`; a missing content type lets the response through. |
| ApiSecurity.StringContentType | src/utils/security.js:131-134 | A string content type is accepted exactly when it is empty or contains `application/json`. |
| ApiSecurity.IncludesJson | src/utils/security.js:132 | On a string, `includes` is substring containment; on a non-string it throws. |
| ApiSecurity.ContentType | src/utils/security.js:131 | Reading `response.headers['content-type']` throws a TypeError exactly when the response is not an object or its headers are missing, `undefined` or `null`; otherwise it is the headers' content-type entry. |
| ApiSecurity.SanitizeData | src/utils/security.js:140-158 | Every string and every key of the result is sanitized; non-string primitives are kept and strings are sanitized; an array becomes the array of its sanitized elements, position by position; an object gets distinct keys, never more entries, and never an own `__proto__`. |
| ApiSecurity.ObjectOf | src/utils/security.js:150-154 | Assigning sanitized pairs builds an object with distinct safe keys, at most one entry per pair and no `__proto__` entry. |
| ApiSecurity.SetAll | src/utils/security.js:151-153 | Assigning one pair after another keeps the keys distinct. |
| ApiSecurity.SetAllOrigin | src/utils/security.js:151-153 | Every entry of the built object came from the start object or from an assigned pair other than `__proto__`. |
| ApiSecurity.SetAllLength | src/utils/security.js:151-153 | Each assignment adds at most one entry. |
| ApiSecurity.GetSetAllUntouched | src/utils/security.js:151-153 | A key never assigned, or `__proto__`, reads as in the start object. |
| ApiSecurity.GetSetAllLast | src/utils/security.js:151-153 | The last assignment to an ordinary key decides its value. |
| ApiSecurity.SanitizedPairs | src/utils/security.js:151-152 | Position by position, the pair assigned is the sanitized key with the sanitized value. |
| ApiSecurity.LastWithKey | src/utils/security.js:151-153 | Some entry with a key is the last one with it. |
| ApiSecurity.SanitizedEntries | src/utils/security.js:149-155 | The sanitized object has a key exactly when it is not `__proto__` and some input key sanitizes to it, and holds there the sanitized value of the last such entry. |
| ApiSecurity.SanitizedKey | src/utils/security.js:149-155 | The sanitized object has a key exactly when it is not `__proto__` and some input key sanitizes to it. |
| ApiSecurity.SanitizedValue | src/utils/security.js:151-153 | Under such a key lies the sanitized value of the last input entry whose key sanitizes to it. |
| ApiSecurity.SetAllIsAssignAll | src/utils/security.js:151-153 | Assignments that never name `__proto__` are property definitions. |
| ApiSecurity.CleanDataIsFixedPoint | src/utils/security.js:140-158 | Data whose strings and keys are all clean and whose keys are distinct comes back unchanged. |
| InputValidation.ValidateBankName | src/utils/security.js:164-168 | A name is accepted exactly when it is a non-empty string whose sanitized text is 2 to 100 UTF-16 code units long; an accepted name is itself at least 2 units long. |
| InputValidation.PlainNameDecided | src/utils/security.js:164-168 | For plain text padded with white space, the decision depends only on the unpadded length, in code units, being 2 to 100. |
| InputValidation.PlainNameBounds | src/utils/security.js:167 | Any plain name 2 to 100 code units long is accepted. |
| InputValidation.ShortNamesRefused | src/utils/security.test.js:146-148 | Names shorter than two code units and non-strings are refused. |
| InputValidation.PlainNameAccepted | src/utils/security.test.js:144-149 | `Test Bank` is accepted. |
| InputValidation.TagNameAccepted | src/utils/security.js:164-168 | `<script>alert("xss")</script>` is accepted as a bank name: only its brackets are removed. |
| InputValidation.AstralNameAccepted | src/utils/security.js:167 | A single character above U+FFFF is two code units and so a long enough name. |
| InputValidation.PlainUtf16Length | src/utils/security.js:167 | Plain text is ASCII, so its `length` is its number of characters. |
| InputValidation.ValidateNumber | src/utils/security.js:171-174 | A number is accepted exactly when it parsed (not NaN) and lies in the closed range; an empty range accepts nothing. |
| InputValidation.ValidateNumberWidens | src/utils/security.js:171-174 | Widening the range never refuses a number that was accepted. |
| InputValidation.ValidatePercentage | src/utils/security.js:177-179 | Accepted exactly for parsed numbers in 0..100. |
| InputValidation.ValidateCurrency | src/utils/security.js:182-184 | Accepted exactly for parsed numbers from 0 up to `Number.MAX_SAFE_INTEGER`. |
| InputValidation.ValidateLoanTerm | src/utils/security.js:187-189 | Accepted exactly for parsed numbers in 1..50. |
| InputValidation.RangesNest | src/utils/security.js:177-189 | A valid term is a valid percentage, and a valid percentage a valid amount. |
| InputValidation.NumberExamples | src/utils/security.test.js:157-192 | The boundary values of the unit tests: both ends of each range accepted, just outside refused, NaN refused. |
| RateLimit.Prune | src/utils/security.js:220 | Pruning is the filter of the times inside the window: it keeps exactly the recent times, in order, never adding one. |
| RateLimit.PruneCounts | src/utils/security.js:220 | Each time occurs after pruning as often as before if it is recent and not at all otherwise. |
| RateLimit.IsAllowed | src/utils/security.js:215-231 | A call is allowed exactly when fewer than the limit of recent times remain; a refusal changes nothing, an allowed call stores the recent times plus now. |
| RateLimit.IsAllowedKeepsBound | src/utils/security.js:215-231 | With a positive window, no key ever holds more times than the limit, and after an allowed call all its times are recent. |
| RateLimit.KeysIndependent | src/utils/security.js:217-228 | A call for one key leaves every other key's history unchanged. |
| RateLimit.Run | src/utils/security.js:215-231 | A series of calls for one key touches no other key. |
| RateLimit.Verdict | src/utils/security.js:215-231 | Call i of a series is allowed exactly when fewer than the limit of the times stored before it are inside the window, and the run through it is the run before it followed by that call. |
| RateLimit.BurstHistory | src/utils/security.js:215-231 | In a burst within one window from no history, the stored times are the first calls up to the limit. |
| RateLimit.BurstVerdicts | src/utils/security.test.js:202-221 | In such a burst exactly the first `maxRequests` calls are allowed. |
| RateLimit.ResetAfterWindow | src/utils/security.test.js:223-245 | Once every stored time is a full window old, the next call is allowed and starts a fresh history. |
| RateLimit.PruneDropsAll | src/utils/security.js:220 | Times a full window old all go. |
| RateLimit.PruneKeepsAll | src/utils/security.js:220 | Times inside the window all stay. |
| RateLimit.PruneTwice | src/utils/security.js:220 | Pruning at an earlier time and then later is pruning later. |
| RateLimit.Cleanup | src/utils/security.js:234-244 | Cleanup prunes every key with the fixed 60 s window and deletes exactly the keys left empty. |
| RateLimit.CleanupInvisible | src/utils/security.js:215-244 | A cleanup never changes the verdict or the stored history of a later call with the default window. |
| RateLimit.CleanupIdempotent | src/utils/security.js:234-244 | Cleaning twice at the same time is cleaning once, and cleaning keeps the limit bound. |
| Seqs.FilterMembership | src/redux/banks/banks-reducer.js:12 | An element survives a filter exactly when it was there and passes the test. |
| Seqs.FilterSubsequence | src/redux/banks/banks-selectors.js:15-17 | Filtering keeps the survivors in their order. |
| Seqs.FilterKeepsAll | src/utils/immutable-utils.js:23 | Nothing is dropped when every element passes. |
| Seqs.FilterAppend | src/utils/immutable-utils.js:23 | Filtering distributes over concatenation. |
| Seqs.FilterTwice | src/utils/immutable-utils.js:23 | Filtering twice is filtering once by both tests. |
| Seqs.FilterCount | src/redux/banks/banks-selectors.js:15-17 | An element occurs in a filter as often as in the input when it passes, and not at all otherwise. |
| Seqs.FilterCounts | src/redux/banks/banks-selectors.js:15-17 | The same for every element at once. |
| BankCollections.FindBankById | src/utils/immutable-utils.js:15-18 | The result is absent exactly when no bank's id is `===` the id; otherwise it is a bank of the list with that id. |
| BankCollections.FindAfterRemoval | src/utils/immutable-utils.js:15-18 | After the banks with an id are filtered out, none is found by it. |
| BankCollections.FindAppended | src/utils/immutable-utils.js:15-18 | A bank appended with a fresh id is the one found by it. |
| BankCollections.CriterionHolds | src/utils/immutable-utils.js:25-29 | A non-string criterion is strict equality of the field, and is false for an inherited `Object.prototype` name the bank lacks; a string criterion is a case-insensitive substring test on a truthy field, which throws a TypeError exactly when the field is an inherited method or a truthy non-string. |
| BankCollections.InheritedCriterion | src/utils/immutable-utils.js:26-29 | On a bank without a `toString` field, a string `toString` criterion throws, `undefined` matches nothing, and the field reads as missing. |
| BankCollections.MatchesAll | src/utils/immutable-utils.js:24-30 | `every` succeeds exactly when every criterion holds without throwing, and stops at the first throw. |
| BankCollections.FindBanksByCriteria | src/utils/immutable-utils.js:20-32 | The result is the banks meeting every criterion, in order; it throws a TypeError exactly when some bank's check throws. |
| BankCollections.InheritedSearchThrows | src/utils/immutable-utils.js:23-29 | A text criterion named after an inherited `Object.prototype` member throws for the whole search when some bank lacks that field. |
| BankCollections.InheritedMatchThrows | src/utils/immutable-utils.js:24-28 | For one bank lacking an inherited name, a text criterion of that name makes `every` throw. |
| BankCollections.FailingBankFails | src/utils/immutable-utils.js:23-31 | One bank whose check throws makes the whole search throw a TypeError. |
| BankCollections.NoCriteriaKeepAll | src/utils/immutable-utils.js:24 | Empty criteria keep every bank. |
| BankCollections.NonStringCriteriaSucceed | src/utils/immutable-utils.js:29 | Criteria without string values never throw. |
| BankCollections.MatchesAllNoThrow | src/utils/immutable-utils.js:29 | The same for one bank. |
| BankCollections.CriterionCaseInsensitive | src/utils/immutable-utils.js:27 | A string criterion ignores the case of the criterion text. |
| BankCollections.GreaterTransitive | src/utils/immutable-utils.js:41-45 | `>` on field values of one kind is transitive. |
| BankCollections.GreaterTotal | src/utils/immutable-utils.js:41-45 | Two different values of one kind are ordered exactly one way. |
| BankCollections.Insert | src/utils/immutable-utils.js:37-46 | Inserting adds exactly the one bank. |
| BankCollections.InsertOrdered | src/utils/immutable-utils.js:37-46 | Inserting a bank with a comparable key into an ordered list keeps it ordered. |
| BankCollections.InsertionSort | src/utils/immutable-utils.js:37-46 | The sort is a permutation, ordered when the keys are pairwise distinct and of one kind. |
| BankCollections.SortBanks | src/utils/immutable-utils.js:34-47 | The result is a permutation of the banks; with distinct keys of one kind it is strictly ascending for `'asc'` (the default) and strictly descending for any other order. |
| BankCollections.SortedEnds | src/utils/immutable-utils.js:34-47 | The sorted list starts with the bank all others go after and ends with the one that goes after all others. |
| BankCollections.SortAscendingExample | src/utils/immutable-utils.test.js:75-80 | Rates "5.5", "4.8", "6.2" sort ascending to 4.8 first and 6.2 last. |
| BankCollections.SortDescendingExample | src/utils/immutable-utils.test.js:82-87 | And descending to 6.2 first and 4.8 last. |
| BankCollections.AddToGroup | src/utils/immutable-utils.js:52 | Adding a bank appends it to its key's group or opens a new group at the end; keys stay distinct. |
| BankCollections.GroupBanksBy | src/utils/immutable-utils.js:49-53 | The groups have distinct keys, one per value the field takes, each holding exactly the banks with that value in their order. |
| BankCollections.GroupingSizes | src/utils/immutable-utils.js:49-53 | There is one group per distinct value and the group sizes add up to the number of banks. |
| BankCollections.GroupMembership | src/utils/immutable-utils.test.js:91-98 | Every bank lies in exactly the group of its field value. |
| BankCollections.MembersAbsent | src/utils/immutable-utils.js:52 | A value the field never takes has no members. |
| BankCollections.AddToGroupSize | src/utils/immutable-utils.js:52 | Each added bank grows the total group size by one. |
| BankCollections.GroupKeysCount | src/utils/immutable-utils.js:52 | Distinct keys mean as many keys as groups. |
| BankCollections.Round | src/utils/immutable-utils.js:90-91 | `Math.round` is within half a unit of its argument. |
| BankCollections.RoundCents | src/utils/immutable-utils.js:88-89 | Rounding to cents gives a whole number of cents within half a cent. |
| BankCollections.RoundCentsUnique | src/utils/immutable-utils.js:88-89 | Rounding to cents is determined: the one whole number of cents in the band from just over half a cent below the value to half a cent above it. |
| BankCollections.Summarise | src/utils/immutable-utils.js:58-92 | The count is the number of banks; an empty list gives all zeros; otherwise each average is within half a cent (rate, term, both whole cents) or half a unit (loan, down payment, both whole numbers) of the exact mean. |
| BankCollections.CalculateBanksStatistics | src/utils/immutable-utils.js:55-93 | The statistics count the banks and are all zero for an empty list; otherwise the rate and term are the cent-rounded mean, and the loan and down payment the rounded mean, of each column's parsed values over all banks (`NaN` counted as 0). |
| BankCollections.FiguresSeq | src/utils/immutable-utils.js:70-84 | The column of parsed figures has one entry per bank, the bank's parsed field or 0 for NaN. |
| BankCollections.SumOfFigures | src/utils/immutable-utils.js:70-84 | Summing the column is the field total over the banks. |
| BankCollections.AverageRateInRange | src/utils/immutable-utils.js:70-88 | The reported average rate lies within half a cent of the range of the banks' rates. |
| BankCollections.SumBetween | src/utils/immutable-utils.js:70-84 | A column's sum lies between count·min and count·max. |
| BankCollections.StatisticsExample | src/utils/immutable-utils.test.js:32-40 | The three banks of the unit tests give 3 banks, rate 5.5, term 25, maximum loan 516667 and down payment 51667. |
| BanksStore.Items | src/redux/banks/banks-reducer.js:5-13 | A fetch replaces the list, an add appends the bank, a delete removes exactly the banks with that id, keeping every other bank as often as it occurred and in order; other actions leave it. |
| BanksStore.Loading | src/redux/banks/banks-reducer.js:15-25 | Loading is on while any request is pending and off once it is fulfilled or rejected. |
| BanksStore.FilterText | src/redux/banks/banks-reducer.js:27-29 | Only `changeFilter` sets the filter. |
| BanksStore.Reduce | src/redux/banks/banks-reducer.js:33-38 | Each slice is reduced independently and `error` never changes. |
| BanksStore.ErrorStaysNull | src/redux/banks/banks-reducer.js:31 | Starting from `null`, the error stays `null` through any series of actions. |
| BanksStore.DeleteRemovesId | src/redux/banks/banks-reducer.js:11-12 | After a delete no bank with that id is found, and every other bank is kept. |
| BanksStore.AddMakesFindable | src/redux/banks/banks-reducer.js:7-10 | After adding a bank with a fresh id, looking up that id finds it. |
| BanksStore.NameMatches | src/redux/banks/banks-selectors.js:16 | The name test succeeds exactly when both the bank name and the filter are strings. |
| BanksStore.FilterByName | src/redux/banks/banks-selectors.js:15-17 | Filtering throws a TypeError exactly when some bank's test throws; otherwise it keeps the banks whose name contains the filter, ignoring case. |
| BanksStore.GetFilteredBanks | src/redux/banks/banks-selectors.js:9-18 | A falsy filter gives all banks; otherwise the result is the name filter of the list: in order, exactly the banks whose name contains the filter text, ignoring case. |
| BanksStore.FilteredCounts | src/redux/banks/banks-selectors.js:9-18 | Each bank occurs in the filtered list as often as in the store when it passes the filter, and not at all otherwise. |
| BanksStore.GetLoading | src/redux/banks/banks-selectors.js:1 | The loading selector reads the slice's loading flag. |
| BanksStore.GetFilter | src/redux/banks/banks-selectors.js:3 | The filter selector reads the slice's filter. |
| BanksStore.GetAllBanks | src/redux/banks/banks-selectors.js:5 | The banks selector reads the slice's list. |
| BanksStore.GetError | src/redux/banks/banks-selectors.js:7 | The error selector reads the slice's error. |
| BanksStore.FilterCaseInsensitive | src/redux/banks/banks-selectors.js:16 | Filters equal up to case give the same result. |
| BanksStore.MissingNameThrows | src/redux/banks/banks-selectors.js:16 | A bank without a string name makes a non-empty string filter throw. |
| FormValidation.FieldError | src/hooks/useFormValidation/index.js:31-67 | An untouched empty field has no error; a touched or filled required field left blank gets the required message; length limits count UTF-16 code units; any other error needs a value or a custom check; messages are never empty. |
| FormValidation.FirstFailure | src/hooks/useFormValidation/index.js:37-66 | The first failing check's message is reported, none of the checks before it fails, and nothing is reported exactly when no check fails. |
| FormValidation.FieldErrorIsFirstFailure | src/hooks/useFormValidation/index.js:35-67 | A checked field reports the message of the first failing check in the order required, minimum length, maximum length, pattern, custom, so at most one message per field. |
| FormValidation.DefaultMessages | src/hooks/useFormValidation/index.js:37-56 | Without rule messages, the defaults are "This field is required", "Minimum N characters required", "Maximum N characters allowed" and "Invalid format". |
| FormValidation.RequiredText | src/hooks/useFormValidation/index.js:38 | The required message is never empty. |
| FormValidation.MinLengthMessage | src/hooks/useFormValidation/index.js:44 | The minimum-length message is never empty. |
| FormValidation.MaxLengthMessage | src/hooks/useFormValidation/index.js:50 | The maximum-length message is never empty. |
| FormValidation.ValidateForm | src/hooks/useFormValidation/index.js:25-73 | The error map holds exactly the ruled fields with an error, each with its message, and the form is valid exactly when no ruled field has one. |
| FormValidation.ValidIffNoErrors | src/hooks/useFormValidation/index.js:39-72 | The form is valid exactly when the error map is empty. |
| FormValidation.AllPassNoErrors | src/hooks/useFormValidation/index.js:25-73 | Fields that all pass give no errors and a valid form. |
| FormValidation.Settle | src/hooks/useFormValidation/index.js:24-76 | The effect recomputes errors and validity and leaves values and touched fields. |
| FormValidation.Mount | src/hooks/useFormValidation/index.js:17-21 | The hook starts on the initial values with no field touched. |
| FormValidation.HandleChange | src/hooks/useFormValidation/index.js:79-82 | A change sets its field and touches it, leaving errors and validity to the effect. |
| FormValidation.ChangeIsLocal | src/hooks/useFormValidation/index.js:79-82 | A change sets and touches only its own field. |
| FormValidation.HandleBlur | src/hooks/useFormValidation/index.js:85-87 | A blur only touches its field. |
| FormValidation.ResetForm | src/hooks/useFormValidation/index.js:90-95 | A reset restores the initial values, clears errors and touched fields and marks the form invalid. |
| FormValidation.ResetClearsUntouched | src/hooks/useFormValidation/index.js:90-95 | After a reset has settled, a field whose initial value is empty has no error. |
| FormValidation.HandleSubmit | src/hooks/useFormValidation/index.js:98-114 | Submit touches every ruled field and hands over the values exactly when the validity flag of the current render is set. |
| FormValidation.SubmitWhenValid | src/hooks/useFormValidation/index.js:98-114 | The corrected submit hands over the values exactly when no field has an error with every field touched. |
| FormValidation.SubmittedFormsAreFilled | src/hooks/useFormValidation/index.js:37-112 | The corrected submit never hands over a form with a required field blank. |
| FormValidation.BlankRequiredReported | src/hooks/useFormValidation/index.js:37-39 | A touched required field left blank is reported with its required message. |
| FormValidation.ErrorsOnlyWhereChecked | src/hooks/useFormValidation/index.js:30-35 | Only ruled fields that are touched or filled can have errors. |
| PatternsDemo.ConfirmCheck | src/pages/PatternsDemo/index.jsx:93-98 | The confirmation passes exactly when it equals the password. |
| PatternsDemo.InvalidEmailReported | src/pages/PatternsDemo/index.jsx:81-85 | A filled-in email the pattern refuses is reported as invalid. |
| PatternsDemo.ShortPasswordReported | src/pages/PatternsDemo/index.jsx:86-90 | A filled-in password under six code units is reported as too short. |
| PatternsDemo.MismatchReported | src/pages/PatternsDemo/index.jsx:91-99 | A filled-in confirmation differing from the password is reported. |
| PatternsDemo.CompleteFormValid | src/pages/PatternsDemo/index.jsx:80-100 | A well-formed email, a password of six or more code units and a matching confirmation give no errors and a valid form. |
| PatternsDemo.EmailAccepted | src/pages/PatternsDemo/index.jsx:81-85 | A filled-in well-formed email has no error. |
| PatternsDemo.PasswordAccepted | src/pages/PatternsDemo/index.jsx:86-90 | A filled-in password of six or more code units has no error. |
| PatternsDemo.ConfirmAccepted | src/pages/PatternsDemo/index.jsx:91-99 | A filled-in matching confirmation has no error. |
| PatternsDemo.BlankEmailRequired | src/pages/PatternsDemo/index.jsx:82 | Once every field is touched, a blank email is reported as required. |
| PatternsDemo.BlankPasswordRequired | src/pages/PatternsDemo/index.jsx:87 | Likewise a blank password. |
| PatternsDemo.BlankConfirmRequired | src/pages/PatternsDemo/index.jsx:92 | Likewise a blank confirmation. |
| PatternsDemo.EmptyFormSubmitted | src/pages/PatternsDemo/index.jsx:108-118 | As written, the freshly mounted empty form is valid and a submit hands it over. |
| PatternsDemo.EmptyFormRefused | src/pages/PatternsDemo/index.jsx:108-118 | The corrected submit refuses the same empty form. |
| Locales.SupportedCodes | src/locales/index.js:6-17 | The supported codes are exactly `en` and `uk`. |
| Locales.Entry | src/locales/index.js:6-17 | A supported code's entry is in the table under that code. |
| Locales.LanguagePrefix | src/locales/index.js:27 | The language prefix is the text before the first `-`. |
| Locales.GetLocaleAsWritten | src/locales/index.js:20-29 | As written, the result is always a key `locales[...]` finds truthy (own or inherited), and a non-empty saved value with a truthy entry wins. |
| Locales.GetLocale | src/locales/index.js:20-29 | The corrected choice is always supported: the saved locale if supported, else the browser language if supported, else `en`. |
| Locales.SetLocaleAsWritten | src/locales/index.js:32-37 | As written, the code is stored and the page reloads exactly when `locales[code]` is truthy. |
| Locales.SetLocale | src/locales/index.js:32-37 | The corrected setter stores and reloads exactly for supported codes and otherwise changes nothing. |
| Locales.SetThenGet | src/locales/index.js:20-37 | After choosing a supported locale it is the one in use; an unsupported choice changes nothing. |
| Locales.AsWrittenAgrees | src/locales/index.js:20-29 | Off the inherited property names, the written and corrected choices agree. |
| Locales.PrototypeKeyReturned | src/locales/index.js:22-33 | A saved `toString` is returned as the locale and accepted by the setter, though it is no locale. |
| Locales.ListLocales | src/locales/index.js:71-74 | The list has one entry per key, carrying the key as its code and that locale's name and flag. |
| Locales.UseLocale | src/locales/index.js:62-76 | The current locale is the chosen one, its name and flag are its table entry, and the list is the table. |
| Locales.OneEntryPerLocale | src/locales/index.js:71-74 | The list's codes are distinct and are exactly the supported ones. |
| Locales.BrowserLanguageUsed | src/locales/index.js:27-28 | A `uk-UA` browser without a saved choice gets Ukrainian. |
| Locales.SavedChoiceWins | src/locales/index.js:21-24 | A saved supported locale wins over the browser language. |
| Locales.EnglishFallback | src/locales/index.js:28 | An unsupported saved value and browser language give English. |
| Locales.SetExamples | src/locales/index.js:32-37 | Choosing Ukrainian stores it and reloads; an unknown code changes nothing. |
| CookieBanner.Marker | src/components/CookiesBanner/index.js:24 | The separator is `; `, the name and `=`. |
| CookieBanner.GetCookie | src/components/CookiesBanner/index.js:22-26 | A found value contains no `;` and the marker was present. |
| CookieBanner.GetCookieAbsent | src/components/CookiesBanner/index.js:24-25 | Without the marker the cookie is absent. |
| CookieBanner.GetCookieUnique | src/components/CookiesBanner/index.js:24-25 | With the marker at one place the value runs from it to the next `;`. |
| CookieBanner.GetCookieTwice | src/components/CookiesBanner/index.js:24-25 | With the marker at two non-overlapping places the split has three parts and the cookie reads as absent. |
| CookieBanner.SinglePair | src/components/CookiesBanner/index.js:22-26 | On a single pair the cookie is found exactly when the pair starts with the whole name and `=`, and the value is the rest. |
| CookieBanner.WholeNameExample | src/components/CookiesBanner/index.js:22-26 | Name `b` is not found in `ab=1`. |
| CookieBanner.Lookup | src/components/CookiesBanner/index.js:18 | The stored value of a name is the value of its pair, absent exactly when no pair has it. |
| CookieBanner.DocumentCookie | src/components/CookiesBanner/index.js:23 | The leading `; ` plus the store's text is the concatenation of its `; name=value` segments. |
| CookieBanner.MarkerPlaces | src/components/CookiesBanner/index.js:24 | In a well-formed store the marker occurs nowhere for an absent name and exactly once for a present one, followed by its value up to the next `;`. |
| CookieBanner.MarkerInSegment | src/components/CookiesBanner/index.js:24 | Inside one segment the marker can only start at the segment's start, with the segment's own name. |
| CookieBanner.CookieRoundTrip | src/components/CookiesBanner/index.js:18-26 | Reading a name from a well-formed store's `document.cookie` gives exactly the stored value. |
| CookieBanner.SetCookie | src/components/CookiesBanner/index.js:18 | Writing a cookie makes its name read the new value and leaves every other name as it was. |
| CookieBanner.SetKeepsWellFormed | src/components/CookiesBanner/index.js:18 | Writing a plain name and a value without `;` keeps the store well formed. |
| CookieBanner.CheckCookie | src/components/CookiesBanner/index.js:82-88 | The banner hides exactly when it was hidden or the consent cookie reads `accepted`. |
| CookieBanner.Init | src/components/CookiesBanner/index.js:6-12 | A fresh banner starts hidden exactly when the consent cookie reads `accepted`. |
| CookieBanner.HandleAccept | src/components/CookiesBanner/index.js:76-80 | Accepting hides the banner and stores `userConsent=accepted`, leaving other cookies. |
| CookieBanner.AcceptRemembered | src/components/CookiesBanner/index.js:76-80 | After accepting, every later page load starts with the banner hidden. |
| CookieBanner.InitFollowsStore | src/components/CookiesBanner/index.js:82-88 | A page load hides the banner exactly when the stored consent is `accepted`. |
| CookieConsent.Level | src/hooks/useCookies/index.js:15-36 | Each choice writes a non-empty level. |
| CookieConsent.LevelsDistinct | src/hooks/useCookies/index.js:15-36 | The three levels are different, so the level tells the choice. |
| CookieConsent.Optional | src/hooks/useCookies/index.js:15-36 | The optional cookies are written `true` exactly for accept-all, and `false` otherwise. |
| CookieConsent.Mount | src/hooks/useCookies/index.js:9-12 | The mounted state holds the stored level, or `null` when it is missing or empty. |
| CookieConsent.Choose | src/hooks/useCookies/index.js:15-36 | A choice writes the level and both optional cookies, keeps every other cookie, and sets the state to the level. |
| CookieConsent.IsCookieAccepted | src/hooks/useCookies/index.js:39-42 | A kind is accepted exactly when its cookie is the string `true`. |
| CookieConsent.GetPreferences | src/hooks/useCookies/index.js:45-51 | The preferences report the state's level and whether each optional cookie is `true`. |
| CookieConsent.PreferencesFollowChoice | src/hooks/useCookies/index.js:15-51 | After a choice, analytics and marketing are on exactly for accept-all. |
| CookieConsent.ChoiceSurvivesReload | src/hooks/useCookies/index.js:9-12 | Mounting again on the written cookies restores the same state and preferences. |
| CookieConsent.LastChoiceWins | src/hooks/useCookies/index.js:15-36 | Choosing twice is the same as choosing the second time. |

## Left out

- Floating point: amounts, rates and averages are exact reals, so rounding error, `Infinity` and `toFixed(2)` rendering of schedule rows are not modelled; `Math.round` and the cent rounding are modelled on reals.
- LoanEngine.MonthlyPayment: requires a positive monthly rate and at least one payment, because the formula divides by zero otherwise (NaN in the source); the validator only admits rates 1..99 and terms 1..50.
- The submit handler of `public/calculator.js` (lines 68-98): DOM reads, `parseFloat`, `alert` and rendering are I/O; `parseFloat` results are inputs to the model (`None` for NaN).
- LoanValidator.Validate: each numeric input is given both as the text the pattern sees and as its parsed value, since JavaScript's number-to-string conversion is not modelled.
- Text.ToLower: folds ASCII letters only; JavaScript's full Unicode case mapping is not modelled.
- `sanitizeHTML` (DOMPurify), `secureStorage` (base64 and `localStorage`), `csp.generateCSP` and the `setInterval` timer are foreign code or I/O; cleanup is modelled as an operation called with the time.
- ApiSecurity.SpreadHeaders: spreads only plain-object headers (or none); spreading a string or array into headers is not modelled.
- Object keys keep insertion order; JavaScript's placement of integer-like keys first is not modelled.
- Object identity: arrays and objects are never `===` to anything, so `findBankById` with an object id finds nothing.
- BankCollections.GroupBanksBy: groups array and object field values by structure, whereas Immutable's `groupBy` keys plain objects and arrays by identity; a field named after an inherited `Object.prototype` member the bank lacks reads as `undefined` rather than the inherited function.
- BankCollections.SortBanks: likewise reads an inherited `Object.prototype` name the bank lacks as `undefined`.
- JsValue.SetProperty: assigning an object to `__proto__` replaces the prototype in JavaScript; the model keeps no prototype, so later reads of inherited names through it are not modelled.
- ApiSecurity.AddSecurityHeaders: takes a plain-object config; an `undefined` or `null` config, where `config.headers` throws a TypeError, and primitive or array configs are not modelled.
- Locales.UseLocale: is built on the corrected `getLocale` (see Findings), whereas the source hook uses the lookup as written. With a stored inherited method name such as `toString`, the source's hook reports that name as `currentLocale`, the inherited function's own `name` as `localeName` and `undefined` as `localeFlag`; with `__proto__` both name and flag are `undefined`.
- BankCollections.SortBanks: ordering is stated only when the keys are pairwise distinct values of one kind (numbers or strings); the source's comparator returns -1 on ties and is inconsistent there, and the engine's sort algorithm is not specified, so the model fixes insertion sort and claims nothing about ties or mixed kinds.
- BankCollections.Greater: compares numbers with numbers and strings with strings; JavaScript's coercing comparison of mixed kinds is not modelled.
- `toImmutableList`, `toImmutableMap` and `toImmutable` are Immutable.js constructors; lists are sequences and groups are lists of key and members.
- BankCollections.CalculateBanksStatistics: `parseFloat` is a parameter.
- The Redux async thunks (`banks-operations`) and the action creators are not part of this model; actions are a datatype.
- `setValues` and the rest of the hook's returned API beyond the modelled handlers; `onSubmit` is modelled as the values it would receive.
- FormValidation: field values are strings or absent (non-string values are not modelled); a `pattern` regular expression and a `custom` check are given as functions.
- The effect dependency on the rules object: the rules are fixed for the life of the form, as in the demo page.
- `formatDate`, `formatNumber`, `formatCurrency` and `formatPercent` call `Intl`; `LocaleProvider` and the message catalogues are rendering.
- A page reload after `setLocale` is a flag in the result.
- Cookie expiry dates, `path=/`, and `console.log` in the banner; the browser's cookie store is a list of name and value pairs.
- `render` and `setupEventListeners` of the banner are DOM work; the banner is its hidden flag.
- The `js-cookie` library's storage is a map from names to values.

## Findings

| source | as written | input that shows it | evidently intended | confidence | as-written member | corrected member |
|---|---|---|---|---|---|---|
| src/hooks/useFormValidation/index.js:98-114 | `handleSubmit` tests the validity flag of the current render, which was computed before the submit marked every field touched; untouched empty fields have no error, so the flag is set | mounting the demo form with all three fields empty and submitting at once | submit only when the form has no errors with every field touched | not executed | FormValidation.HandleSubmit, PatternsDemo.EmptyFormSubmitted | FormValidation.SubmitWhenValid, FormValidation.SubmittedFormsAreFilled, PatternsDemo.EmptyFormRefused |
| src/locales/index.js:20-37 | `locales[x]` is truthy for names inherited from `Object.prototype`, so they pass as locales | `localStorage.locale = "toString"`: `getLocale` returns `toString`, and `locales["toString"].messages` is undefined | accept only the table's own keys | not executed | Locales.GetLocaleAsWritten, Locales.SetLocaleAsWritten, Locales.PrototypeKeyReturned | Locales.GetLocale, Locales.SetLocale, Locales.SetThenGet |

The unit tests also expect a script-tagged email to be refused and a script-tagged
bank name to be rejected; the code keeps the address with its brackets deleted
(`SanitizeExamples.DangerousAddressKept`) and accepts the name
(`InputValidation.TagNameAccepted`).  The model follows the code.
`sanitizeInput` is not idempotent: one pass can re-create `javascript:` from
its halves (`SanitizeExamples.SanitizeInputNotIdempotent`).

=== FILE: api_security.dfy ===
/** `apiSecurity`: the request decorator that adds four fixed headers, the
    response check on the content type, and the recursive sanitizer of
    response data. */
module ApiSecurity {
  import opened Wrappers
  import opened Text
  import opened JsValue
  import opened Sanitize

  // ---------------------------------------------------------------------
  // addSecurityHeaders

  /** The four headers every request gets, in the order they are written. */
  const SecurityHeaders: seq<(string, string)> := [
    ("X-Requested-With", "XMLHttpRequest"),
    ("X-Content-Type-Options", "nosniff"),
    ("X-Frame-Options", "DENY"),
    ("X-XSS-Protection", "1; mode=block")
  ]

  /** Defines the pairs one after the other as own data properties, as an
      object spread or an object literal does (`__proto__` included). */
  function AssignAll(entries: seq<(string, Json)>, pairs: seq<(string, Json)>): (r: seq<(string, Json)>)
    requires DistinctKeys(entries)
    ensures DistinctKeys(r)
    decreases |pairs|
  {
    if |pairs| == 0 then entries
    else AssignAll(Assign(entries, pairs[0].0, pairs[0].1), pairs[1..])
  }

  /** Assigning keys that are all new appends them in order. */
  lemma {:induction false} AssignAllFresh(entries: seq<(string, Json)>, pairs: seq<(string, Json)>)
    requires DistinctKeys(entries) && DistinctKeys(entries + pairs)
    ensures AssignAll(entries, pairs) == entries + pairs
    decreases |pairs|
  {
    if |pairs| > 0 {
      var p := pairs[0];
      assert (entries + pairs)[|entries|] == p;
      assert KeyIndex(entries, p.0).None? by {
        forall i | 0 <= i < |entries| ensures entries[i].0 != p.0 {
          assert (entries + pairs)[i] == entries[i];
        }
      }
      assert Assign(entries, p.0, p.1) == entries + [p];
      assert entries + [p] + pairs[1..] == entries + pairs;
      assert DistinctKeys(entries + [p]) by {
        forall i, j | 0 <= i < j < |entries| + 1 ensures (entries + [p])[i].0 != (entries + [p])[j].0 {
          assert (entries + [p])[i] == (entries + pairs)[i] && (entries + [p])[j] == (entries + pairs)[j];
        }
      }
      AssignAllFresh(entries + [p], pairs[1..]);
    }
  }

  lemma SpreadOfDistinct(entries: seq<(string, Json)>)
    ensures DistinctKeys(entries) ==> AssignAll([], entries) == entries
  {
    if DistinctKeys(entries) {
      assert [] + entries == entries;
      AssignAllFresh([], entries);
    }
  }

  /** `{...h}` for the value of `config.headers`: the own entries of an
      object copied by assignment, nothing for `undefined` or `null`. */
  function SpreadHeaders(h: Option<Json>): (r: seq<(string, Json)>)
    ensures DistinctKeys(r)
    ensures h.Some? && h.value.JObject? && DistinctKeys(h.value.entries) ==> r == h.value.entries
  {
    match h
    case Some(JObject(entries)) =>
      SpreadOfDistinct(entries);
      AssignAll([], entries)
    case _ => []
  }

  /** `config.headers[key]` */
  function GetHeader(config: seq<(string, Json)>, key: string): Option<Json> {
    match Get(config, "headers")
    case Some(JObject(h)) => Get(h, key)
    case _ => None
  }

  function HeaderEntries(): (r: seq<(string, Json)>)
    ensures |r| == |SecurityHeaders|
    ensures forall i :: 0 <= i < |r| ==> r[i] == (SecurityHeaders[i].0, JPrim(Str(SecurityHeaders[i].1)))
  {
    seq(|SecurityHeaders|, i requires 0 <= i < |SecurityHeaders| => (SecurityHeaders[i].0, JPrim(Str(SecurityHeaders[i].1))))
  }

  /** `addSecurityHeaders(config)` for a configuration object. */
  function AddSecurityHeaders(config: seq<(string, Json)>): (r: seq<(string, Json)>)
    requires DistinctKeys(config)
    ensures DistinctKeys(r)
    ensures |r| == |config| || |r| == |config| + 1
    ensures forall k :: k != "headers" ==> Get(r, k) == Get(config, k)
    ensures forall i :: 0 <= i < |SecurityHeaders| ==>
              GetHeader(r, SecurityHeaders[i].0) == Some(JPrim(Str(SecurityHeaders[i].1)))
  {
    var spread := SpreadHeaders(Get(config, "headers"));
    var headers := AssignAll(spread, HeaderEntries());
    GetAssignOthers(config, "headers", JObject(headers));
    forall i | 0 <= i < |SecurityHeaders|
      ensures Get(headers, SecurityHeaders[i].0) == Some(JPrim(Str(SecurityHeaders[i].1)))
    {
      SecurityHeaderWritten(spread, i);
    }
    Assign(config, "headers", JObject(headers))
  }

  /** Assignments to other keys leave `key` as it was. */
  lemma {:induction false} GetAssignAllUntouched(entries: seq<(string, Json)>, pairs: seq<(string, Json)>, key: string)
    requires DistinctKeys(entries)
    requires forall i :: 0 <= i < |pairs| ==> pairs[i].0 != key
    ensures Get(AssignAll(entries, pairs), key) == Get(entries, key)
    decreases |pairs|
  {
    if |pairs| > 0 {
      GetAssign(entries, pairs[0].0, pairs[0].1, key);
      assert forall i :: 0 <= i < |pairs| - 1 ==> pairs[1..][i] == pairs[i + 1];
      GetAssignAllUntouched(Assign(entries, pairs[0].0, pairs[0].1), pairs[1..], key);
    }
  }

  /** The last assignment to `key` is the value left under it. */
  lemma {:induction false} GetAssignAllLast(entries: seq<(string, Json)>, pairs: seq<(string, Json)>, key: string, i: nat)
    requires DistinctKeys(entries)
    requires i < |pairs| && pairs[i].0 == key
    requires forall j :: i < j < |pairs| ==> pairs[j].0 != key
    ensures Get(AssignAll(entries, pairs), key) == Some(pairs[i].1)
    decreases |pairs|
  {
    var next := Assign(entries, pairs[0].0, pairs[0].1);
    assert forall j :: 0 <= j < |pairs| - 1 ==> pairs[1..][j] == pairs[j + 1];
    if i > 0 {
      GetAssignAllLast(next, pairs[1..], key, i - 1);
    } else {
      GetAssign(entries, key, pairs[0].1, key);
      GetAssignAllUntouched(next, pairs[1..], key);
    }
  }

  /** The decorated request's headers are the spread headers with the four
      security headers assigned over them. */
  lemma HeadersOfDecorated(config: seq<(string, Json)>)
    requires DistinctKeys(config)
    ensures Get(AddSecurityHeaders(config), "headers")
            == Some(JObject(AssignAll(SpreadHeaders(Get(config, "headers")), HeaderEntries())))
  {
    GetAssign(config, "headers", JObject(AssignAll(SpreadHeaders(Get(config, "headers")), HeaderEntries())), "headers");
  }

  /** A header of the decorated request is read from the spread headers
      with the security headers assigned over them. */
  lemma HeaderOf(config: seq<(string, Json)>, key: string)
    requires DistinctKeys(config)
    ensures GetHeader(AddSecurityHeaders(config), key)
            == Get(AssignAll(SpreadHeaders(Get(config, "headers")), HeaderEntries()), key)
  {
    HeadersOfDecorated(config);
  }

  /** The decorated request carries the four security headers with their
      fixed values, whatever headers it had before. */
  lemma SecurityHeadersPresent(config: seq<(string, Json)>)
    requires DistinctKeys(config)
    ensures forall i :: 0 <= i < |SecurityHeaders| ==>
              GetHeader(AddSecurityHeaders(config), SecurityHeaders[i].0) == Some(JPrim(Str(SecurityHeaders[i].1)))
  {
    forall i | 0 <= i < |SecurityHeaders|
      ensures GetHeader(AddSecurityHeaders(config), SecurityHeaders[i].0) == Some(JPrim(Str(SecurityHeaders[i].1)))
    {
      HeaderOf(config, SecurityHeaders[i].0);
      SecurityHeaderWritten(SpreadHeaders(Get(config, "headers")), i);
    }
  }

  lemma SecurityHeaderWritten(spread: seq<(string, Json)>, i: nat)
    requires DistinctKeys(spread) && i < |SecurityHeaders|
    ensures Get(AssignAll(spread, HeaderEntries()), SecurityHeaders[i].0) == Some(JPrim(Str(SecurityHeaders[i].1)))
  {
    var pairs := HeaderEntries();
    HeaderKeysDistinct();
    assert pairs[i] == (SecurityHeaders[i].0, JPrim(Str(SecurityHeaders[i].1)));
    assert forall j :: i < j < |pairs| ==> pairs[j].0 != SecurityHeaders[i].0;
    GetAssignAllLast(spread, pairs, SecurityHeaders[i].0, i);
  }

  lemma HeaderKeysDistinct()
    ensures forall i, j :: 0 <= i < j < |SecurityHeaders| ==> SecurityHeaders[i].0 != SecurityHeaders[j].0
  {
  }

  lemma HeaderEntriesAvoid(key: string)
    requires forall i :: 0 <= i < |SecurityHeaders| ==> SecurityHeaders[i].0 != key
    ensures forall i :: 0 <= i < |HeaderEntries()| ==> HeaderEntries()[i].0 != key
  {
  }

  /** Every other header keeps the value it had in `config.headers`. */
  lemma OtherHeadersKept(config: seq<(string, Json)>, key: string)
    requires DistinctKeys(config)
    requires forall i :: 0 <= i < |SecurityHeaders| ==> SecurityHeaders[i].0 != key
    ensures GetHeader(AddSecurityHeaders(config), key) == Get(SpreadHeaders(Get(config, "headers")), key)
  {
    HeaderOf(config, key);
    HeaderEntriesAvoid(key);
    GetAssignAllUntouched(SpreadHeaders(Get(config, "headers")), HeaderEntries(), key);
  }

  /** Every setting other than `headers` is kept. */
  lemma OtherSettingsKept(config: seq<(string, Json)>, key: string)
    requires DistinctKeys(config) && key != "headers"
    ensures Get(AddSecurityHeaders(config), key) == Get(config, key)
  {
    GetAssign(config, "headers", JObject(AssignAll(SpreadHeaders(Get(config, "headers")), HeaderEntries())), key);
  }

  // ---------------------------------------------------------------------
  // validateResponse

  const InvalidContentType := "Invalid response content type"

  /** `value.includes('application/json')` on a truthy value: a substring
      test on a string, an element test on an array, a `TypeError` on
      anything else. */
  function IncludesJson(value: Json): (r: Result<bool>)
    ensures value.JPrim? && value.p.Str? ==> r == Success(Contains(value.p.s, "application/json"))
  {
    match value
    case JPrim(Str(s)) => Success(Contains(s, "application/json"))
    case JArray(items) => Success(exists i :: 0 <= i < |items| && items[i] == JPrim(Str("application/json")))
    case _ => Failure(TypeError)
  }

  /** `response.headers['content-type']`: a `TypeError` unless `response`
      is an object whose `headers` is neither `undefined` nor `null`
      (reading a property of `undefined` or `null` throws, and every other
      value has no own `headers`). */
  function ContentType(response: Json): (r: Result<Option<Json>>)
    ensures r.Failure? <==> !response.JObject? || Get(response.entries, "headers") in {None, Some(JPrim(Undefined)), Some(JPrim(Null))}
    ensures r.Failure? ==> r.error == TypeError
    ensures r.Success? && r.value.Some? ==>
              exists h :: Get(response.entries, "headers") == Some(JObject(h)) && Get(h, "content-type") == r.value
  {
    match response
    case JObject(entries) =>
      (match Get(entries, "headers")
       case None => Failure(TypeError)
       case Some(JPrim(Undefined)) => Failure(TypeError)
       case Some(JPrim(Null)) => Failure(TypeError)
       case Some(JObject(h)) => Success(Get(h, "content-type"))
       case Some(_) => Success(None))
    case _ => Failure(TypeError)
  }

  /** `validateResponse(response)`: the response itself, or the error it
      throws. */
  function ValidateResponse(response: Json): (r: Result<Json>)
    ensures r.Success? ==> r.value == response
    ensures !response.JObject? ==> r == Failure(TypeError)
    ensures r == Failure(InvalidContentType) <==>
              && ContentType(response).Success?
              && ContentType(response).value.Some?
              && var ct := ContentType(response).value.value;
                 TruthyJson(ct) && IncludesJson(ct) == Success(false)
    ensures ContentType(response) == Success(None) ==> r == Success(response)
  {
    match ContentType(response)
    case Failure(e) => Failure(e)
    case Success(None) => Success(response)
    case Success(Some(ct)) =>
      if !TruthyJson(ct) then Success(response)
      else match IncludesJson(ct)
        case Failure(e) => Failure(e)
        case Success(true) => Success(response)
        case Success(false) => Failure(InvalidContentType)
  }

  /** A string content type is accepted exactly when it is empty or names
      JSON somewhere. */
  lemma StringContentType(response: seq<(string, Json)>, h: seq<(string, Json)>, ct: string)
    requires Get(response, "headers") == Some(JObject(h))
    requires Get(h, "content-type") == Some(JPrim(Str(ct)))
    ensures ValidateResponse(JObject(response)).Success? <==> ct == "" || Contains(ct, "application/json")
    ensures ValidateResponse(JObject(response)).Failure? ==> ValidateResponse(JObject(response)).error == InvalidContentType
  {
  }

  // ---------------------------------------------------------------------
  // sanitizeData

  /** What `sanitizeInput` guarantees of a string. */
  predicate SafeText(s: string) {
    '<' !in s && '>' !in s && Trimmed(s)
  }

  /** Every string of the data, keys included, is safe. */
  predicate Sanitized(data: Json)
    decreases data
  {
    match data
    case JPrim(p) => p.Str? ==> SafeText(p.s)
    case JArray(items) => forall i :: 0 <= i < |items| ==> Sanitized(items[i])
    case JObject(entries) => forall i :: 0 <= i < |entries| ==> SafeText(entries[i].0) && Sanitized(entries[i].1)
  }

  /** Assigns the pairs one after the other, each as `obj[key] = value`. */
  function SetAll(entries: seq<(string, Json)>, pairs: seq<(string, Json)>): (r: seq<(string, Json)>)
    requires DistinctKeys(entries)
    ensures DistinctKeys(r)
    decreases |pairs|
  {
    if |pairs| == 0 then entries
    else SetAll(SetProperty(entries, pairs[0].0, pairs[0].1), pairs[1..])
  }

  /** Every pair an assignment sequence leaves came from the start or from
      the pairs assigned, and `__proto__` is never added. */
  lemma {:induction false} SetAllOrigin(entries: seq<(string, Json)>, pairs: seq<(string, Json)>)
    requires DistinctKeys(entries)
    ensures forall e :: e in SetAll(entries, pairs) ==> e in entries || (e in pairs && e.0 != ProtoKey)
    decreases |pairs|
  {
    if |pairs| > 0 {
      var next := SetProperty(entries, pairs[0].0, pairs[0].1);
      forall e | e in next ensures e in entries || (e == pairs[0] && e.0 != ProtoKey) {
        if pairs[0].0 != ProtoKey {
          var i :| 0 <= i < |next| && next[i] == e;
          if e.0 != pairs[0].0 {
            assert next[i] == entries[i];
          } else {
            var j :| 0 <= j < |next| && next[j] == (pairs[0].0, pairs[0].1);
            assert i == j;
          }
        }
      }
      SetAllOrigin(next, pairs[1..]);
      assert forall e :: e in pairs[1..] ==> e in pairs;
    }
  }

  /** Each assignment adds at most one entry. */
  lemma {:induction false} SetAllLength(entries: seq<(string, Json)>, pairs: seq<(string, Json)>)
    requires DistinctKeys(entries)
    ensures |SetAll(entries, pairs)| <= |entries| + |pairs|
    decreases |pairs|
  {
    if |pairs| > 0 {
      SetAllLength(SetProperty(entries, pairs[0].0, pairs[0].1), pairs[1..]);
    }
  }

  /** Assignments to other keys leave `key` as it was; so do all
      assignments when `key` is `__proto__`. */
  lemma {:induction false} GetSetAllUntouched(entries: seq<(string, Json)>, pairs: seq<(string, Json)>, key: string)
    requires DistinctKeys(entries)
    requires key == ProtoKey || forall i :: 0 <= i < |pairs| ==> pairs[i].0 != key
    ensures Get(SetAll(entries, pairs), key) == Get(entries, key)
    decreases |pairs|
  {
    if |pairs| > 0 {
      assert forall i :: 0 <= i < |pairs| - 1 ==> pairs[1..][i] == pairs[i + 1];
      GetSetAllUntouched(SetProperty(entries, pairs[0].0, pairs[0].1), pairs[1..], key);
    }
  }

  /** The last assignment to an ordinary key is the value left under it. */
  lemma {:induction false} GetSetAllLast(entries: seq<(string, Json)>, pairs: seq<(string, Json)>, key: string, i: nat)
    requires DistinctKeys(entries) && key != ProtoKey
    requires i < |pairs| && pairs[i].0 == key
    requires forall j :: i < j < |pairs| ==> pairs[j].0 != key
    ensures Get(SetAll(entries, pairs), key) == Some(pairs[i].1)
    decreases |pairs|
  {
    var next := SetProperty(entries, pairs[0].0, pairs[0].1);
    assert forall j :: 0 <= j < |pairs| - 1 ==> pairs[1..][j] == pairs[j + 1];
    if i > 0 {
      GetSetAllLast(next, pairs[1..], key, i - 1);
    } else {
      GetSetAllUntouched(next, pairs[1..], key);
    }
  }

  /** `apiSecurity.sanitizeData(data)`: strings are sanitized, arrays
      element by element, objects key by key and value by value, with a
      later key overwriting an earlier one that sanitizes to the same text. */
  function SanitizeData(data: Json): (r: Json)
    ensures Sanitized(r)
    ensures data.JPrim? && !data.p.Str? ==> r == data
    ensures data.JPrim? && data.p.Str? ==> r == JPrim(Str(SanitizeString(data.p.s)))
    ensures data.JArray? ==> r.JArray? && |r.items| == |data.items|
    ensures data.JArray? ==> forall i :: 0 <= i < |data.items| ==> r.items[i] == SanitizeData(data.items[i])
    ensures data.JObject? ==> r.JObject? && DistinctKeys(r.entries) && |r.entries| <= |data.entries|
    ensures data.JObject? ==> forall k :: 0 <= k < |r.entries| ==> r.entries[k].0 != ProtoKey
    decreases data, 1
  {
    match data
    case JPrim(Str(s)) => JPrim(Str(SanitizeString(s)))
    case JPrim(_) => data
    case JArray(items) =>
      JArray(seq(|items|, i requires 0 <= i < |items| => SanitizeData(items[i])))
    case JObject(entries) =>
      JObject(ObjectOf(SanitizedPairs(entries)))
  }

  /** The pairs `sanitizeData` assigns for an object's entries. */
  function SanitizedPairs(entries: seq<(string, Json)>): (pairs: seq<(string, Json)>)
    ensures |pairs| == |entries|
    ensures forall i :: 0 <= i < |entries| ==>
              pairs[i] == (SanitizeString(entries[i].0), SanitizeData(entries[i].1))
    decreases JObject(entries), 0
  {
    seq(|entries|, i requires 0 <= i < |entries| => (SanitizeString(entries[i].0), SanitizeData(entries[i].1)))
  }

  /** The object built by assigning sanitized pairs one after the other. */
  function ObjectOf(pairs: seq<(string, Json)>): (r: seq<(string, Json)>)
    requires forall i :: 0 <= i < |pairs| ==> SafeText(pairs[i].0) && Sanitized(pairs[i].1)
    ensures DistinctKeys(r) && |r| <= |pairs|
    ensures forall i :: 0 <= i < |r| ==> SafeText(r[i].0) && Sanitized(r[i].1) && r[i].0 != ProtoKey
  {
    var r := SetAll([], pairs);
    SetAllOrigin([], pairs);
    SetAllLength([], pairs);
    assert forall i :: 0 <= i < |r| ==> r[i] in pairs && r[i].0 != ProtoKey;
    r
  }

  /** The last position whose key is `key`. */
  lemma {:induction false} LastWithKey(pairs: seq<(string, Json)>, key: string) returns (i: nat)
    requires exists k :: 0 <= k < |pairs| && pairs[k].0 == key
    ensures i < |pairs| && pairs[i].0 == key
    ensures forall j :: i < j < |pairs| ==> pairs[j].0 != key
    decreases |pairs|
  {
    var n := |pairs| - 1;
    if pairs[n].0 == key {
      i := n;
    } else {
      var k :| 0 <= k < |pairs| && pairs[k].0 == key;
      assert pairs[..n][k] == pairs[k];
      i := LastWithKey(pairs[..n], key);
      assert pairs[..n][i] == pairs[i];
    }
  }

  /** The sanitized object holds a key exactly when it is the sanitized
      text of some key of the input other than `__proto__`, and under it
      the sanitized value of the last entry whose key sanitizes to it. */
  lemma SanitizedEntries(entries: seq<(string, Json)>, t: string)
    ensures var r := SanitizeData(JObject(entries)).entries;
            && (Get(r, t).Some? <==> t != ProtoKey && exists i :: 0 <= i < |entries| && SanitizeString(entries[i].0) == t)
            && forall i :: 0 <= i < |entries| && SanitizeString(entries[i].0) == t && t != ProtoKey
                           && (forall j :: i < j < |entries| ==> SanitizeString(entries[j].0) != t)
                           ==> Get(r, t) == Some(SanitizeData(entries[i].1))
  {
    SanitizedKey(entries, t);
    forall i | 0 <= i < |entries| && SanitizeString(entries[i].0) == t && t != ProtoKey
               && (forall j :: i < j < |entries| ==> SanitizeString(entries[j].0) != t)
      ensures Get(SanitizeData(JObject(entries)).entries, t) == Some(SanitizeData(entries[i].1))
    {
      SanitizedValue(entries, t, i);
    }
  }

  lemma SanitizedKey(entries: seq<(string, Json)>, t: string)
    ensures Get(SanitizeData(JObject(entries)).entries, t).Some? <==>
              t != ProtoKey && exists i :: 0 <= i < |entries| && SanitizeString(entries[i].0) == t
  {
    var pairs := SanitizedPairs(entries);
    assert SanitizeData(JObject(entries)).entries == SetAll([], pairs);
    if t == ProtoKey || forall i :: 0 <= i < |pairs| ==> pairs[i].0 != t {
      GetSetAllUntouched([], pairs, t);
    } else {
      var last := LastWithKey(pairs, t);
      GetSetAllLast([], pairs, t, last);
    }
  }

  lemma SanitizedValue(entries: seq<(string, Json)>, t: string, i: nat)
    requires i < |entries| && SanitizeString(entries[i].0) == t && t != ProtoKey
    requires forall j :: i < j < |entries| ==> SanitizeString(entries[j].0) != t
    ensures Get(SanitizeData(JObject(entries)).entries, t) == Some(SanitizeData(entries[i].1))
  {
    var pairs := SanitizedPairs(entries);
    assert SanitizeData(JObject(entries)).entries == SetAll([], pairs);
    GetSetAllLast([], pairs, t, i);
  }

  /** Assignments that never name `__proto__` are definitions. */
  lemma {:induction false} SetAllIsAssignAll(entries: seq<(string, Json)>, pairs: seq<(string, Json)>)
    requires DistinctKeys(entries)
    requires forall i :: 0 <= i < |pairs| ==> pairs[i].0 != ProtoKey
    ensures SetAll(entries, pairs) == AssignAll(entries, pairs)
    decreases |pairs|
  {
    if |pairs| > 0 {
      assert forall i :: 0 <= i < |pairs| - 1 ==> pairs[1..][i] == pairs[i + 1];
      SetAllIsAssignAll(Assign(entries, pairs[0].0, pairs[0].1), pairs[1..]);
    }
  }

  /** Data `sanitizeData` has nothing to do on: every string and key is
      clean, and no object repeats a key or has an own `__proto__`. */
  predicate CleanData(data: Json)
    decreases data
  {
    match data
    case JPrim(p) => p.Str? ==> Clean(p.s)
    case JArray(items) => forall i :: 0 <= i < |items| ==> CleanData(items[i])
    case JObject(entries) =>
      && DistinctKeys(entries)
      && forall i :: 0 <= i < |entries| ==> Clean(entries[i].0) && entries[i].0 != ProtoKey && CleanData(entries[i].1)
  }

  /** Sanitizing clean data gives it back unchanged. */
  lemma {:induction false} CleanDataIsFixedPoint(data: Json)
    requires CleanData(data)
    ensures SanitizeData(data) == data
    decreases data
  {
    match data
    case JPrim(p) =>
      if p.Str? {
        CleanIsFixedPoint(p.s);
      }
    case JArray(items) =>
      forall i | 0 <= i < |items| ensures SanitizeData(items[i]) == items[i] {
        CleanDataIsFixedPoint(items[i]);
      }
      assert seq(|items|, i requires 0 <= i < |items| => SanitizeData(items[i])) == items;
    case JObject(entries) =>
      var pairs := SanitizedPairs(entries);
      forall i | 0 <= i < |entries| ensures pairs[i] == entries[i] {
        CleanIsFixedPoint(entries[i].0);
        CleanDataIsFixedPoint(entries[i].1);
      }
      assert pairs == entries;
      SetAllIsAssignAll([], entries);
      SpreadOfDistinct(entries);
  }
}

=== FILE: bank_collections.dfy ===
/** The collection helpers over bank records: look-up by id, filtering by
    criteria, sorting by a field, grouping by a field and the averages of
    the numeric fields.  A bank is a plain object; a missing field reads as
    `undefined`.  Immutable.js lists are modelled as sequences. */
module BankCollections {
  import opened Wrappers
  import opened Text
  import opened JsValue
  import opened Seqs

  type Bank = seq<(string, Json)>

  /** `bank[key]` */
  function Field(bank: Bank, key: string): Json {
    Get(bank, key).GetOr(JPrim(Undefined))
  }

  // ---------------------------------------------------------------------
  // findBankById

  predicate HasId(bank: Bank, id: Json) {
    JsonStrictEquals(Field(bank, "id"), id)
  }

  /** `findBankById(banks, bankId)`: the first bank whose id is `=== bankId`. */
  function FindBankById(banks: seq<Bank>, id: Json): (r: Option<Bank>)
    ensures r.None? <==> forall i :: 0 <= i < |banks| ==> !HasId(banks[i], id)
    ensures r.Some? ==> exists i :: && 0 <= i < |banks| && banks[i] == r.value && HasId(r.value, id)
                                  && forall j :: 0 <= j < i ==> !HasId(banks[j], id)
    decreases |banks|
  {
    if |banks| == 0 then None
    else if HasId(banks[0], id) then Some(banks[0])
    else
      var r := FindBankById(banks[1..], id);
      assert forall i :: 1 <= i < |banks| ==> banks[i] == banks[1..][i - 1];
      r
  }

  /** No bank is found by an id nobody has after the ones that had it are
      filtered out, and a bank with a fresh id appended at the end is the
      one found. */
  lemma FindAfterRemoval(banks: seq<Bank>, id: Json)
    ensures FindBankById(Filter(b => !HasId(b, id), banks), id).None?
  {
  }

  lemma FindAppended(banks: seq<Bank>, bank: Bank, id: Json)
    requires forall i :: 0 <= i < |banks| ==> !HasId(banks[i], id)
    requires HasId(bank, id)
    ensures FindBankById(banks + [bank], id) == Some(bank)
  {
    assert (banks + [bank])[|banks|] == bank;
    assert forall i :: 0 <= i < |banks| ==> (banks + [bank])[i] == banks[i];
  }

  // ---------------------------------------------------------------------
  // findBanksByCriteria

  /** `bank[key]` reads a member inherited from `Object.prototype`: a
      function (or, for `__proto__`, the prototype object), which is
      truthy, has no `toLowerCase` and is `===` to no value of the data. */
  predicate Inherited(bank: Bank, key: string) {
    Get(bank, key).None? && key in ObjectPrototypeNames
  }

  /** One criterion of `findBanksByCriteria`: a string asks for a truthy
      field that contains it, ignoring case (and throws when that field is
      not a string); any other value asks for `===`. */
  function CriterionHolds(bank: Bank, key: string, value: Json): (r: Result<bool>)
    ensures r.Failure? ==> r.error == TypeError && value.JPrim? && value.p.Str?
    ensures !(value.JPrim? && value.p.Str?) ==>
              r == Success(!Inherited(bank, key) && JsonStrictEquals(Field(bank, key), value))
    ensures value.JPrim? && value.p.Str? ==>
              (r == Success(true) <==> exists s :: Field(bank, key) == JPrim(Str(s)) && s != ""
                                                  && Contains(ToLower(s), ToLower(value.p.s)))
    ensures value.JPrim? && value.p.Str? ==>
              (r.Failure? <==> Inherited(bank, key) || (TruthyJson(Field(bank, key)) && !(Field(bank, key).JPrim? && Field(bank, key).p.Str?)))
  {
    match value
    case JPrim(Str(v)) =>
      var f := Field(bank, key);
      if Inherited(bank, key) then Failure(TypeError)
      else if !TruthyJson(f) then Success(false)
      else if f.JPrim? && f.p.Str? then Success(Contains(ToLower(f.p.s), ToLower(v)))
      else Failure(TypeError)
    case _ => Success(!Inherited(bank, key) && JsonStrictEquals(Field(bank, key), value))
  }

  /** A criterion named after an inherited member (`toString`) of a bank
      without such a field throws for a string and fails for `undefined`,
      although the field reads as missing in the bank's own entries. */
  lemma InheritedCriterion(bank: Bank)
    requires Get(bank, "toString").None?
    ensures CriterionHolds(bank, "toString", JPrim(Str("a"))) == Failure(TypeError)
    ensures CriterionHolds(bank, "toString", JPrim(Undefined)) == Success(false)
    ensures Field(bank, "toString") == JPrim(Undefined)
  {
    assert "toString" in ObjectPrototypeNames;
  }

  /** `Object.keys(criteria).every(...)`: stops at the first criterion that
      fails or throws. */
  function MatchesAll(bank: Bank, criteria: seq<(string, Json)>): (r: Result<bool>)
    ensures r == Success(true) <==>
              forall i :: 0 <= i < |criteria| ==> CriterionHolds(bank, criteria[i].0, criteria[i].1) == Success(true)
    ensures r.Failure? ==> r.error == TypeError
    decreases |criteria|
  {
    if |criteria| == 0 then Success(true)
    else match CriterionHolds(bank, criteria[0].0, criteria[0].1)
      case Failure(e) => Failure(e)
      case Success(false) => Success(false)
      case Success(true) =>
        var r := MatchesAll(bank, criteria[1..]);
        assert forall i :: 1 <= i < |criteria| ==> criteria[i] == criteria[1..][i - 1];
        r
  }

  predicate Satisfies(bank: Bank, criteria: seq<(string, Json)>) {
    MatchesAll(bank, criteria) == Success(true)
  }

  /** `findBanksByCriteria(banks, criteria)`: the banks meeting every
      criterion, in their order, unless checking one of them throws. */
  function FindBanksByCriteria(banks: seq<Bank>, criteria: seq<(string, Json)>): (r: Result<seq<Bank>>)
    ensures r.Success? ==> r.value == Filter(b => Satisfies(b, criteria), banks)
    ensures r.Failure? <==> exists i :: 0 <= i < |banks| && MatchesAll(banks[i], criteria).Failure?
    ensures r.Failure? ==> r.error == TypeError
    decreases |banks|
  {
    if |banks| == 0 then Success([])
    else
      var rest := FindBanksByCriteria(banks[1..], criteria);
      assert forall i :: 1 <= i < |banks| ==> banks[i] == banks[1..][i - 1];
      match MatchesAll(banks[0], criteria)
      case Failure(e) => Failure(e)
      case Success(keep) =>
        if rest.Failure? then rest
        else if keep then Success([banks[0]] + rest.value)
        else rest
  }

  /** A text criterion named after an inherited member throws on any bank
      that lacks such a field, so the whole search throws. */
  lemma InheritedSearchThrows(banks: seq<Bank>, key: string, text: string)
    requires key in ObjectPrototypeNames
    requires exists i :: 0 <= i < |banks| && Get(banks[i], key).None?
    ensures FindBanksByCriteria(banks, [(key, JPrim(Str(text)))]) == Failure(TypeError)
  {
    var i :| 0 <= i < |banks| && Get(banks[i], key).None?;
    var criteria := [(key, JPrim(Str(text)))];
    InheritedMatchThrows(banks[i], key, text);
    FailingBankFails(banks, criteria, i);
  }

  /** One bank whose check throws makes the search throw. */
  lemma FailingBankFails(banks: seq<Bank>, criteria: seq<(string, Json)>, i: nat)
    requires i < |banks| && MatchesAll(banks[i], criteria).Failure?
    ensures FindBanksByCriteria(banks, criteria) == Failure(TypeError)
  {
  }

  lemma InheritedMatchThrows(bank: Bank, key: string, text: string)
    requires key in ObjectPrototypeNames && Get(bank, key).None?
    ensures MatchesAll(bank, [(key, JPrim(Str(text)))]).Failure?
  {
    var criteria := [(key, JPrim(Str(text)))];
    assert CriterionHolds(bank, criteria[0].0, criteria[0].1).Failure? by {
      assert Inherited(bank, key);
    }
  }

  /** No criteria keep every bank. */
  lemma NoCriteriaKeepAll(banks: seq<Bank>)
    ensures FindBanksByCriteria(banks, []) == Success(banks)
  {
    FilterKeepsAll(b => Satisfies(b, []), banks);
  }

  /** Criteria without strings never throw. */
  lemma {:induction false} NonStringCriteriaSucceed(banks: seq<Bank>, criteria: seq<(string, Json)>)
    requires forall i :: 0 <= i < |criteria| ==> !(criteria[i].1.JPrim? && criteria[i].1.p.Str?)
    ensures FindBanksByCriteria(banks, criteria).Success?
  {
    forall i | 0 <= i < |banks| ensures MatchesAll(banks[i], criteria).Success? {
      MatchesAllNoThrow(banks[i], criteria);
    }
  }

  lemma {:induction false} MatchesAllNoThrow(bank: Bank, criteria: seq<(string, Json)>)
    requires forall i :: 0 <= i < |criteria| ==> !(criteria[i].1.JPrim? && criteria[i].1.p.Str?)
    ensures MatchesAll(bank, criteria).Success?
    decreases |criteria|
  {
    if |criteria| > 0 {
      MatchesAllNoThrow(bank, criteria[1..]);
    }
  }

  /** A string criterion ignores the case of the criterion text. */
  lemma CriterionCaseInsensitive(bank: Bank, key: string, v: string, w: string)
    requires ToLower(v) == ToLower(w)
    ensures CriterionHolds(bank, key, JPrim(Str(v))) == CriterionHolds(bank, key, JPrim(Str(w)))
  {
  }

  // ---------------------------------------------------------------------
  // sortBanks

  /** `a > b` on two field values: numbers by value, strings
      lexicographically; the model answers `false` for mixed types. */
  predicate Greater(a: Json, b: Json) {
    a.JPrim? && b.JPrim? &&
    match (a.p, b.p)
    case (Num(x), Num(y)) => x > y
    case (Str(x), Str(y)) => LexLess(y, x)
    case _ => false
  }

  /** Two values `>` orders as numbers or as strings. */
  predicate SameKind(a: Json, b: Json) {
    a.JPrim? && b.JPrim? && ((a.p.Num? && b.p.Num?) || (a.p.Str? && b.p.Str?))
  }

  lemma GreaterTransitive(a: Json, b: Json, c: Json)
    requires Greater(a, b) && Greater(b, c)
    ensures Greater(a, c)
  {
    if a.p.Str? {
      LexLessTransitive(c.p.s, b.p.s, a.p.s);
    }
  }

  /** Distinct values of one kind are ordered exactly one way. */
  lemma GreaterTotal(a: Json, b: Json)
    requires SameKind(a, b) && a != b
    ensures Greater(a, b) != Greater(b, a)
  {
    if a.p.Str? {
      LexLessTotal(a.p.s, b.p.s);
    }
  }

  /** `sortOrder === 'asc'`, where a missing argument takes the default
      `'asc'`. */
  predicate Ascending(sortOrder: Prim) {
    sortOrder == Str("asc") || sortOrder == Undefined
  }

  /** The comparator returns 1: `a` goes after `b`. */
  predicate After(a: Bank, b: Bank, sortBy: string, asc: bool) {
    if asc then Greater(Field(a, sortBy), Field(b, sortBy))
    else Greater(Field(b, sortBy), Field(a, sortBy))
  }

  /** Every bank goes after every earlier one. */
  predicate Ordered(s: seq<Bank>, sortBy: string, asc: bool) {
    forall i, j :: 0 <= i < j < |s| ==> After(s[j], s[i], sortBy, asc)
  }

  /** The sort keys are pairwise distinct values of one kind, so the
      comparator is a strict total order on them. */
  predicate Comparable(s: seq<Bank>, sortBy: string) {
    forall i, j :: 0 <= i < j < |s| ==>
      SameKind(Field(s[i], sortBy), Field(s[j], sortBy)) && Field(s[i], sortBy) != Field(s[j], sortBy)
  }

  /** Places `x` before the first bank it does not go after. */
  function Insert(x: Bank, s: seq<Bank>, sortBy: string, asc: bool): (r: seq<Bank>)
    ensures multiset(r) == multiset(s) + multiset{x}
    decreases |s|
  {
    if |s| == 0 then [x]
    else if After(x, s[0], sortBy, asc) then
      var r := [s[0]] + Insert(x, s[1..], sortBy, asc);
      assert s == [s[0]] + s[1..];
      r
    else [x] + s
  }

  lemma {:induction false} InsertOrdered(x: Bank, s: seq<Bank>, sortBy: string, asc: bool)
    requires Ordered(s, sortBy, asc)
    requires forall i :: 0 <= i < |s| ==>
               SameKind(Field(x, sortBy), Field(s[i], sortBy)) && Field(x, sortBy) != Field(s[i], sortBy)
    ensures Ordered(Insert(x, s, sortBy, asc), sortBy, asc)
    decreases |s|
  {
    if |s| > 0 {
      if After(x, s[0], sortBy, asc) {
        InsertOrdered(x, s[1..], sortBy, asc);
        InsertPastHead(x, s, sortBy, asc);
      } else {
        InsertAtHead(x, s, sortBy, asc);
      }
    }
  }

  /** `x` goes after the head: the head stays in front of the ordered
      insertion into the tail. */
  lemma InsertPastHead(x: Bank, s: seq<Bank>, sortBy: string, asc: bool)
    requires |s| > 0 && After(x, s[0], sortBy, asc) && Ordered(s, sortBy, asc)
    requires Ordered(Insert(x, s[1..], sortBy, asc), sortBy, asc)
    ensures Ordered(Insert(x, s, sortBy, asc), sortBy, asc)
  {
    var tail := Insert(x, s[1..], sortBy, asc);
    forall j | 0 <= j < |tail| ensures After(tail[j], s[0], sortBy, asc) {
      InsertMember(x, s[1..], sortBy, asc, tail[j]);
      if tail[j] != x {
        LaterAfterHead(s, tail[j], sortBy, asc);
      }
    }
    HeadOrdered(s[0], tail, sortBy, asc);
  }

  lemma InsertMember(x: Bank, s: seq<Bank>, sortBy: string, asc: bool, y: Bank)
    requires y in Insert(x, s, sortBy, asc)
    ensures y == x || y in s
  {
    assert y in multiset(Insert(x, s, sortBy, asc));
  }

  lemma LaterAfterHead(s: seq<Bank>, y: Bank, sortBy: string, asc: bool)
    requires |s| > 0 && Ordered(s, sortBy, asc) && y in s[1..]
    ensures After(y, s[0], sortBy, asc)
  {
    var m :| 0 <= m < |s[1..]| && s[1..][m] == y;
    assert s[m + 1] == y;
  }

  lemma HeadOrdered(h: Bank, tail: seq<Bank>, sortBy: string, asc: bool)
    requires Ordered(tail, sortBy, asc)
    requires forall j :: 0 <= j < |tail| ==> After(tail[j], h, sortBy, asc)
    ensures Ordered([h] + tail, sortBy, asc)
  {
    var r := [h] + tail;
    forall i, j | 0 <= i < j < |r| ensures After(r[j], r[i], sortBy, asc) {
      assert r[j] == tail[j - 1];
      if i > 0 {
        assert r[i] == tail[i - 1];
      }
    }
  }

  /** `x` does not go after the head: it goes before every bank. */
  lemma InsertAtHead(x: Bank, s: seq<Bank>, sortBy: string, asc: bool)
    requires |s| > 0 && !After(x, s[0], sortBy, asc) && Ordered(s, sortBy, asc)
    requires forall i :: 0 <= i < |s| ==>
               SameKind(Field(x, sortBy), Field(s[i], sortBy)) && Field(x, sortBy) != Field(s[i], sortBy)
    ensures Ordered(Insert(x, s, sortBy, asc), sortBy, asc)
  {
    GreaterTotal(Field(x, sortBy), Field(s[0], sortBy));
    forall j | 0 <= j < |s| ensures After(s[j], x, sortBy, asc) {
      if j > 0 {
        if asc {
          GreaterTransitive(Field(s[j], sortBy), Field(s[0], sortBy), Field(x, sortBy));
        } else {
          GreaterTransitive(Field(x, sortBy), Field(s[0], sortBy), Field(s[j], sortBy));
        }
      }
    }
    HeadOrdered(x, s, sortBy, asc);
  }

  /** Insertion sort with the source's comparator. */
  function InsertionSort(s: seq<Bank>, sortBy: string, asc: bool): (r: seq<Bank>)
    ensures multiset(r) == multiset(s)
    ensures Comparable(s, sortBy) ==> Ordered(r, sortBy, asc)
    decreases |s|
  {
    if |s| == 0 then []
    else
      var rest := InsertionSort(s[1..], sortBy, asc);
      SortStep(s, rest, sortBy, asc);
      Insert(s[0], rest, sortBy, asc)
  }

  lemma SortStep(s: seq<Bank>, rest: seq<Bank>, sortBy: string, asc: bool)
    requires |s| > 0 && multiset(rest) == multiset(s[1..])
    requires Comparable(s[1..], sortBy) ==> Ordered(rest, sortBy, asc)
    ensures multiset(Insert(s[0], rest, sortBy, asc)) == multiset(s)
    ensures Comparable(s, sortBy) ==> Ordered(Insert(s[0], rest, sortBy, asc), sortBy, asc)
  {
    assert s == [s[0]] + s[1..];
    if Comparable(s, sortBy) {
      assert Comparable(s[1..], sortBy);
      forall i | 0 <= i < |rest|
        ensures SameKind(Field(s[0], sortBy), Field(rest[i], sortBy)) && Field(s[0], sortBy) != Field(rest[i], sortBy)
      {
        assert rest[i] in multiset(s[1..]);
        var m :| 0 <= m < |s[1..]| && s[1..][m] == rest[i];
        assert s[m + 1] == rest[i];
      }
      InsertOrdered(s[0], rest, sortBy, asc);
    }
  }

  /** `sortBanks(banks, sortBy, sortOrder)`: a rearrangement of the banks
      that, when the keys are distinct and of one kind, is ascending for
      'asc' and descending otherwise. */
  function SortBanks(banks: seq<Bank>, sortBy: string, sortOrder: Prim): (r: seq<Bank>)
    ensures multiset(r) == multiset(banks)
    ensures |r| == |banks|
    ensures Comparable(banks, sortBy) && Ascending(sortOrder) ==>
              forall i, j :: 0 <= i < j < |r| ==> Greater(Field(r[j], sortBy), Field(r[i], sortBy))
    ensures Comparable(banks, sortBy) && !Ascending(sortOrder) ==>
              forall i, j :: 0 <= i < j < |r| ==> Greater(Field(r[i], sortBy), Field(r[j], sortBy))
  {
    var r := InsertionSort(banks, sortBy, Ascending(sortOrder));
    assert |r| == |multiset(r)| == |multiset(banks)| == |banks|;
    r
  }

  /** With comparable keys, the sorted list starts with the bank every
      other bank goes after and ends with the one that goes after every
      other bank. */
  lemma SortedEnds(banks: seq<Bank>, sortBy: string, sortOrder: Prim, i: nat)
    requires Comparable(banks, sortBy) && i < |banks|
    ensures var r := SortBanks(banks, sortBy, sortOrder);
            && r[0] in banks && r[|r| - 1] in banks
            && (banks[i] == r[0] || After(banks[i], r[0], sortBy, Ascending(sortOrder)))
            && (banks[i] == r[|r| - 1] || After(r[|r| - 1], banks[i], sortBy, Ascending(sortOrder)))
  {
    var r := SortBanks(banks, sortBy, sortOrder);
    var asc := Ascending(sortOrder);
    assert banks[i] in multiset(banks);
    var j :| 0 <= j < |r| && r[j] == banks[i];
    assert r[0] in multiset(r) && r[|r| - 1] in multiset(r);
    if j > 0 {
      assert After(r[j], r[0], sortBy, asc);
    }
    if j < |r| - 1 {
      assert After(r[|r| - 1], r[j], sortBy, asc);
    }
  }

  const RateKey := "InterestRate"

  /** The interest rates of the unit tests' three banks. */
  predicate SampleRates(banks: seq<Bank>) {
    && |banks| == 3
    && Field(banks[0], RateKey) == JPrim(Str("5.5"))
    && Field(banks[1], RateKey) == JPrim(Str("4.8"))
    && Field(banks[2], RateKey) == JPrim(Str("6.2"))
  }

  lemma SampleRatesComparable(banks: seq<Bank>)
    requires SampleRates(banks)
    ensures Comparable(banks, RateKey)
    ensures forall i :: 0 <= i < 3 ==> Field(banks[i], RateKey) in {JPrim(Str("5.5")), JPrim(Str("4.8")), JPrim(Str("6.2"))}
  {
  }

  /** In ascending order "4.8" comes first and "6.2" last. */
  lemma SortAscendingExample(banks: seq<Bank>)
    requires SampleRates(banks)
    ensures var r := SortBanks(banks, RateKey, Str("asc")); r[0] == banks[1] && r[2] == banks[2]
  {
    SampleRatesComparable(banks);
    SortedEnds(banks, RateKey, Str("asc"), 1);
    SortedEnds(banks, RateKey, Str("asc"), 2);
  }

  /** In descending order "6.2" comes first and "4.8" last. */
  lemma SortDescendingExample(banks: seq<Bank>)
    requires SampleRates(banks)
    ensures var r := SortBanks(banks, RateKey, Str("desc")); r[0] == banks[2] && r[2] == banks[1]
  {
    SampleRatesComparable(banks);
    SortedEnds(banks, RateKey, Str("desc"), 1);
    SortedEnds(banks, RateKey, Str("desc"), 2);
  }

  // ---------------------------------------------------------------------
  // groupBanksBy

  /** Groups in order of first appearance, each with its banks in order. */
  type Groups = seq<(Json, seq<Bank>)>

  predicate DistinctGroupKeys(groups: Groups) {
    forall i, j :: 0 <= i < j < |groups| ==> groups[i].0 != groups[j].0
  }

  function GroupKeys(groups: Groups): set<Json> {
    set i | 0 <= i < |groups| :: groups[i].0
  }

  /** The distinct values the field takes over the banks. */
  function FieldValues(banks: seq<Bank>, groupBy: string): set<Json> {
    set j | 0 <= j < |banks| :: Field(banks[j], groupBy)
  }

  /** The banks whose field has the value `key`, in order. */
  function Members(banks: seq<Bank>, groupBy: string, key: Json): seq<Bank> {
    Filter(b => Field(b, groupBy) == key, banks)
  }

  /** Adds one bank to the group of `key`, opening the group if needed. */
  function AddToGroup(groups: Groups, key: Json, bank: Bank): (r: Groups)
    requires DistinctGroupKeys(groups)
    ensures DistinctGroupKeys(r)
    ensures GroupKeys(r) == GroupKeys(groups) + {key}
    ensures |r| == |groups| <==> key in GroupKeys(groups)
    ensures |r| == |groups| || |r| == |groups| + 1
    ensures forall i :: 0 <= i < |groups| ==>
              r[i] == (groups[i].0, groups[i].1 + (if groups[i].0 == key then [bank] else []))
    ensures |r| > |groups| ==> r[|groups|] == (key, [bank])
  {
    if key in GroupKeys(groups) then
      var i :| 0 <= i < |groups| && groups[i].0 == key;
      var r := groups[i := (key, groups[i].1 + [bank])];
      assert forall j :: 0 <= j < |groups| && j != i ==> groups[j].0 != key && r[j] == groups[j];
      assert forall j :: 0 <= j < |groups| ==> groups[j].1 + [] == groups[j].1;
      assert forall j :: 0 <= j < |groups| ==> r[j].0 == groups[j].0;
      r
    else
      var r := groups + [(key, [bank])];
      assert forall j :: 0 <= j < |groups| ==> r[j] == groups[j] && groups[j].1 + [] == groups[j].1;
      assert r[|groups|] == (key, [bank]);
      assert GroupKeys(r) == GroupKeys(groups) + {key} by {
        forall k | k in GroupKeys(r) ensures k in GroupKeys(groups) + {key} {
          var j :| 0 <= j < |r| && r[j].0 == k;
          if j < |groups| { assert groups[j].0 == k; }
        }
      }
      r
  }

  /** `groupBanksBy(banks, groupBy)`: Immutable's `groupBy`, as the list of
      groups in order of first appearance. */
  function GroupBanksBy(banks: seq<Bank>, groupBy: string): (r: Groups)
    ensures DistinctGroupKeys(r)
    ensures GroupKeys(r) == FieldValues(banks, groupBy)
    ensures forall i :: 0 <= i < |r| ==> r[i].1 == Members(banks, groupBy, r[i].0)
    decreases |banks|
  {
    if |banks| == 0 then []
    else
      var front := banks[..|banks| - 1];
      var last := banks[|banks| - 1];
      var before := GroupBanksBy(front, groupBy);
      var r := AddToGroup(before, Field(last, groupBy), last);
      GroupStep(banks, front, last, groupBy, before, r);
      r
  }

  lemma GroupStep(banks: seq<Bank>, front: seq<Bank>, last: Bank, groupBy: string, before: Groups, r: Groups)
    requires |banks| > 0 && front == banks[..|banks| - 1] && last == banks[|banks| - 1]
    requires DistinctGroupKeys(before)
    requires GroupKeys(before) == FieldValues(front, groupBy)
    requires forall i :: 0 <= i < |before| ==> before[i].1 == Members(front, groupBy, before[i].0)
    requires r == AddToGroup(before, Field(last, groupBy), last)
    ensures GroupKeys(r) == FieldValues(banks, groupBy)
    ensures forall i :: 0 <= i < |r| ==> r[i].1 == Members(banks, groupBy, r[i].0)
  {
    assert banks == front + [last];
    FieldValuesAppend(front, last, groupBy);
    forall i | 0 <= i < |r| ensures r[i].1 == Members(front + [last], groupBy, r[i].0) {
      MembersAppend(front, last, groupBy, r[i].0);
      if i >= |before| {
        MembersAbsent(front, groupBy, r[i].0);
      }
    }
  }

  lemma FieldValuesAppend(front: seq<Bank>, last: Bank, groupBy: string)
    ensures FieldValues(front + [last], groupBy) == FieldValues(front, groupBy) + {Field(last, groupBy)}
  {
    var banks := front + [last];
    assert forall j :: 0 <= j < |front| ==> banks[j] == front[j];
    assert banks[|front|] == last;
  }

  lemma MembersAppend(front: seq<Bank>, last: Bank, groupBy: string, key: Json)
    ensures Members(front + [last], groupBy, key)
            == Members(front, groupBy, key) + (if Field(last, groupBy) == key then [last] else [])
  {
    FilterAppend(b => Field(b, groupBy) == key, front, [last]);
  }

  /** A value the field never takes has no members. */
  lemma {:induction false} MembersAbsent(banks: seq<Bank>, groupBy: string, key: Json)
    requires key !in FieldValues(banks, groupBy)
    ensures Members(banks, groupBy, key) == []
    decreases |banks|
  {
    if |banks| > 0 {
      assert Field(banks[0], groupBy) in FieldValues(banks, groupBy);
      assert FieldValues(banks[1..], groupBy) <= FieldValues(banks, groupBy) by {
        forall j | 0 <= j < |banks[1..]| ensures banks[1..][j] == banks[j + 1] {}
      }
      MembersAbsent(banks[1..], groupBy, key);
    }
  }

  function TotalSize(groups: Groups): nat
    decreases |groups|
  {
    if |groups| == 0 then 0 else TotalSize(groups[..|groups| - 1]) + |groups[|groups| - 1].1|
  }

  lemma {:induction false} TotalSizeUpdate(groups: Groups, i: nat, g: (Json, seq<Bank>))
    requires i < |groups|
    ensures TotalSize(groups[i := g]) == TotalSize(groups) - |groups[i].1| + |g.1|
    decreases |groups|
  {
    var n := |groups| - 1;
    var u := groups[i := g];
    if i < n {
      assert u[..n] == groups[..n][i := g];
      TotalSizeUpdate(groups[..n], i, g);
    } else {
      assert u[..n] == groups[..n];
    }
  }

  /** Each added bank grows the total by one. */
  lemma AddToGroupSize(groups: Groups, key: Json, bank: Bank)
    requires DistinctGroupKeys(groups)
    ensures TotalSize(AddToGroup(groups, key, bank)) == TotalSize(groups) + 1
  {
    var r := AddToGroup(groups, key, bank);
    if |r| == |groups| {
      var i :| 0 <= i < |groups| && groups[i].0 == key;
      assert r == groups[i := (key, groups[i].1 + [bank])];
      TotalSizeUpdate(groups, i, (key, groups[i].1 + [bank]));
    } else {
      assert r[..|groups|] == groups;
    }
  }

  lemma {:induction false} GroupKeysCount(groups: Groups)
    requires DistinctGroupKeys(groups)
    ensures |GroupKeys(groups)| == |groups|
    decreases |groups|
  {
    if |groups| > 0 {
      var n := |groups| - 1;
      GroupKeysCount(groups[..n]);
      assert GroupKeys(groups) == GroupKeys(groups[..n]) + {groups[n].0};
      assert groups[n].0 !in GroupKeys(groups[..n]);
    }
  }

  /** There is one group per distinct value, and the group sizes add up to
      the number of banks. */
  lemma {:induction false} GroupingSizes(banks: seq<Bank>, groupBy: string)
    ensures |GroupBanksBy(banks, groupBy)| == |FieldValues(banks, groupBy)|
    ensures TotalSize(GroupBanksBy(banks, groupBy)) == |banks|
    decreases |banks|
  {
    GroupKeysCount(GroupBanksBy(banks, groupBy));
    if |banks| > 0 {
      var front := banks[..|banks| - 1];
      GroupingSizes(front, groupBy);
      AddToGroupSize(GroupBanksBy(front, groupBy), Field(banks[|banks| - 1], groupBy), banks[|banks| - 1]);
    }
  }

  /** Every bank is in exactly one group: the one of its field value. */
  lemma GroupMembership(banks: seq<Bank>, groupBy: string, b: Bank, i: nat)
    requires b in banks && i < |GroupBanksBy(banks, groupBy)|
    ensures var r := GroupBanksBy(banks, groupBy);
            b in r[i].1 <==> r[i].0 == Field(b, groupBy)
    ensures Field(b, groupBy) in GroupKeys(GroupBanksBy(banks, groupBy))
  {
    var r := GroupBanksBy(banks, groupBy);
    FilterMembership(x => Field(x, groupBy) == r[i].0, banks, b);
  }

  // ---------------------------------------------------------------------
  // calculateBanksStatistics

  /** `parseFloat(x) || 0`: `NaN` (here `None`) counts as 0. */
  function OrZero(x: Option<real>): real {
    x.GetOr(0.0)
  }

  /** The four numeric fields of one bank after `parseFloat(...) || 0`. */
  datatype Figures = Figures(rate: real, term: real, maxLoan: real, minDown: real)

  /** `parse` stands for `parseFloat`, with `None` for `NaN`. */
  function FiguresOf(bank: Bank, parse: Json -> Option<real>): Figures {
    Figures(OrZero(parse(Field(bank, "InterestRate"))), OrZero(parse(Field(bank, "LoanTerm"))),
            OrZero(parse(Field(bank, "MaximumLoan"))), OrZero(parse(Field(bank, "MinimumDownPayment"))))
  }

  datatype Statistics = Statistics(totalBanks: nat, averageInterestRate: real, averageLoanTerm: real,
                                   averageMaxLoan: real, averageMinDownPayment: real)

  /** One of the four averaged fields. */
  datatype Column = Rate | Term | MaxLoan | MinDown

  function Pick(f: Figures, c: Column): real {
    match c
    case Rate => f.rate
    case Term => f.term
    case MaxLoan => f.maxLoan
    case MinDown => f.minDown
  }

  /** The `reduce((sum, x) => sum + x, 0)` of one column. */
  function Sum(fs: seq<Figures>, c: Column): real
    decreases |fs|
  {
    if |fs| == 0 then 0.0 else Pick(fs[0], c) + Sum(fs[1..], c)
  }

  /** `Math.round(x)`: the nearest integer, halves rounded up. */
  function Round(x: real): (r: int)
    ensures x - 0.5 < r as real <= x + 0.5
  {
    (x + 0.5).Floor
  }

  /** `r` is a whole number of hundredths. */
  predicate WholeCents(r: real) {
    (r * 100.0).Floor as real == r * 100.0
  }

  /** `Math.round(x * 100) / 100`: a whole number of cents within half a
      cent of `x`. */
  function RoundCents(x: real): (r: real)
    ensures x - 0.005 < r <= x + 0.005
    ensures WholeCents(r)
  {
    var k := Round(x * 100.0);
    assert (k as real / 100.0) * 100.0 == k as real;
    k as real / 100.0
  }

  /** Only one whole number of cents lies in that band, so the band and
      the whole cents pin the result. */
  lemma RoundCentsUnique(x: real, c: real)
    requires x - 0.005 < c <= x + 0.005 && WholeCents(c)
    ensures RoundCents(x) == c
  {
    var y := x * 100.0;
    var k := (c * 100.0).Floor;
    var m := Round(y);
    assert y - 0.5 < k as real <= y + 0.5;
    assert y - 0.5 < m as real <= y + 0.5;
    assert (m - k) as real < 1.0 && (k - m) as real < 1.0;
    assert m == k;
  }

  /** The statistics of already parsed figures. */
  function Summarise(fs: seq<Figures>): (r: Statistics)
    ensures r.totalBanks == |fs|
    ensures |fs| == 0 ==> r == Statistics(0, 0.0, 0.0, 0.0, 0.0)
    ensures |fs| > 0 ==>
              var n := |fs| as real;
              && Sum(fs, Rate) / n - 0.005 < r.averageInterestRate <= Sum(fs, Rate) / n + 0.005
              && Sum(fs, Term) / n - 0.005 < r.averageLoanTerm <= Sum(fs, Term) / n + 0.005
              && Sum(fs, MaxLoan) / n - 0.5 < r.averageMaxLoan <= Sum(fs, MaxLoan) / n + 0.5
              && Sum(fs, MinDown) / n - 0.5 < r.averageMinDownPayment <= Sum(fs, MinDown) / n + 0.5
              && r.averageMaxLoan == r.averageMaxLoan.Floor as real
              && r.averageMinDownPayment == r.averageMinDownPayment.Floor as real
    ensures WholeCents(r.averageInterestRate) && WholeCents(r.averageLoanTerm)
  {
    if |fs| == 0 then Statistics(0, 0.0, 0.0, 0.0, 0.0)
    else
      var n := |fs| as real;
      Statistics(|fs|,
                 RoundCents(Sum(fs, Rate) / n),
                 RoundCents(Sum(fs, Term) / n),
                 Round(Sum(fs, MaxLoan) / n) as real,
                 Round(Sum(fs, MinDown) / n) as real)
  }

  /** The bank field each column is read from. */
  function ColumnKey(c: Column): string {
    match c
    case Rate => "InterestRate"
    case Term => "LoanTerm"
    case MaxLoan => "MaximumLoan"
    case MinDown => "MinimumDownPayment"
  }

  /** `banks.map(bank => parseFloat(bank[key]) || 0).reduce((s, x) => s + x, 0)` */
  function FieldTotal(banks: seq<Bank>, parse: Json -> Option<real>, key: string): real
    decreases |banks|
  {
    if |banks| == 0 then 0.0 else OrZero(parse(Field(banks[0], key))) + FieldTotal(banks[1..], parse, key)
  }

  function FiguresSeq(banks: seq<Bank>, parse: Json -> Option<real>): (fs: seq<Figures>)
    ensures |fs| == |banks|
    ensures forall i :: 0 <= i < |banks| ==> fs[i] == FiguresOf(banks[i], parse)
  {
    seq(|banks|, i requires 0 <= i < |banks| => FiguresOf(banks[i], parse))
  }

  /** Summing a column of the parsed figures is summing the parsed field. */
  lemma {:induction false} SumOfFigures(banks: seq<Bank>, parse: Json -> Option<real>, c: Column)
    ensures Sum(FiguresSeq(banks, parse), c) == FieldTotal(banks, parse, ColumnKey(c))
    decreases |banks|
  {
    if |banks| > 0 {
      SumOfFigures(banks[1..], parse, c);
      assert FiguresSeq(banks, parse)[1..] == FiguresSeq(banks[1..], parse);
    }
  }

  /** `calculateBanksStatistics(banks)`: the number of banks, the mean
      interest rate and loan term rounded to cents, and the mean maximum
      loan and minimum down payment rounded to whole units, each mean taken
      over `parseFloat(field) || 0`. */
  function CalculateBanksStatistics(banks: seq<Bank>, parse: Json -> Option<real>): (r: Statistics)
    ensures r.totalBanks == |banks|
    ensures |banks| == 0 ==> r == Statistics(0, 0.0, 0.0, 0.0, 0.0)
    ensures |banks| > 0 ==>
              var n := |banks| as real;
              && r.averageInterestRate == RoundCents(FieldTotal(banks, parse, "InterestRate") / n)
              && r.averageLoanTerm == RoundCents(FieldTotal(banks, parse, "LoanTerm") / n)
              && r.averageMaxLoan == Round(FieldTotal(banks, parse, "MaximumLoan") / n) as real
              && r.averageMinDownPayment == Round(FieldTotal(banks, parse, "MinimumDownPayment") / n) as real
  {
    var fs := FiguresSeq(banks, parse);
    SumOfFigures(banks, parse, Rate);
    SumOfFigures(banks, parse, Term);
    SumOfFigures(banks, parse, MaxLoan);
    SumOfFigures(banks, parse, MinDown);
    Summarise(fs)
  }

  /** An average lies between the smallest and the largest value. */
  lemma {:induction false} SumBetween(fs: seq<Figures>, c: Column, lo: real, hi: real)
    requires forall i :: 0 <= i < |fs| ==> lo <= Pick(fs[i], c) <= hi
    ensures |fs| as real * lo <= Sum(fs, c) <= |fs| as real * hi
    decreases |fs|
  {
    if |fs| > 0 {
      SumBetween(fs[1..], c, lo, hi);
    }
  }

  /** The rounded average interest rate stays within half a cent of the
      range of the rates. */
  lemma AverageRateInRange(fs: seq<Figures>, lo: real, hi: real)
    requires |fs| > 0
    requires forall i :: 0 <= i < |fs| ==> lo <= fs[i].rate <= hi
    ensures lo - 0.005 < Summarise(fs).averageInterestRate <= hi + 0.005
  {
    var n := |fs| as real;
    SumBetween(fs, Rate, lo, hi);
    var m := Sum(fs, Rate) / n;
    assert lo <= m <= hi by {
      assert n * lo <= Sum(fs, Rate) <= n * hi;
    }
  }

  /** The figures of the three banks of the unit tests. */
  lemma StatisticsExample(fs: seq<Figures>)
    requires fs == [Figures(5.5, 30.0, 500000.0, 50000.0), Figures(4.8, 25.0, 750000.0, 75000.0),
                    Figures(6.2, 20.0, 300000.0, 30000.0)]
    ensures Summarise(fs) == Statistics(3, 5.5, 25.0, 516667.0, 51667.0)
  {
    forall c: Column ensures Sum(fs, c) == Pick(fs[0], c) + Pick(fs[1], c) + Pick(fs[2], c) {
      var t := fs[1..];
      assert t[1..] == [fs[2]];
      assert Sum([fs[2]], c) == Pick(fs[2], c) + Sum([], c);
      assert Sum(t, c) == Pick(fs[1], c) + Sum(t[1..], c);
    }
    assert Sum(fs, Rate) == 16.5;
    assert Sum(fs, Term) == 75.0;
    assert Sum(fs, MaxLoan) == 1550000.0;
    assert Sum(fs, MinDown) == 155000.0;
  }
}

=== FILE: banks_store.dfy ===
/** The banks slice of the Redux store: the `items`, `loading`, `filter`
    and `error` reducers combined into one transition function over the
    actions they handle, and the selectors over the resulting state.  The
    asynchronous thunks appear only as the actions they dispatch. */
module BanksStore {
  import opened Wrappers
  import opened Text
  import opened JsValue
  import opened Seqs
  import opened BankCollections

  /** The actions the slice reacts to; any other action is `Other`. */
  datatype Action =
    | FetchPending | FetchFulfilled(banks: seq<Bank>) | FetchRejected
    | AddPending | AddFulfilled(bank: Bank) | AddRejected
    | DeletePending | DeleteFulfilled(id: Json) | DeleteRejected
    | ChangeFilter(filter: Json)
    | Other

  /** `state.banks`: `error` starts `null` and no action changes it. */
  datatype BanksState = BanksState(items: seq<Bank>, loading: bool, filter: Json, error: Json)

  const Initial := BanksState([], false, JPrim(Str("")), JPrim(Null))

  /** The `items` reducer. */
  function Items(items: seq<Bank>, action: Action): (r: seq<Bank>)
    ensures action.FetchFulfilled? ==> r == action.banks
    ensures action.AddFulfilled? ==> |r| == |items| + 1 && r[..|items|] == items && r[|items|] == action.bank
    ensures action.DeleteFulfilled? ==>
              && IsSubsequence(r, items)
              && (forall b :: b in r <==> b in items && !HasId(b, action.id))
    ensures action.DeleteFulfilled? ==>
              forall b :: multiset(r)[b] == if HasId(b, action.id) then 0 else multiset(items)[b]
    ensures !(action.FetchFulfilled? || action.AddFulfilled? || action.DeleteFulfilled?) ==> r == items
  {
    match action
    case FetchFulfilled(banks) => banks
    case AddFulfilled(bank) =>
      var r := items + [bank];
      assert r[..|items|] == items;
      r
    case DeleteFulfilled(id) =>
      var r := Filter(b => !HasId(b, id), items);
      FilterSubsequence(b => !HasId(b, id), items);
      forall b ensures b in r <==> b in items && !HasId(b, id) {
        FilterMembership(b => !HasId(b, id), items, b);
      }
      forall b ensures multiset(r)[b] == if HasId(b, id) then 0 else multiset(items)[b] {
        FilterCount(b => !HasId(b, id), items, b);
      }
      r
    case _ => items
  }

  /** The `loading` reducer: on while a request is pending. */
  function Loading(loading: bool, action: Action): (r: bool)
    ensures action.FetchPending? || action.AddPending? || action.DeletePending? ==> r
    ensures action.FetchFulfilled? || action.AddFulfilled? || action.DeleteFulfilled? ==> !r
    ensures action.FetchRejected? || action.AddRejected? || action.DeleteRejected? ==> !r
    ensures action.ChangeFilter? || action.Other? ==> r == loading
  {
    match action
    case FetchPending => true
    case AddPending => true
    case DeletePending => true
    case ChangeFilter(_) => loading
    case Other => loading
    case _ => false
  }

  /** The `filter` reducer. */
  function FilterText(filter: Json, action: Action): (r: Json)
    ensures action.ChangeFilter? ==> r == action.filter
    ensures !action.ChangeFilter? ==> r == filter
  {
    if action.ChangeFilter? then action.filter else filter
  }

  /** `combineReducers({ items, filter, loading, error })` */
  function Reduce(state: BanksState, action: Action): (r: BanksState)
    ensures r.items == Items(state.items, action)
    ensures r.loading == Loading(state.loading, action)
    ensures r.filter == FilterText(state.filter, action)
    ensures r.error == state.error
  {
    BanksState(Items(state.items, action), Loading(state.loading, action),
               FilterText(state.filter, action), state.error)
  }

  /** The state after a series of actions. */
  function Run(state: BanksState, actions: seq<Action>): BanksState
    decreases |actions|
  {
    if |actions| == 0 then state else Run(Reduce(state, actions[0]), actions[1..])
  }

  /** `error` stays `null` whatever happens. */
  lemma {:induction false} ErrorStaysNull(actions: seq<Action>, state: BanksState)
    requires state.error == JPrim(Null)
    ensures Run(state, actions).error == JPrim(Null)
    decreases |actions|
  {
    if |actions| > 0 {
      ErrorStaysNull(actions[1..], Reduce(state, actions[0]));
    }
  }

  /** After `deleteBank` succeeds, no bank with that id is left, and every
      other bank is still there. */
  lemma DeleteRemovesId(state: BanksState, id: Json)
    ensures FindBankById(Reduce(state, DeleteFulfilled(id)).items, id).None?
    ensures forall b :: b in state.items && !HasId(b, id) ==> b in Reduce(state, DeleteFulfilled(id)).items
  {
  }

  /** A successful add of a bank with a fresh id makes it findable. */
  lemma AddMakesFindable(state: BanksState, bank: Bank, id: Json)
    requires forall i :: 0 <= i < |state.items| ==> !HasId(state.items[i], id)
    requires HasId(bank, id)
    ensures FindBankById(Reduce(state, AddFulfilled(bank)).items, id) == Some(bank)
  {
    var items := Items(state.items, AddFulfilled(bank));
    assert items == state.items + [bank];
    FindAppended(state.items, bank, id);
  }

  // ---------------------------------------------------------------------
  // Selectors

  function GetLoading(state: BanksState): (r: bool)
    ensures r == state.loading
  {
    state.loading
  }

  function GetFilter(state: BanksState): (r: Json)
    ensures r == state.filter
  {
    state.filter
  }

  function GetAllBanks(state: BanksState): (r: seq<Bank>)
    ensures r == state.items
  {
    state.items
  }

  function GetError(state: BanksState): (r: Json)
    ensures r == state.error
  {
    state.error
  }

  /** `bank.BankName.toLowerCase().includes(filter.toLowerCase())`, which
      throws when either is not a string. */
  function NameMatches(bank: Bank, filter: Json): (r: Result<bool>)
    ensures r.Success? <==> Field(bank, "BankName").JPrim? && Field(bank, "BankName").p.Str? && filter.JPrim? && filter.p.Str?
  {
    var name := Field(bank, "BankName");
    if name.JPrim? && name.p.Str? && filter.JPrim? && filter.p.Str? then
      Success(Contains(ToLower(name.p.s), ToLower(filter.p.s)))
    else Failure(TypeError)
  }

  predicate NameKept(bank: Bank, filter: Json) {
    NameMatches(bank, filter) == Success(true)
  }

  /** `banks.filter(...)` with the name test, stopping at the first throw. */
  function FilterByName(banks: seq<Bank>, filter: Json): (r: Result<seq<Bank>>)
    ensures r.Failure? <==> exists i :: 0 <= i < |banks| && NameMatches(banks[i], filter).Failure?
    ensures r.Failure? ==> r.error == TypeError
    ensures r.Success? ==> r.value == Filter(b => NameKept(b, filter), banks)
    decreases |banks|
  {
    if |banks| == 0 then Success([])
    else
      var rest := FilterByName(banks[1..], filter);
      assert forall i :: 1 <= i < |banks| ==> banks[i] == banks[1..][i - 1];
      match NameMatches(banks[0], filter)
      case Failure(e) => Failure(e)
      case Success(keep) =>
        if rest.Failure? then rest
        else if keep then Success([banks[0]] + rest.value)
        else rest
  }

  /** `getFilteredBanks(state)`: all banks for an empty filter, otherwise
      the banks whose name contains the filter text, ignoring case. */
  function GetFilteredBanks(state: BanksState): (r: Result<seq<Bank>>)
    ensures !TruthyJson(state.filter) ==> r == Success(state.items)
    ensures r.Success? ==> IsSubsequence(r.value, state.items)
    ensures TruthyJson(state.filter) && r.Success? ==>
              forall b :: b in r.value <==> b in state.items && NameKept(b, state.filter)
    ensures r.Failure? ==> r.error == TypeError
    ensures TruthyJson(state.filter) ==> r == FilterByName(state.items, state.filter)
  {
    if !TruthyJson(state.filter) then
      SubsequenceRefl(state.items);
      Success(state.items)
    else
      var r := FilterByName(state.items, state.filter);
      if r.Success? then
        FilterSubsequence(b => NameKept(b, state.filter), state.items);
        forall b ensures b in r.value <==> b in state.items && NameKept(b, state.filter) {
          FilterMembership(b => NameKept(b, state.filter), state.items, b);
        }
        r
      else r
  }

  /** The filtered list keeps every matching bank as often as the store
      holds it, and no other bank. */
  lemma FilteredCounts(state: BanksState, b: Bank)
    requires GetFilteredBanks(state).Success?
    ensures var r := GetFilteredBanks(state).value;
            multiset(r)[b] == if !TruthyJson(state.filter) || NameKept(b, state.filter) then multiset(state.items)[b] else 0
  {
    if TruthyJson(state.filter) {
      FilterCount(b => NameKept(b, state.filter), state.items, b);
    }
  }

  lemma {:induction false} FilterByNameCase(banks: seq<Bank>, f: string, g: string)
    requires ToLower(f) == ToLower(g)
    ensures FilterByName(banks, JPrim(Str(f))) == FilterByName(banks, JPrim(Str(g)))
    decreases |banks|
  {
    if |banks| > 0 {
      FilterByNameCase(banks[1..], f, g);
    }
  }

  /** The name filter ignores the case of the filter text. */
  lemma FilterCaseInsensitive(state: BanksState, f: string, g: string)
    requires ToLower(f) == ToLower(g)
    ensures GetFilteredBanks(state.(filter := JPrim(Str(f)))) == GetFilteredBanks(state.(filter := JPrim(Str(g))))
  {
    var sf, sg := state.(filter := JPrim(Str(f))), state.(filter := JPrim(Str(g)));
    assert |f| == |ToLower(f)| == |g|;
    if f != "" {
      FilterByNameCase(state.items, f, g);
      assert GetFilteredBanks(sf) == FilterByName(state.items, JPrim(Str(f)));
      assert GetFilteredBanks(sg) == FilterByName(state.items, JPrim(Str(g)));
    }
  }

  /** A bank without a string name makes a non-empty string filter throw. */
  lemma MissingNameThrows(state: BanksState, i: nat, f: string)
    requires i < |state.items| && f != ""
    requires !(Field(state.items[i], "BankName").JPrim? && Field(state.items[i], "BankName").p.Str?)
    ensures GetFilteredBanks(state.(filter := JPrim(Str(f)))) == Failure(TypeError)
  {
  }
}

=== FILE: cookie_banner.dfy ===
/** The stand-alone cookie banner: its `document.cookie` parser, the
    consent check that hides the banner, and the accept button.  The
    browser's cookie store is an ordered list of name/value pairs, and
    `document.cookie` is its `name=value` pairs joined by `; `; expiry
    dates are not modelled. */
module CookieBanner {
  import opened Wrappers
  import opened Text

  type Jar = seq<(string, string)>

  const ConsentCookie := "userConsent"
  const Accepted := "accepted"

  /** The separator `getCookie` splits on: `; ${name}=`. */
  function Marker(name: string): (m: string)
    ensures |m| == |name| + 3 && m[0] == ';' && m[1] == ' ' && m[|m| - 1] == '='
    ensures m[2..|m| - 1] == name
  {
    "; " + name + "="
  }

  /** `getCookie(name)` on the text of `document.cookie`: the text between
      `name=` and the next `;`, provided the split on the marker gives
      exactly two parts. */
  function GetCookie(cookie: string, name: string): (r: Option<string>)
    ensures r.Some? ==> ';' !in r.value
    ensures r.Some? ==> Contains("; " + cookie, Marker(name))
  {
    var parts := Split("; " + cookie, Marker(name));
    if |parts| == 2 then
      assert parts != ["; " + cookie];
      Some(UpTo(parts[1], ';'))
    else None
  }

  /** Without the marker the split has one part and the cookie is absent. */
  lemma GetCookieAbsent(cookie: string, name: string)
    requires !Contains("; " + cookie, Marker(name))
    ensures GetCookie(cookie, name) == None
  {
  }

  /** With the marker at one place only, the value runs from it to the
      next `;`. */
  lemma GetCookieUnique(cookie: string, name: string, k: nat)
    requires OccursAt("; " + cookie, Marker(name), k)
    requires forall j :: OccursAt("; " + cookie, Marker(name), j) ==> j == k
    ensures GetCookie(cookie, name) == Some(UpTo(("; " + cookie)[k + |Marker(name)|..], ';'))
  {
    var s, m := "; " + cookie, Marker(name);
    var rest := s[k + |m|..];
    assert IndexOf(s, m) == Some(k);
    assert !Contains(rest, m) by {
      forall j | OccursAt(rest, m, j) ensures false {
        assert forall t :: j <= t < j + |m| ==> rest[t] == s[k + |m| + t];
        assert s[k + |m| + j..k + |m| + j + |m|] == rest[j..j + |m|];
        assert OccursAt(s, m, k + |m| + j);
      }
    }
    assert Split(rest, m) == [rest];
    assert Split(s, m) == [s[..k]] + [rest];
  }

  /** With the marker at two places that do not overlap, the split has
      three parts or more and the cookie is absent. */
  lemma GetCookieTwice(cookie: string, name: string, i: nat, j: nat)
    requires OccursAt("; " + cookie, Marker(name), i)
    requires OccursAt("; " + cookie, Marker(name), j)
    requires i + |Marker(name)| <= j
    ensures GetCookie(cookie, name) == None
  {
    SplitTwice("; " + cookie, Marker(name), i, j);
  }

  /** Without a `;` in the cookie text the marker can only stand at the
      very start of `"; " + cookie`. */
  lemma OnlyAtStart(cookie: string, name: string, j: nat)
    requires ';' !in cookie && OccursAt("; " + cookie, Marker(name), j)
    ensures j == 0
  {
    var s := "; " + cookie;
    assert s[j] == ';';
    assert forall t :: 2 <= t < |s| ==> s[t] == cookie[t - 2];
  }

  /** Matching is on whole names: in a single `name=value` pair the cookie
      is found exactly when the pair starts with `name=`, so `ab=1` does
      not answer for `b`. */
  lemma SinglePair(cookie: string, name: string)
    requires ';' !in cookie
    ensures GetCookie(cookie, name).Some? <==> StartsWith(cookie, name + "=")
    ensures StartsWith(cookie, name + "=") ==> GetCookie(cookie, name) == Some(cookie[|name| + 1..])
  {
    var s, m := "; " + cookie, Marker(name);
    forall j | OccursAt(s, m, j) ensures j == 0 {
      OnlyAtStart(cookie, name, j);
    }
    if StartsWith(cookie, name + "=") {
      SinglePairFound(cookie, name);
    } else {
      assert !OccursAt(s, m, 0);
      GetCookieAbsent(cookie, name);
    }
  }

  lemma SinglePairFound(cookie: string, name: string)
    requires ';' !in cookie && StartsWith(cookie, name + "=")
    requires forall j :: OccursAt("; " + cookie, Marker(name), j) ==> j == 0
    ensures GetCookie(cookie, name) == Some(cookie[|name| + 1..])
  {
    var s, m := "; " + cookie, Marker(name);
    assert s[..|m|] == m;
    GetCookieUnique(cookie, name, 0);
    assert s[|m|..] == cookie[|name| + 1..];
    assert UpTo(cookie[|name| + 1..], ';') == cookie[|name| + 1..];
  }

  /** The banner's own `ab=1` case. */
  lemma WholeNameExample()
    ensures GetCookie("ab=1", "b") == None
  {
    SinglePair("ab=1", "b");
    assert !StartsWith("ab=1", "b=") by {
      assert "ab=1"[0] != "b="[0];
    }
  }

  // ---------------------------------------------------------------------
  // The cookie store

  predicate NoChar(s: string, c: char) {
    forall i :: 0 <= i < |s| ==> s[i] != c
  }

  /** A cookie name the marker can find: no `;` and no `=`. */
  predicate PlainName(name: string) {
    NoChar(name, ';') && NoChar(name, '=')
  }

  /** A store the browser can hold: plain names, values without `;`,
      each name once. */
  predicate WellFormed(jar: Jar) {
    && (forall i :: 0 <= i < |jar| ==> PlainName(jar[i].0) && NoChar(jar[i].1, ';'))
    && (forall i, j :: 0 <= i < j < |jar| ==> jar[i].0 != jar[j].0)
  }

  /** The value stored under `name`. */
  function Lookup(jar: Jar, name: string): (r: Option<string>)
    ensures r.None? <==> forall i :: 0 <= i < |jar| ==> jar[i].0 != name
    ensures r.Some? ==> exists i :: 0 <= i < |jar| && jar[i] == (name, r.value)
  {
    if |jar| == 0 then None
    else if jar[0].0 == name then Some(jar[0].1)
    else Lookup(jar[1..], name)
  }

  /** One pair as it appears after the leading `; ` is added. */
  function Segment(c: (string, string)): string {
    "; " + c.0 + "=" + c.1
  }

  /** `"; " + document.cookie` for a non-empty store. */
  function Segments(jar: Jar): (s: string)
    ensures |jar| > 0 ==> |s| >= 3 && s[..2] == "; "
  {
    if |jar| == 0 then "" else Segment(jar[0]) + Segments(jar[1..])
  }

  /** `document.cookie` */
  function DocumentCookie(jar: Jar): (s: string)
    ensures |jar| > 0 ==> "; " + s == Segments(jar)
  {
    if |jar| == 0 then "" else Segments(jar)[2..]
  }

  /** Inside one segment the marker can only start at the segment's own
      `;`, and only for the segment's own name. */
  lemma MarkerInSegment(c: (string, string), t: string, name: string, k: nat)
    requires PlainName(c.0) && NoChar(c.1, ';') && PlainName(name)
    requires k < |Segment(c)| && OccursAt(Segment(c) + t, Marker(name), k)
    ensures k == 0 && c.0 == name
  {
    var s, m := Segment(c) + t, Marker(name);
    forall p | 1 <= p < |Segment(c)| ensures s[p] != ';' {
      if 2 <= p < 2 + |c.0| {
        assert s[p] == c.0[p - 2];
      } else if p > 2 + |c.0| {
        assert s[p] == c.1[p - 3 - |c.0|];
      }
    }
    assert s[k] == m[0];
    assert forall i :: 0 <= i < |c.0| ==> s[2 + i] == c.0[i];
    assert s[2 + |c.0|] == '=';
    assert forall i :: 0 <= i < |name| ==> m[2 + i] == name[i];
    assert k == 0 && s[..|m|] == m;
    assert s[2..][..|m| - 2] == m[2..];
    SameName(c.0, name, s[2..], m[2..]);
  }

  /** Two `=`-free names each followed by `=` at the start of the same text
      are the same name. */
  lemma SameName(a: string, b: string, x: string, y: string)
    requires NoChar(a, '=') && NoChar(b, '=')
    requires |a| < |x| && x[..|a|] == a && x[|a|] == '='
    requires |b| < |y| && y[..|b|] == b && y[|b|] == '='
    requires |a| < |y| ==> x[..|a| + 1] == y[..|a| + 1]
    requires |b| < |x| ==> x[..|b| + 1] == y[..|b| + 1]
    ensures a == b
  {
    if |a| == |b| {
      assert x[..|a| + 1] == y[..|a| + 1];
    }
  }

  /** The text before the first `c` of `a + b`, when `a` has none and `b`
      is empty or starts with one, is `a`. */
  lemma {:induction false} UpToJoin(a: string, b: string, c: char)
    requires NoChar(a, c) && (b == [] || b[0] == c)
    ensures UpTo(a + b, c) == a
    decreases |a|
  {
    if |a| > 0 {
      assert (a + b)[1..] == a[1..] + b;
      UpToJoin(a[1..], b, c);
    } else {
      assert a + b == b;
    }
  }

  /** Where the marker occurs in a well-formed store: nowhere when the name
      is absent, at exactly one place when it is present, and the text
      from there to the next `;` is the stored value. */
  ghost predicate MarkerAt(jar: Jar, name: string, k: nat) {
    MarkerIn(Segments(jar), Marker(name), Lookup(jar, name), k)
  }

  /** `m` is absent from `s` when `value` is `None`; otherwise it occurs
      only at `k`, and `value` runs from there to the next `;`. */
  ghost predicate MarkerIn(s: string, m: string, value: Option<string>, k: nat) {
    match value
    case None => forall j :: !OccursAt(s, m, j)
    case Some(v) =>
      && OccursAt(s, m, k)
      && (forall j :: OccursAt(s, m, j) ==> j == k)
      && UpTo(s[k + |m|..], ';') == v
  }

  lemma {:induction false} MarkerPlaces(jar: Jar, name: string) returns (k: nat)
    requires WellFormed(jar) && PlainName(name)
    ensures MarkerAt(jar, name, k)
    decreases |jar|
  {
    k := 0;
    if |jar| > 0 {
      WellFormedTail(jar);
      var k' := MarkerPlaces(jar[1..], name);
      if jar[0].0 == name {
        MarkerHere(jar, name);
      } else {
        OccurrencesLater(jar, name);
        k := MarkerLater(jar, name, k');
      }
    }
  }

  /** Occurrences past the first segment are occurrences in the rest. */
  lemma ShiftOccurrence(seg: string, rest: string, m: string, j: nat)
    requires OccursAt(seg + rest, m, j) && j >= |seg|
    ensures OccursAt(rest, m, j - |seg|)
  {
    assert forall t :: j <= t < j + |m| ==> (seg + rest)[t] == rest[t - |seg|];
    assert rest[j - |seg|..j - |seg| + |m|] == (seg + rest)[j..j + |m|];
  }

  lemma MarkerHere(jar: Jar, name: string)
    requires |jar| > 0 && WellFormed(jar) && PlainName(name) && jar[0].0 == name
    requires WellFormed(jar[1..]) && forall i :: 0 <= i < |jar| - 1 ==> jar[1..][i].0 != jar[0].0
    requires MarkerAt(jar[1..], name, 0)
    ensures MarkerAt(jar, name, 0)
  {
    var m, seg, rest := Marker(name), Segment(jar[0]), Segments(jar[1..]);
    var s := seg + rest;
    assert Lookup(jar[1..], name).None?;
    assert s[..|m|] == m;
    forall j | OccursAt(s, m, j) ensures j == 0 {
      if j < |seg| {
        MarkerInSegment(jar[0], rest, name, j);
      } else {
        ShiftOccurrence(seg, rest, m, j);
      }
    }
    assert s[|m|..] == jar[0].1 + rest;
    UpToJoin(jar[0].1, rest, ';');
  }

  lemma MarkerLater(jar: Jar, name: string, k': nat) returns (k: nat)
    requires |jar| > 0 && jar[0].0 != name
    requires MarkerAt(jar[1..], name, k')
    requires var seg := Segment(jar[0]);
             forall j :: OccursAt(seg + Segments(jar[1..]), Marker(name), j) ==>
               j >= |seg| && OccursAt(Segments(jar[1..]), Marker(name), j - |seg|)
    ensures MarkerAt(jar, name, k)
  {
    var m, seg, rest := Marker(name), Segment(jar[0]), Segments(jar[1..]);
    var value := Lookup(jar, name);
    assert value == Lookup(jar[1..], name);
    ShiftMarker(seg, rest, m, value, k');
    k := k' + |seg|;
    MarkerTransfer(jar, name, seg + rest, value, k);
  }

  /** `MarkerAt` read off the segments and the value it is made of. */
  lemma MarkerTransfer(jar: Jar, name: string, s: string, value: Option<string>, k: nat)
    requires |jar| > 0 && s == Segment(jar[0]) + Segments(jar[1..]) && value == Lookup(jar, name)
    requires MarkerIn(s, Marker(name), value, k)
    ensures MarkerAt(jar, name, k)
  {
    assert s == Segments(jar);
  }

  /** A marker pattern of the rest carries over to `seg + rest` when every
      occurrence lies past `seg`. */
  lemma ShiftMarker(seg: string, rest: string, m: string, value: Option<string>, k': nat)
    requires MarkerIn(rest, m, value, k')
    requires forall j :: OccursAt(seg + rest, m, j) ==> j >= |seg| && OccursAt(rest, m, j - |seg|)
    ensures MarkerIn(seg + rest, m, value, k' + |seg|)
  {
    if value.Some? {
      LaterFound(seg, rest, m, k');
    }
  }

  /** Every occurrence in a store whose first pair has another name lies
      past the first segment. */
  lemma OccurrencesLater(jar: Jar, name: string)
    requires |jar| > 0 && WellFormed(jar) && PlainName(name) && jar[0].0 != name
    ensures var seg := Segment(jar[0]);
            forall j :: OccursAt(seg + Segments(jar[1..]), Marker(name), j) ==>
              j >= |seg| && OccursAt(Segments(jar[1..]), Marker(name), j - |seg|)
  {
    var m, seg, rest := Marker(name), Segment(jar[0]), Segments(jar[1..]);
    forall j | OccursAt(seg + rest, m, j) ensures j >= |seg| && OccursAt(rest, m, j - |seg|) {
      if j < |seg| {
        MarkerInSegment(jar[0], rest, name, j);
      }
      ShiftOccurrence(seg, rest, m, j);
    }
  }

  /** The one occurrence in the rest, moved past the first segment. */
  lemma LaterFound(seg: string, rest: string, m: string, k': nat)
    requires OccursAt(rest, m, k')
    ensures OccursAt(seg + rest, m, k' + |seg|)
    ensures (seg + rest)[k' + |seg| + |m|..] == rest[k' + |m|..]
  {
    var s := seg + rest;
    assert s[k' + |seg|..k' + |seg| + |m|] == rest[k'..k' + |m|];
  }

  /** `getCookie` reads back exactly what the store holds. */
  lemma CookieRoundTrip(jar: Jar, name: string)
    requires WellFormed(jar) && PlainName(name)
    ensures GetCookie(DocumentCookie(jar), name) == Lookup(jar, name)
  {
    var k := MarkerPlaces(jar, name);
    assert MarkerAt(jar, name, k);
    if |jar| == 0 {
      assert !OccursAt("; ", Marker(name), 0);
      GetCookieAbsent("", name);
    } else if Lookup(jar, name).Some? {
      GetCookieUnique(DocumentCookie(jar), name, k);
    } else {
      GetCookieAbsent(DocumentCookie(jar), name);
    }
  }

  /** `document.cookie = name=value; ...`: replaces the pair of that name
      in place, or adds one at the end. */
  function SetCookie(jar: Jar, name: string, value: string): (r: Jar)
    ensures Lookup(r, name) == Some(value)
    ensures forall other :: other != name ==> Lookup(r, other) == Lookup(jar, other)
    ensures |r| == |jar| || |r| == |jar| + 1
    ensures forall i :: 0 <= i < |r| ==> r[i] == (name, value) || r[i] in jar
  {
    if |jar| == 0 then [(name, value)]
    else if jar[0].0 == name then [(name, value)] + jar[1..]
    else [jar[0]] + SetCookie(jar[1..], name, value)
  }

  lemma WellFormedTail(jar: Jar)
    requires |jar| > 0 && WellFormed(jar)
    ensures WellFormed(jar[1..])
    ensures forall i :: 0 <= i < |jar| - 1 ==> jar[1..][i].0 != jar[0].0
  {
    assert forall i :: 0 <= i < |jar| - 1 ==> jar[1..][i] == jar[i + 1];
  }

  /** Writing a plain cookie keeps the store well formed. */
  lemma {:induction false} SetKeepsWellFormed(jar: Jar, name: string, value: string)
    requires WellFormed(jar) && PlainName(name) && NoChar(value, ';')
    ensures WellFormed(SetCookie(jar, name, value))
    decreases |jar|
  {
    if |jar| > 0 {
      WellFormedTail(jar);
      if jar[0].0 != name {
        SetKeepsWellFormed(jar[1..], name, value);
        var t := SetCookie(jar[1..], name, value);
        forall i | 0 <= i < |t| ensures t[i].0 != jar[0].0 {
          if t[i] != (name, value) {
            var k :| 0 <= k < |jar| - 1 && jar[1..][k] == t[i];
          }
        }
        ConsWellFormed(jar[0], t);
      } else {
        ConsWellFormed((name, value), jar[1..]);
      }
    }
  }

  lemma ConsWellFormed(c: (string, string), t: Jar)
    requires WellFormed(t) && PlainName(c.0) && NoChar(c.1, ';')
    requires forall i :: 0 <= i < |t| ==> t[i].0 != c.0
    ensures WellFormed([c] + t)
  {
    var r := [c] + t;
    assert forall i :: 1 <= i < |r| ==> r[i] == t[i - 1];
  }

  /** The banner's state: whether it is hidden. */
  datatype Banner = Banner(hidden: bool)

  /** `checkCookie()`: the banner hides exactly when the consent cookie
      reads `accepted`. */
  function CheckCookie(banner: Banner, cookie: string): (r: Banner)
    ensures r.hidden <==> banner.hidden || GetCookie(cookie, ConsentCookie) == Some(Accepted)
  {
    if GetCookie(cookie, ConsentCookie) == Some(Accepted) then Banner(true) else banner
  }

  /** `init()` on a page without a banner: render it shown, then check. */
  function Init(jar: Jar): (r: Banner)
    ensures r.hidden <==> GetCookie(DocumentCookie(jar), ConsentCookie) == Some(Accepted)
  {
    CheckCookie(Banner(false), DocumentCookie(jar))
  }

  /** `handleAcceptButtonClick()`: store the consent and hide. */
  function HandleAccept(jar: Jar, banner: Banner): (r: (Jar, Banner))
    ensures r.1.hidden
    ensures Lookup(r.0, ConsentCookie) == Some(Accepted)
    ensures forall other :: other != ConsentCookie ==> Lookup(r.0, other) == Lookup(jar, other)
  {
    (SetCookie(jar, ConsentCookie, Accepted), Banner(true))
  }

  /** Once accepted, the banner of every later page load starts hidden. */
  lemma AcceptRemembered(jar: Jar, banner: Banner)
    requires WellFormed(jar)
    ensures Init(HandleAccept(jar, banner).0).hidden
  {
    assert PlainName(ConsentCookie) && NoChar(Accepted, ';');
    SetKeepsWellFormed(jar, ConsentCookie, Accepted);
    CookieRoundTrip(HandleAccept(jar, banner).0, ConsentCookie);
  }

  /** A page load shows the banner unless the stored consent is exactly
      `accepted`. */
  lemma InitFollowsStore(jar: Jar)
    requires WellFormed(jar)
    ensures Init(jar).hidden <==> Lookup(jar, ConsentCookie) == Some(Accepted)
  {
    assert PlainName(ConsentCookie);
    CookieRoundTrip(jar, ConsentCookie);
  }
}

=== FILE: cookie_consent.dfy ===
/** The `useCookies` hook: three consent choices written to the cookie
    store (a map from cookie name to value, as `js-cookie` reads it) and
    the preferences read back from it.  Expiry dates are not modelled. */
module CookieConsent {
  import opened Wrappers

  type Cookies = map<string, string>

  const AcceptedCookie := "cookies-accepted"
  const AnalyticsCookie := "analytics-cookies"
  const MarketingCookie := "marketing-cookies"

  /** The three buttons of the consent dialog. */
  datatype Choice = AcceptAll | AcceptNecessary | RejectAll

  /** The value each choice writes to `cookies-accepted`. */
  function Level(c: Choice): (s: string)
    ensures s != ""
  {
    match c
    case AcceptAll => "all"
    case AcceptNecessary => "necessary"
    case RejectAll => "none"
  }

  /** The value each choice writes to the analytics and marketing cookies. */
  function Optional(c: Choice): (s: string)
    ensures s == "true" <==> c == AcceptAll
    ensures s == "true" || s == "false"
  {
    if c == AcceptAll then "true" else "false"
  }

  /** The store and the hook's `cookiesAccepted` state (`None` is `null`). */
  datatype Consent = Consent(cookies: Cookies, accepted: Option<string>)

  /** The mount effect: `Cookies.get('cookies-accepted') || null`. */
  function Mount(cookies: Cookies): (r: Consent)
    ensures r.cookies == cookies
    ensures r.accepted.Some? <==> AcceptedCookie in cookies && cookies[AcceptedCookie] != ""
    ensures r.accepted.Some? ==> r.accepted.value == cookies[AcceptedCookie]
  {
    var status := if AcceptedCookie in cookies then cookies[AcceptedCookie] else "";
    Consent(cookies, if status != "" then Some(status) else None)
  }

  /** `acceptAll()`, `acceptNecessary()` and `rejectAll()`. */
  function Choose(state: Consent, c: Choice): (r: Consent)
    ensures r.cookies.Keys == state.cookies.Keys + {AcceptedCookie, AnalyticsCookie, MarketingCookie}
    ensures r.cookies[AcceptedCookie] == Level(c)
    ensures r.cookies[AnalyticsCookie] == Optional(c) && r.cookies[MarketingCookie] == Optional(c)
    ensures forall k :: k in state.cookies && k !in {AcceptedCookie, AnalyticsCookie, MarketingCookie} ==>
              r.cookies[k] == state.cookies[k]
    ensures r.accepted == Some(Level(c))
  {
    var cookies := state.cookies[AcceptedCookie := Level(c)][AnalyticsCookie := Optional(c)][MarketingCookie := Optional(c)];
    Consent(cookies, Some(Level(c)))
  }

  /** `isCookieAccepted(type)`: the cookie `${type}-cookies` is exactly
      `true`. */
  function IsCookieAccepted(cookies: Cookies, kind: string): (r: bool)
    ensures r <==> kind + "-cookies" in cookies && cookies[kind + "-cookies"] == "true"
  {
    var name := kind + "-cookies";
    name in cookies && cookies[name] == "true"
  }

  datatype Preferences = Preferences(accepted: Option<string>, analytics: bool, marketing: bool)

  /** `getCookiesPreferences()` */
  function GetPreferences(state: Consent): (r: Preferences)
    ensures r.accepted == state.accepted
    ensures r.analytics <==> AnalyticsCookie in state.cookies && state.cookies[AnalyticsCookie] == "true"
    ensures r.marketing <==> MarketingCookie in state.cookies && state.cookies[MarketingCookie] == "true"
  {
    assert "analytics" + "-cookies" == AnalyticsCookie;
    assert "marketing" + "-cookies" == MarketingCookie;
    Preferences(state.accepted, IsCookieAccepted(state.cookies, "analytics"), IsCookieAccepted(state.cookies, "marketing"))
  }

  /** After a choice, analytics and marketing are on exactly when the
      choice was to accept everything, and the level is the one written. */
  lemma PreferencesFollowChoice(state: Consent, c: Choice)
    ensures var p := GetPreferences(Choose(state, c));
            && p.accepted == Some(Level(c))
            && (p.analytics <==> c == AcceptAll)
            && (p.marketing <==> c == AcceptAll)
  {
  }

  /** The choice is remembered: mounting the hook again on the written
      store restores the same `cookiesAccepted` and the same preferences. */
  lemma ChoiceSurvivesReload(state: Consent, c: Choice)
    ensures Mount(Choose(state, c).cookies) == Choose(state, c)
    ensures GetPreferences(Mount(Choose(state, c).cookies)) == GetPreferences(Choose(state, c))
  {
  }

  /** The last choice wins: choosing twice is choosing the second time. */
  lemma LastChoiceWins(state: Consent, c1: Choice, c2: Choice)
    ensures Choose(Choose(state, c1), c2) == Choose(state, c2)
  {
    var a := Choose(Choose(state, c1), c2).cookies;
    var b := Choose(state, c2).cookies;
    assert a.Keys == b.Keys;
    assert forall k :: k in a ==> a[k] == b[k];
  }

  /** The three levels are different, so the stored level tells the
      choices apart. */
  lemma LevelsDistinct(c1: Choice, c2: Choice)
    ensures Level(c1) == Level(c2) <==> c1 == c2
  {
  }
}

=== FILE: csrf.dfy ===
/** The CSRF helpers of the security utilities: the token is 32 random bytes
    written as lower-case hexadecimal, two characters per byte, and a token
    is accepted when both it and the stored one are truthy and strictly
    equal.  The random bytes are a parameter. */
module Csrf {
  import opened Wrappers
  import opened JsValue

  type Byte = b: int | 0 <= b < 256

  /** The number of random bytes in a token. */
  const TokenBytes := 32

  predicate IsHexChar(c: char) {
    ('0' <= c <= '9') || ('a' <= c <= 'f')
  }

  /** The digit `Number.prototype.toString(16)` writes for `d`. */
  function HexChar(d: int): (c: char)
    requires 0 <= d < 16
    ensures IsHexChar(c)
    ensures HexValue(c) == d
  {
    if d < 10 then ('0' as int + d) as char else ('a' as int + d - 10) as char
  }

  function HexValue(c: char): (d: int)
    requires IsHexChar(c)
    ensures 0 <= d < 16
  {
    if c <= '9' then c as int - '0' as int else c as int - 'a' as int + 10
  }

  /** `byte.toString(16)`: no leading zero, so one digit below 16. */
  function ByteToHex(b: Byte): (s: string)
    ensures |s| == 1 <==> b < 16
    ensures |s| == 1 || |s| == 2
    ensures forall i :: 0 <= i < |s| ==> IsHexChar(s[i])
    ensures |s| == 2 ==> s[0] != '0'
  {
    if b < 16 then [HexChar(b)] else [HexChar(b / 16), HexChar(b % 16)]
  }

  /** `s.padStart(width, fill)` */
  function PadStart(s: string, width: nat, fill: char): (r: string)
    ensures |r| == if |s| >= width then |s| else width
    ensures r[|r| - |s|..] == s
    ensures forall i :: 0 <= i < |r| - |s| ==> r[i] == fill
  {
    if |s| >= width then s else seq(width - |s|, _ => fill) + s
  }

  /** One byte as two hexadecimal digits, high digit first. */
  function ByteHex(b: Byte): (s: string)
    ensures |s| == 2
    ensures IsHexChar(s[0]) && IsHexChar(s[1])
    ensures 16 * HexValue(s[0]) + HexValue(s[1]) == b
  {
    PadStart(ByteToHex(b), 2, '0')
  }

  /** `Array.from(bytes, byteHex).join('')` */
  function HexEncode(bytes: seq<Byte>): (s: string)
    ensures |s| == 2 * |bytes|
    ensures forall i :: 0 <= i < |s| ==> IsHexChar(s[i])
    ensures forall i :: 0 <= i < |bytes| ==> s[2 * i..2 * i + 2] == ByteHex(bytes[i])
  {
    if |bytes| == 0 then ""
    else
      var rest := HexEncode(bytes[1..]);
      var s := ByteHex(bytes[0]) + rest;
      assert forall i :: 1 <= i < |bytes| ==> s[2 * i..2 * i + 2] == rest[2 * (i - 1)..2 * (i - 1) + 2];
      s
  }

  /** The inverse of `HexEncode`: pairs of lower-case hexadecimal digits. */
  function HexDecode(s: string): (r: Option<seq<Byte>>)
    ensures r.Some? ==> |s| == 2 * |r.value|
    decreases |s|
  {
    if |s| == 0 then Some([])
    else if |s| == 1 || !IsHexChar(s[0]) || !IsHexChar(s[1]) then None
    else match HexDecode(s[2..])
      case None => None
      case Some(rest) => Some([16 * HexValue(s[0]) + HexValue(s[1])] + rest)
  }

  lemma {:induction false} HexRoundTrip(bytes: seq<Byte>)
    ensures HexDecode(HexEncode(bytes)) == Some(bytes)
    decreases |bytes|
  {
    if |bytes| > 0 {
      var h, rest := ByteHex(bytes[0]), HexEncode(bytes[1..]);
      HexRoundTrip(bytes[1..]);
      DecodeStep(h, rest, bytes[0], bytes[1..]);
      assert [bytes[0]] + bytes[1..] == bytes;
    }
  }

  /** Decoding two digits in front of an encoded tail. */
  lemma DecodeStep(h: string, rest: string, b: Byte, tail: seq<Byte>)
    requires h == ByteHex(b) && HexDecode(rest) == Some(tail)
    ensures HexDecode(h + rest) == Some([b] + tail)
  {
    var s := h + rest;
    assert s[0] == h[0] && s[1] == h[1];
    assert s[2..] == rest;
  }

  /** Different random bytes give different tokens. */
  lemma HexEncodeInjective(a: seq<Byte>, b: seq<Byte>)
    requires HexEncode(a) == HexEncode(b)
    ensures a == b
  {
    HexRoundTrip(a);
    HexRoundTrip(b);
  }

  /** `generateCSRFToken()` with the output of `crypto.getRandomValues`. */
  function GenerateCsrfToken(random: seq<Byte>): (token: string)
    requires |random| == TokenBytes
    ensures |token| == 64
    ensures forall i :: 0 <= i < |token| ==> IsHexChar(token[i])
    ensures HexDecode(token) == Some(random)
  {
    HexRoundTrip(random);
    HexEncode(random)
  }

  /** `validateCSRFToken(token, storedToken)` */
  function ValidateCsrfToken(token: Prim, stored: Prim): (ok: bool)
    ensures ok ==> token == stored
    ensures ok ==> Truthy(token) && Truthy(stored)
    ensures !Truthy(token) || !Truthy(stored) ==> !ok
    ensures Truthy(token) && Truthy(stored) ==> (ok <==> StrictEquals(token, stored))
  {
    if !Truthy(token) || !Truthy(stored) then false
    else StrictEquals(token, stored)
  }

  /** A generated token is accepted against itself, and a token is refused
      against a different string or a missing one. */
  lemma TokenChecks(random: seq<Byte>, other: string)
    requires |random| == TokenBytes
    ensures var t := GenerateCsrfToken(random);
            && ValidateCsrfToken(Str(t), Str(t))
            && (other != t ==> !ValidateCsrfToken(Str(t), Str(other)))
            && !ValidateCsrfToken(Null, Str(t))
            && !ValidateCsrfToken(Str(t), Null)
  {
  }

  /** Two tokens from different random bytes never validate against each
      other. */
  lemma DistinctRandomDistinctTokens(r1: seq<Byte>, r2: seq<Byte>)
    requires |r1| == TokenBytes && |r2| == TokenBytes && r1 != r2
    ensures !ValidateCsrfToken(Str(GenerateCsrfToken(r1)), Str(GenerateCsrfToken(r2)))
  {
    if GenerateCsrfToken(r1) == GenerateCsrfToken(r2) {
      HexEncodeInjective(r1, r2);
    }
  }
}

=== FILE: form_validation.dfy ===
/** The `useFormValidation` hook as pure state transitions.  Field values
    are strings (`None` when the field has no value, that is `undefined`);
    a rule's regular expression and custom check are function parameters.
    The hook's effect, which re-validates after every change of values or
    touched flags, is the explicit `Settle` step. */
module FormValidation {
  import opened Wrappers
  import opened Text

  type Values = map<string, string>

  /** `rules.required`: any falsy value, `true`, or a message. */
  datatype Required = NotRequired | RequiredDefault | RequiredWith(message: string)

  /** One entry of the rules object.  A length of 0 and a message of ""
      stand for an absent (falsy) property. */
  datatype Rule = Rule(
    required: Required,
    minLength: int, minLengthMessage: string,
    maxLength: int, maxLengthMessage: string,
    pattern: Option<string -> bool>, patternMessage: string,
    custom: Option<(Option<string>, Values) -> string>)

  type Rules = map<string, Rule>

  datatype FormState = FormState(values: Values, errors: map<string, string>, isValid: bool, touched: set<string>)

  const RequiredMessage := "This field is required"
  const InvalidFormat := "Invalid format"

  /** `!!value` for a field value. */
  predicate Present(value: Option<string>) {
    value.Some? && value.value != ""
  }

  /** `rules.required` is truthy. */
  predicate IsRequired(r: Required) {
    r.RequiredDefault? || (r.RequiredWith? && r.message != "")
  }

  /** The message a truthy `rules.required` selects. */
  function RequiredText(r: Required): (m: string)
    requires IsRequired(r)
    ensures m != ""
  {
    if r.RequiredDefault? then RequiredMessage else r.message
  }

  /** `!value || value.trim() === ''` */
  predicate Blank(value: Option<string>) {
    !Present(value) || Trim(value.value) == ""
  }

  function MinLengthMessage(rule: Rule): (m: string)
    ensures m != ""
  {
    if rule.minLengthMessage != "" then rule.minLengthMessage
    else "Minimum " + IntToDecimal(rule.minLength) + " characters required"
  }

  function MaxLengthMessage(rule: Rule): (m: string)
    ensures m != ""
  {
    if rule.maxLengthMessage != "" then rule.maxLengthMessage
    else "Maximum " + IntToDecimal(rule.maxLength) + " characters allowed"
  }

  /** The first failing check of one field, in the order required,
      minLength, maxLength, pattern, custom; fields neither touched nor
      filled are not checked. */
  function FieldError(value: Option<string>, touched: bool, rule: Rule, values: Values): (e: Option<string>)
    ensures e.Some? ==> e.value != ""
    ensures !touched && !Present(value) ==> e.None?
    ensures (touched || Present(value)) && IsRequired(rule.required) && Blank(value) ==>
              e == Some(RequiredText(rule.required))
    ensures e.Some? && !(IsRequired(rule.required) && Blank(value)) && rule.custom.None? ==> Present(value)
  {
    if !(touched || Present(value)) then None
    else if IsRequired(rule.required) && Blank(value) then
      Some(RequiredText(rule.required))
    else if rule.minLength != 0 && Present(value) && Utf16Length(value.value) < rule.minLength then
      Some(MinLengthMessage(rule))
    else if rule.maxLength != 0 && Present(value) && Utf16Length(value.value) > rule.maxLength then
      Some(MaxLengthMessage(rule))
    else if rule.pattern.Some? && Present(value) && !rule.pattern.value(value.value) then
      Some(if rule.patternMessage != "" then rule.patternMessage else InvalidFormat)
    else if rule.custom.Some? then
      var e := rule.custom.value(value, values);
      if e != "" then Some(e) else None
    else None
  }

  /** One link of the rule chain: whether it fails and what it reports. */
  datatype Check = Check(fails: bool, message: string)

  /** The checks of one rule on a value, in the order the hook tries them:
      required, minLength, maxLength, pattern, custom. */
  function Checks(value: Option<string>, rule: Rule, values: Values): (cs: seq<Check>)
    ensures |cs| == 5
  {
    var s := if value.Some? then value.value else "";
    var custom := if rule.custom.Some? then rule.custom.value(value, values) else "";
    [ Check(IsRequired(rule.required) && Blank(value),
            if IsRequired(rule.required) then RequiredText(rule.required) else ""),
      Check(rule.minLength != 0 && Present(value) && Utf16Length(s) < rule.minLength, MinLengthMessage(rule)),
      Check(rule.maxLength != 0 && Present(value) && Utf16Length(s) > rule.maxLength, MaxLengthMessage(rule)),
      Check(rule.pattern.Some? && Present(value) && !rule.pattern.value(s),
            if rule.patternMessage != "" then rule.patternMessage else InvalidFormat),
      Check(custom != "", custom) ]
  }

  /** The message of the first failing check, if any. */
  function FirstFailure(cs: seq<Check>): (r: Option<string>)
    ensures r.None? <==> forall i :: 0 <= i < |cs| ==> !cs[i].fails
    ensures r.Some? ==> exists i :: && 0 <= i < |cs| && cs[i].fails && cs[i].message == r.value
                                    && forall j :: 0 <= j < i ==> !cs[j].fails
  {
    if |cs| == 0 then None
    else if cs[0].fails then Some(cs[0].message)
    else
      var r := FirstFailure(cs[1..]);
      FailureShifts(cs, r);
      r
  }

  /** A first failure of the tail, behind a passing head, is a first
      failure of the whole chain. */
  lemma FailureShifts(cs: seq<Check>, r: Option<string>)
    requires |cs| > 0 && !cs[0].fails
    requires r.None? <==> forall i :: 0 <= i < |cs[1..]| ==> !cs[1..][i].fails
    requires r.Some? ==> exists i :: && 0 <= i < |cs[1..]| && cs[1..][i].fails && cs[1..][i].message == r.value
                                     && forall j :: 0 <= j < i ==> !cs[1..][j].fails
    ensures r.None? <==> forall i :: 0 <= i < |cs| ==> !cs[i].fails
    ensures r.Some? ==> exists i :: && 0 <= i < |cs| && cs[i].fails && cs[i].message == r.value
                                    && forall j :: 0 <= j < i ==> !cs[j].fails
  {
    if r.Some? {
      var i :| && 0 <= i < |cs[1..]| && cs[1..][i].fails && cs[1..][i].message == r.value
               && forall j :: 0 <= j < i ==> !cs[1..][j].fails;
      assert cs[i + 1] == cs[1..][i];
      forall j | 0 <= j < i + 1
        ensures !cs[j].fails
      {
        if j > 0 { assert cs[j] == cs[1..][j - 1]; }
      }
    } else {
      forall i | 0 <= i < |cs|
        ensures !cs[i].fails
      {
        if i > 0 { assert cs[i] == cs[1..][i - 1]; }
      }
    }
  }

  /** A checked field reports the first failing link of its rule chain and
      nothing when every link passes, so a field has at most one error. */
  lemma FieldErrorIsFirstFailure(value: Option<string>, touched: bool, rule: Rule, values: Values)
    requires touched || Present(value)
    ensures FieldError(value, touched, rule, values) == FirstFailure(Checks(value, rule, values))
  {
    var cs := Checks(value, rule, values);
    var c1 := cs[1..];
    var c2 := c1[1..];
    var c3 := c2[1..];
    var c4 := c3[1..];
    assert c4[1..] == [];
    assert FirstFailure(c4) == if c4[0].fails then Some(c4[0].message) else None;
    assert FirstFailure(c3) == if c3[0].fails then Some(c3[0].message) else FirstFailure(c4);
    assert FirstFailure(c2) == if c2[0].fails then Some(c2[0].message) else FirstFailure(c3);
    assert FirstFailure(c1) == if c1[0].fails then Some(c1[0].message) else FirstFailure(c2);
    assert FirstFailure(cs) == if cs[0].fails then Some(cs[0].message) else FirstFailure(c1);
  }

  /** Without messages of their own, the checks report the hook's default
      messages. */
  lemma DefaultMessages(values: Values)
    ensures FieldError(None, true, Rule(RequiredDefault, 0, "", 0, "", None, "", None), values)
            == Some("This field is required")
    ensures FieldError(Some("abc"), true, Rule(NotRequired, 6, "", 0, "", None, "", None), values)
            == Some("Minimum 6 characters required")
    ensures FieldError(Some("abcd"), false, Rule(NotRequired, 0, "", 3, "", None, "", None), values)
            == Some("Maximum 3 characters allowed")
    ensures FieldError(Some("x"), false, Rule(NotRequired, 0, "", 0, "", Some(_ => false), "", None), values)
            == Some("Invalid format")
  {
    DefaultMinMessage(values);
    DefaultMaxMessage(values);
  }

  lemma DefaultMinMessage(values: Values)
    ensures FieldError(Some("abc"), true, Rule(NotRequired, 6, "", 0, "", None, "", None), values)
            == Some("Minimum 6 characters required")
  {
    assert IntToDecimal(6) == [DigitChar(6)] == "6";
    assert "Minimum " + "6" + " characters required" == "Minimum 6 characters required";
  }

  lemma DefaultMaxMessage(values: Values)
    ensures FieldError(Some("abcd"), false, Rule(NotRequired, 0, "", 3, "", None, "", None), values)
            == Some("Maximum 3 characters allowed")
  {
    assert IntToDecimal(3) == [DigitChar(3)] == "3";
    assert "Maximum " + "3" + " characters allowed" == "Maximum 3 characters allowed";
  }

  function Lookup(values: Values, field: string): Option<string> {
    if field in values then Some(values[field]) else None
  }

  function ErrorOf(values: Values, touched: set<string>, rules: Rules, field: string): Option<string>
    requires field in rules
  {
    FieldError(Lookup(values, field), field in touched, rules[field], values)
  }

  /** `validateForm()`: the error map and the validity flag it sets. */
  function ValidateForm(values: Values, touched: set<string>, rules: Rules): (r: (map<string, string>, bool))
    ensures r.0.Keys <= rules.Keys
    ensures forall f :: f in r.0 <==> f in rules && ErrorOf(values, touched, rules, f).Some?
    ensures forall f :: f in r.0 ==> r.0[f] == ErrorOf(values, touched, rules, f).value && r.0[f] != ""
    ensures r.1 <==> forall f :: f in rules ==> ErrorOf(values, touched, rules, f).None?
  {
    var errors := map f | f in rules && ErrorOf(values, touched, rules, f).Some? :: ErrorOf(values, touched, rules, f).value;
    (errors, forall f :: f in rules ==> ErrorOf(values, touched, rules, f).None?)
  }

  /** The form is valid exactly when there are no errors: every error the
      checks produce is a non-empty message. */
  lemma ValidIffNoErrors(values: Values, touched: set<string>, rules: Rules)
    ensures var r := ValidateForm(values, touched, rules); r.1 <==> r.0 == map[]
  {
    var r := ValidateForm(values, touched, rules);
    if !r.1 {
      var f :| f in rules && ErrorOf(values, touched, rules, f).Some?;
      assert f in r.0;
    }
  }

  /** A form whose every field passes has the empty error map. */
  lemma AllPassNoErrors(values: Values, touched: set<string>, rules: Rules)
    requires forall f :: f in rules ==> ErrorOf(values, touched, rules, f).None?
    ensures ValidateForm(values, touched, rules) == (map[], true)
  {
    ValidIffNoErrors(values, touched, rules);
  }

  /** The effect: errors and validity recomputed from values and touched. */
  function Settle(form: FormState, rules: Rules): (r: FormState)
    ensures r.values == form.values && r.touched == form.touched
    ensures r.isValid <==> r.errors == map[]
  {
    var v := ValidateForm(form.values, form.touched, rules);
    ValidIffNoErrors(form.values, form.touched, rules);
    form.(errors := v.0, isValid := v.1)
  }

  /** `useFormValidation(initialValues, rules)` after its first effect. */
  function Mount(initial: Values, rules: Rules): (r: FormState)
    ensures r.values == initial && r.touched == {}
  {
    Settle(FormState(initial, map[], false, {}), rules)
  }

  /** `handleChange(field, value)` */
  function HandleChange(form: FormState, field: string, value: string): (r: FormState)
    ensures r.values == form.values[field := value]
    ensures r.touched == form.touched + {field}
    ensures r.errors == form.errors && r.isValid == form.isValid
  {
    form.(values := form.values[field := value], touched := form.touched + {field})
  }

  /** `handleBlur(field)` */
  function HandleBlur(form: FormState, field: string): (r: FormState)
    ensures r.touched == form.touched + {field}
    ensures r.values == form.values && r.errors == form.errors && r.isValid == form.isValid
  {
    form.(touched := form.touched + {field})
  }

  /** `resetForm()`, before the effect runs again. */
  function ResetForm(form: FormState, initial: Values): (r: FormState)
    ensures r.values == initial && r.errors == map[] && !r.isValid && r.touched == {}
  {
    FormState(initial, map[], false, {})
  }

  /** `handleSubmit(onSubmit)(event)`: every ruled field becomes touched, and
      `onSubmit` receives the values when the current `isValid` holds. */
  function HandleSubmit(form: FormState, rules: Rules): (r: (FormState, Option<Values>))
    ensures r.0.touched == rules.Keys
    ensures r.0.values == form.values && r.0.errors == form.errors && r.0.isValid == form.isValid
    ensures r.1.Some? <==> form.isValid
    ensures r.1.Some? ==> r.1.value == form.values
  {
    (form.(touched := rules.Keys), if form.isValid then Some(form.values) else None)
  }

  /** `handleSubmit` deciding on the errors of the form with every field
      touched, which is what the user sees once the submit has marked the
      fields, instead of the validity computed before the marking. */
  function SubmitWhenValid(form: FormState, rules: Rules): (r: (FormState, Option<Values>))
    ensures r.0.touched == rules.Keys && r.0.values == form.values
    ensures r.1.Some? ==> r.1.value == form.values
    ensures r.1.Some? <==> forall f :: f in rules ==> ErrorOf(form.values, rules.Keys, rules, f).None?
  {
    var v := ValidateForm(form.values, rules.Keys, rules);
    (form.(touched := rules.Keys), if v.1 then Some(form.values) else None)
  }

  /** The corrected submit never hands over a form with a required field
      left blank, whatever happened before. */
  lemma SubmittedFormsAreFilled(form: FormState, rules: Rules, field: string)
    requires field in rules && IsRequired(rules[field].required)
    requires SubmitWhenValid(form, rules).1.Some?
    ensures !Blank(Lookup(form.values, field))
  {
    assert ErrorOf(form.values, rules.Keys, rules, field).None?;
  }

  /** Once touched, a required field left blank is reported with its
      required message, whatever else its rule says. */
  lemma BlankRequiredReported(values: Values, touched: set<string>, rules: Rules, field: string)
    requires field in rules && field in touched
    requires IsRequired(rules[field].required) && Blank(Lookup(values, field))
    ensures field in ValidateForm(values, touched, rules).0
    ensures ValidateForm(values, touched, rules).0[field] == RequiredText(rules[field].required)
  {
    assert ErrorOf(values, touched, rules, field) == Some(RequiredText(rules[field].required));
  }

  /** Only fields with rules get errors, and a field nobody touched and
      nobody filled in never has one. */
  lemma ErrorsOnlyWhereChecked(form: FormState, rules: Rules, field: string)
    ensures var s := Settle(form, rules);
            field in s.errors ==> field in rules && (field in form.touched || Present(Lookup(form.values, field)))
  {
  }

  /** A change touches and sets only its own field. */
  lemma ChangeIsLocal(form: FormState, field: string, value: string, other: string)
    requires other != field
    ensures Lookup(HandleChange(form, field, value).values, other) == Lookup(form.values, other)
    ensures other in HandleChange(form, field, value).touched <==> other in form.touched
    ensures Lookup(HandleChange(form, field, value).values, field) == Some(value)
  {
  }

  /** After a reset has settled, only fields whose initial value is filled
      in can carry errors. */
  lemma ResetClearsUntouched(form: FormState, initial: Values, rules: Rules, field: string)
    requires !Present(Lookup(initial, field))
    ensures field !in Settle(ResetForm(form, initial), rules).errors
  {
  }
}

=== FILE: input_validation.dfy ===
/** The `inputValidation` helpers of the security utilities: a bank name is
    judged by the length of its sanitized text, and the numeric checks are
    range tests on the number `parseFloat` reads from the input.  The parse
    itself is a parameter: `None` is `NaN`. */
module InputValidation {
  import opened Wrappers
  import opened Text
  import opened JsValue
  import opened Sanitize
  import opened SanitizeExamples

  /** `Number.MAX_SAFE_INTEGER`, the default upper bound of `validateNumber`. */
  const MaxSafeInteger: real := 9007199254740991.0

  /** `validateBankName(name)`: a non-empty string whose sanitized text has
      a `length` of 2 to 100, counted in UTF-16 code units. */
  function ValidateBankName(name: Json): (ok: bool)
    ensures ok ==> name.JPrim? && name.p.Str? && 2 <= Utf16Length(name.p.s)
    ensures ok <==> && name.JPrim? && name.p.Str? && TruthyJson(name)
                    && 2 <= Utf16Length(SanitizeString(name.p.s)) <= 100
  {
    if !TruthyJson(name) then false
    else match name
      case JPrim(Str(s)) =>
        var t := SanitizeString(s);
        SubsequenceUtf16Length(t, s);
        2 <= Utf16Length(t) && Utf16Length(t) <= 100
      case _ => false
  }

  /** A plain name, with any white space around it, is accepted exactly when
      the name alone has 2 to 100 code units. */
  lemma PlainNameDecided(p: string, x: string, q: string)
    requires AllSpace(p) && AllSpace(q) && Plain(x) && |x| > 0
    ensures ValidateBankName(JPrim(Str(p + x + q))) <==> 2 <= Utf16Length(x) <= 100
  {
    PaddedPlainKept(p, x, q);
  }

  /** `validateNumber(value, min, max)` on `num = parseFloat(value)`. */
  function ValidateNumber(num: Option<real>, min: real, max: real): (ok: bool)
    ensures ok ==> num.Some?
    ensures ok <==> num.Some? && min <= num.value <= max
    ensures min > max ==> !ok
  {
    num.Some? && num.value >= min && num.value <= max
  }

  /** Widening the range never turns an accepted number down. */
  lemma ValidateNumberWidens(num: Option<real>, min: real, max: real, min': real, max': real)
    requires min' <= min && max <= max'
    ensures ValidateNumber(num, min, max) ==> ValidateNumber(num, min', max')
  {
  }

  /** `validatePercentage(value)` */
  function ValidatePercentage(num: Option<real>): (ok: bool)
    ensures ok <==> num.Some? && 0.0 <= num.value <= 100.0
  {
    ValidateNumber(num, 0.0, 100.0)
  }

  /** `validateCurrency(value)`: the upper bound is the default one. */
  function ValidateCurrency(num: Option<real>): (ok: bool)
    ensures ok <==> num.Some? && 0.0 <= num.value <= MaxSafeInteger
  {
    ValidateNumber(num, 0.0, MaxSafeInteger)
  }

  /** `validateLoanTerm(value)` */
  function ValidateLoanTerm(num: Option<real>): (ok: bool)
    ensures ok <==> num.Some? && 1.0 <= num.value <= 50.0
  {
    ValidateNumber(num, 1.0, 50.0)
  }

  /** A valid loan term is also a valid percentage and a valid amount; a
      valid percentage is a valid amount. */
  lemma {:induction false} RangesNest(num: Option<real>)
    ensures ValidateLoanTerm(num) ==> ValidatePercentage(num)
    ensures ValidatePercentage(num) ==> ValidateCurrency(num)
  {
    ValidateNumberWidens(num, 1.0, 50.0, 0.0, 100.0);
    ValidateNumberWidens(num, 0.0, 100.0, 0.0, MaxSafeInteger);
  }

  /** The boundary values of the unit tests, on the parsed numbers. */
  lemma NumberExamples()
    ensures ValidateNumber(Some(10.0), 0.0, 100.0) && ValidateNumber(Some(0.0), 0.0, 100.0)
    ensures ValidateNumber(Some(100.0), 0.0, 100.0)
    ensures !ValidateNumber(Some(-1.0), 0.0, 100.0) && !ValidateNumber(Some(101.0), 0.0, 100.0)
    ensures !ValidateNumber(None, 0.0, 100.0)
    ensures ValidatePercentage(Some(50.0)) && !ValidatePercentage(Some(101.0))
    ensures ValidateCurrency(Some(1000.0)) && !ValidateCurrency(Some(-100.0))
    ensures ValidateLoanTerm(Some(1.0)) && ValidateLoanTerm(Some(50.0))
    ensures !ValidateLoanTerm(Some(0.0)) && !ValidateLoanTerm(Some(51.0))
  {
  }

  const SampleName := "Test Bank"

  lemma NameFacts(name: string)
    requires name == SampleName
    ensures Plain(name) && Utf16Length(name) == 9
  {
    assert forall k :: 0 <= k < |name| ==> PlainChar(name[k]) && BmpChar(name[k]);
    assert NoOnPair(name);
    assert Trimmed(name);
  }

  /** "Test Bank" from the unit tests is accepted. */
  lemma PlainNameAccepted(good: string)
    requires good == SampleName
    ensures ValidateBankName(JPrim(Str(good)))
  {
    NameFacts(good);
    PlainNameBounds(good);
  }

  /** A plain name is accepted when it has 2 to 100 code units. */
  lemma PlainNameBounds(x: string)
    requires Plain(x) && 2 <= Utf16Length(x) <= 100
    ensures ValidateBankName(JPrim(Str(x)))
  {
    PlainNameDecided("", x, "");
    assert "" + x + "" == x;
  }

  /** Names shorter than two code units ("A", "" in the unit tests) and
      values that are not strings (`null`) are refused. */
  lemma ShortNamesRefused(name: string, other: Prim)
    requires Utf16Length(name) < 2 && !other.Str?
    ensures !ValidateBankName(JPrim(Str(name)))
    ensures !ValidateBankName(JPrim(other))
  {
  }

  /** The tag name of the unit tests is accepted: deleting the angle
      brackets leaves 25 characters, and nothing else is checked. */
  lemma TagNameAccepted(tag: string)
    requires tag == "<script>" + Payload + "</script>"
    ensures ValidateBankName(JPrim(Str(tag)))
  {
    TagBracketsRemoved(tag);
    var t := "script" + Payload + "/script";
    TagRemainderPlain(t);
    PlainUtf16Length(t);
    assert |t| == 25;
  }

  /** Plain text is ASCII, one code unit per character. */
  lemma PlainUtf16Length(x: string)
    requires Plain(x)
    ensures Utf16Length(x) == |x|
  {
    assert forall k :: 0 <= k < |x| ==> BmpChar(x[k]);
  }

  /** One character outside the Basic Multilingual Plane is a name of
      length 2, which is accepted. */
  lemma AstralNameAccepted()
    ensures ValidateBankName(JPrim(Str("\U{1F600}")))
  {
    var s := "\U{1F600}";
    assert Clean(s) by {
      assert forall k :: 0 <= k < |s| ==> s[k..] == s;
    }
    CleanIsFixedPoint(s);
    assert Utf16(s) == [0xD83D, 0xDE00];
  }
}

=== FILE: js_value.dfy ===
/** JavaScript values as the modelled code sees them: primitives with
    JavaScript truthiness and strict equality, and JSON-like data
    (arrays and plain objects with insertion-ordered keys). */
module JsValue {
  import opened Wrappers
  import opened Text

  datatype Prim = Undefined | Null | Bool(b: bool) | Num(n: real) | NaN | Str(s: string)

  /** `!!p` */
  predicate Truthy(p: Prim) {
    match p
    case Undefined => false
    case Null => false
    case Bool(b) => b
    case Num(n) => n != 0.0
    case NaN => false
    case Str(s) => s != ""
  }

  /** `a === b` on primitives: `NaN` is the one value unequal to itself. */
  predicate StrictEquals(a: Prim, b: Prim) {
    a == b && !a.NaN?
  }

  datatype Json = JPrim(p: Prim) | JArray(items: seq<Json>) | JObject(entries: seq<(string, Json)>)

  /** `!!value`: arrays and objects are always truthy. */
  predicate TruthyJson(value: Json) {
    !value.JPrim? || Truthy(value.p)
  }

  /** `a === b`: the model has no object identity, so an array or object is
      never strictly equal to anything. */
  predicate JsonStrictEquals(a: Json, b: Json) {
    a.JPrim? && b.JPrim? && StrictEquals(a.p, b.p)
  }

  /** The message of a `TypeError`: a property read of `undefined` or
      `null`, or a call of a method the value does not have. */
  const TypeError := "TypeError"

  /** Lexicographic order on sequences of code units. */
  predicate UnitsLess(a: seq<int>, b: seq<int>)
    decreases |a|
  {
    |b| > 0 && (|a| == 0 || a[0] < b[0] || (a[0] == b[0] && UnitsLess(a[1..], b[1..])))
  }

  /** `a < b` on two strings: JavaScript compares UTF-16 code units, so a
      character outside the Basic Multilingual Plane sorts by its high
      surrogate, not by its code point. */
  predicate LexLess(a: string, b: string) {
    UnitsLess(Utf16(a), Utf16(b))
  }

  lemma {:induction false} UnitsLessIrreflexive(a: seq<int>)
    ensures !UnitsLess(a, a)
    decreases |a|
  {
    if |a| > 0 {
      UnitsLessIrreflexive(a[1..]);
    }
  }

  lemma {:induction false} UnitsLessTransitive(a: seq<int>, b: seq<int>, c: seq<int>)
    requires UnitsLess(a, b) && UnitsLess(b, c)
    ensures UnitsLess(a, c)
    decreases |a|
  {
    if |a| > 0 && a[0] == b[0] && b[0] == c[0] {
      UnitsLessTransitive(a[1..], b[1..], c[1..]);
    }
  }

  lemma {:induction false} UnitsLessTotal(a: seq<int>, b: seq<int>)
    ensures a != b <==> UnitsLess(a, b) || UnitsLess(b, a)
    ensures !(UnitsLess(a, b) && UnitsLess(b, a))
    decreases |a|
  {
    if |a| > 0 && |b| > 0 && a[0] == b[0] {
      UnitsLessTotal(a[1..], b[1..]);
      assert a == [a[0]] + a[1..] && b == [b[0]] + b[1..];
    } else if |a| == 0 {
      UnitsLessIrreflexive(b);
    }
  }

  lemma LexLessIrreflexive(a: string)
    ensures !LexLess(a, a)
  {
    UnitsLessIrreflexive(Utf16(a));
  }

  lemma LexLessTransitive(a: string, b: string, c: string)
    requires LexLess(a, b) && LexLess(b, c)
    ensures LexLess(a, c)
  {
    UnitsLessTransitive(Utf16(a), Utf16(b), Utf16(c));
  }

  /** Two different strings are ordered one way or the other, never both:
      their code units differ because UTF-16 is injective. */
  lemma LexLessTotal(a: string, b: string)
    ensures a != b <==> LexLess(a, b) || LexLess(b, a)
    ensures !(LexLess(a, b) && LexLess(b, a))
  {
    UnitsLessTotal(Utf16(a), Utf16(b));
    Utf16Injective(a, b);
  }

  /** U+1F600 sorts before U+FF61, although its code point is larger: its
      first code unit is the surrogate 0xD83D. */
  lemma AstralBeforeHighBmp()
    ensures LexLess("\U{1F600}", "\U{FF61}") && !LexLess("\U{FF61}", "\U{1F600}")
    ensures '\U{FF61}' < '\U{1F600}'
  {
    assert Utf16("\U{1F600}") == [0xD83D, 0xDE00];
    assert Utf16("\U{FF61}") == [0xFF61];
  }

  predicate DistinctKeys(entries: seq<(string, Json)>) {
    forall i, j :: 0 <= i < j < |entries| ==> entries[i].0 != entries[j].0
  }

  /** The position of `key` among the entries, if present. */
  function KeyIndex(entries: seq<(string, Json)>, key: string): (r: Option<nat>)
    ensures r.Some? ==> r.value < |entries| && entries[r.value].0 == key
    ensures r.None? ==> forall i :: 0 <= i < |entries| ==> entries[i].0 != key
  {
    if |entries| == 0 then None
    else if entries[|entries| - 1].0 == key then Some(|entries| - 1)
    else KeyIndex(entries[..|entries| - 1], key)
  }

  /** Defining an own data property, as a spread or an object literal
      does: an existing key keeps its position and takes the new value, a
      new key is appended.  `__proto__` is an ordinary key here. */
  function Assign(entries: seq<(string, Json)>, key: string, value: Json): (r: seq<(string, Json)>)
    requires DistinctKeys(entries)
    ensures DistinctKeys(r)
    ensures |r| == |entries| || |r| == |entries| + 1
    ensures exists i :: 0 <= i < |r| && r[i] == (key, value)
    ensures forall i :: 0 <= i < |entries| && entries[i].0 != key ==> r[i] == entries[i]
    ensures forall i :: 0 <= i < |r| && r[i].0 != key ==> i < |entries| && r[i] == entries[i]
  {
    match KeyIndex(entries, key)
    case Some(i) =>
      var r := entries[i := (key, value)];
      assert r[i] == (key, value);
      r
    case None =>
      var r := entries + [(key, value)];
      assert r[|entries|] == (key, value);
      r
  }

  /** `obj[key]`, with `None` for a missing key (`undefined`). */
  function Get(entries: seq<(string, Json)>, key: string): (r: Option<Json>)
    ensures r.None? <==> forall i :: 0 <= i < |entries| ==> entries[i].0 != key
    ensures r.Some? ==> exists i :: 0 <= i < |entries| && entries[i] == (key, r.value)
  {
    match KeyIndex(entries, key)
    case Some(i) => Some(entries[i].1)
    case None => None
  }

  /** Reading back after `obj[key] = value`. */
  lemma GetAssign(entries: seq<(string, Json)>, key: string, value: Json, other: string)
    requires DistinctKeys(entries)
    ensures Get(Assign(entries, key, value), key) == Some(value)
    ensures other != key ==> Get(Assign(entries, key, value), other) == Get(entries, other)
  {
    var r := Assign(entries, key, value);
    var i :| 0 <= i < |r| && r[i] == (key, value);
    KeyIndexUnique(r, key, i);
    if other != key {
      match KeyIndex(entries, other)
      case Some(j) =>
        KeyIndexUnique(r, other, j);
      case None =>
    }
  }

  /** The key of the accessor every plain object inherits from
      `Object.prototype`. */
  const ProtoKey := "__proto__"

  /** The names every plain object inherits from `Object.prototype`: reading
      one that is not an own key gives a function (or, for `__proto__`,
      the prototype object), never `undefined`. */
  const ObjectPrototypeNames: set<string> := {
    "constructor", "hasOwnProperty", "isPrototypeOf", "propertyIsEnumerable",
    "toLocaleString", "toString", "valueOf", ProtoKey,
    "__defineGetter__", "__defineSetter__", "__lookupGetter__", "__lookupSetter__"
  }

  /** `obj[key] = value` on a plain object.  Assigning to `__proto__` runs
      the inherited setter, which replaces the prototype (or, for a value
      that is not an object, does nothing): no own entry appears.  Any
      other key is assigned as a data property. */
  function SetProperty(entries: seq<(string, Json)>, key: string, value: Json): (r: seq<(string, Json)>)
    requires DistinctKeys(entries)
    ensures DistinctKeys(r)
    ensures key == ProtoKey ==> r == entries
    ensures key != ProtoKey ==> Get(r, key) == Some(value)
    ensures forall k :: k != key ==> Get(r, k) == Get(entries, k)
  {
    if key == ProtoKey then entries
    else
      GetAssignOthers(entries, key, value);
      Assign(entries, key, value)
  }

  lemma GetAssignOthers(entries: seq<(string, Json)>, key: string, value: Json)
    requires DistinctKeys(entries)
    ensures Get(Assign(entries, key, value), key) == Some(value)
    ensures forall k :: k != key ==> Get(Assign(entries, key, value), k) == Get(entries, k)
  {
    forall k | k != key ensures Get(Assign(entries, key, value), k) == Get(entries, k) {
      GetAssign(entries, key, value, k);
    }
    GetAssign(entries, key, value, key);
  }

  /** With distinct keys, the index of a key is the one position holding it. */
  lemma KeyIndexUnique(entries: seq<(string, Json)>, key: string, i: nat)
    requires DistinctKeys(entries) && i < |entries| && entries[i].0 == key
    ensures KeyIndex(entries, key) == Some(i)
  {
  }
}

=== FILE: loan_engine.dfy ===
/** The amortization engine `LoanCalculator` over exact real numbers.

    A calculator finances `principal - downPayment` at a monthly rate of
    `rate / 100 / 12` over `years * 12` monthly payments.  The fixed payment
    is the annuity formula `P*r / (1 - (1+r)^-n)`, written here as
    `P*r / (1 - 1/(1+r)^n)`; the schedule applies a payment month by month:
    interest is the opening balance times the monthly rate, the principal part
    is the payment minus that interest, and the balance drops by the
    principal part. */
module LoanEngine {

  /** The state `new LoanCalculator(principal, rate, years, downPayment)`
      keeps: `principal` is already the financed amount. */
  datatype LoanState = Loan(principal: real, annualRate: real, years: int,
                            monthlyRate: real, totalPayments: int)

  /** The derived fields agree with the ones they are computed from. */
  type Loan = l: LoanState | l.monthlyRate * 1200.0 == l.annualRate && l.totalPayments == 12 * l.years
    witness Loan(0.0, 0.0, 0, 0.0, 0)

  /** One schedule row; the source renders the three amounts with two
      decimals, the model keeps the exact values. */
  datatype Row = Row(month: int, principalPayment: real, interestPayment: real, balance: real)

  function NewLoan(principal: real, rate: real, years: int, downPayment: real): (l: Loan)
    ensures l.principal == principal - downPayment
    ensures l.annualRate == rate && l.years == years
  {
    Loan(principal - downPayment, rate, years, rate / 100.0 / 12.0, years * 12)
  }

  /** A calculator whose payment formula is defined: a positive monthly rate
      (the validator admits only rates 1..99) and at least one payment. */
  predicate Amortizable(l: Loan) {
    l.monthlyRate > 0.0 && l.totalPayments >= 1
  }

  function Pow(x: real, n: nat): real {
    if n == 0 then 1.0 else x * Pow(x, n - 1)
  }

  lemma {:induction false} PowAboveOne(x: real, n: nat)
    requires x > 1.0 && n >= 1
    ensures Pow(x, n) > 1.0
  {
    if n > 1 {
      PowAboveOne(x, n - 1);
      assert x * Pow(x, n - 1) > Pow(x, n - 1);
    }
  }

  /** `(1 + r)^n` for the calculator */
  function Growth(l: Loan): real
    requires Amortizable(l)
  {
    Pow(1.0 + l.monthlyRate, l.totalPayments)
  }

  /** `calculateMonthlyPayment()` */
  function MonthlyPayment(l: Loan): (m: real)
    requires Amortizable(l)
    ensures l.principal == 0.0 ==> m == 0.0
    ensures l.principal > 0.0 ==> m > l.principal * l.monthlyRate
    ensures l.principal < 0.0 ==> m < l.principal * l.monthlyRate
    ensures m * (Growth(l) - 1.0) == l.principal * l.monthlyRate * Growth(l)
  {
    var r := l.monthlyRate;
    var q := Growth(l);
    PowAboveOne(1.0 + r, l.totalPayments);
    var d := 1.0 - 1.0 / q;
    assert d * q == q - 1.0;
    assert d > 0.0 && d < 1.0;
    var m := (l.principal * r) / d;
    assert m * d == l.principal * r;
    assert m * (q - 1.0) == l.principal * r * q by {
      calc {
        m * (q - 1.0);
        m * (d * q);
        (m * d) * q;
      }
    }
    m
  }

  /** `calculateTotalPayment(monthlyPayment)` */
  function TotalPayment(l: Loan, monthlyPayment: real): (t: real)
    ensures t == monthlyPayment * (12 * l.years) as real
  {
    monthlyPayment * l.totalPayments as real
  }

  /** `calculateTotalInterest(totalPayment)` */
  function TotalInterest(l: Loan, totalPayment: real): (i: real)
    ensures i + l.principal == totalPayment
  {
    totalPayment - l.principal
  }

  /** The balance after `k` rows of a schedule that starts at `principal`
      and pays `m` every month, following the source's update
      `balance -= payment - balance * rate`. */
  function BalanceAfter(principal: real, rate: real, m: real, k: nat): real {
    if k == 0 then principal
    else
      var b := BalanceAfter(principal, rate, m, k - 1);
      b - (m - b * rate)
  }

  lemma BalanceStep(principal: real, rate: real, m: real, k: nat)
    ensures BalanceAfter(principal, rate, m, k + 1)
            == BalanceAfter(principal, rate, m, k) - (m - BalanceAfter(principal, rate, m, k) * rate)
  {
  }

  /** Closed form of the balance: `B_k * r == P * (1+r)^k * r - m * ((1+r)^k - 1)`. */
  lemma {:induction false} BalanceClosedForm(principal: real, rate: real, m: real, k: nat)
    ensures BalanceAfter(principal, rate, m, k) * rate
            == principal * Pow(1.0 + rate, k) * rate - m * (Pow(1.0 + rate, k) - 1.0)
  {
    if k > 0 {
      BalanceClosedForm(principal, rate, m, k - 1);
      ClosedFormNext(principal, rate, m, k);
    }
  }

  /** The closed form for `k` months from the one for `k - 1`. */
  lemma ClosedFormNext(principal: real, rate: real, m: real, k: nat)
    requires k > 0
    requires BalanceAfter(principal, rate, m, k - 1) * rate
             == principal * Pow(1.0 + rate, k - 1) * rate - m * (Pow(1.0 + rate, k - 1) - 1.0)
    ensures BalanceAfter(principal, rate, m, k) * rate
            == principal * Pow(1.0 + rate, k) * rate - m * (Pow(1.0 + rate, k) - 1.0)
  {
    var b := BalanceAfter(principal, rate, m, k - 1);
    var p := Pow(1.0 + rate, k - 1);
    ClosedFormStep(b, BalanceAfter(principal, rate, m, k), rate, m, principal, p, Pow(1.0 + rate, k));
  }

  /** One month of the closed form: if `b` satisfies it with growth `p`,
      the next balance satisfies it with growth `(1+r) * p`. */
  lemma ClosedFormStep(b: real, next: real, rate: real, m: real, principal: real, p: real, grown: real)
    requires b * rate == principal * p * rate - m * (p - 1.0)
    requires next == b - (m - b * rate) && grown == (1.0 + rate) * p
    ensures next * rate == principal * grown * rate - m * (grown - 1.0)
  {
    var q := 1.0 + rate;
    calc {
      next * rate;
      (b * rate) * q - m * rate;
      (principal * p * rate - m * (p - 1.0)) * q - m * rate;
      principal * (q * p) * rate - m * (q * p - 1.0);
    }
  }

  /** The headline property: paying the computed monthly payment for the
      whole term leaves a balance of exactly zero. */
  lemma FinalBalanceZero(l: Loan)
    requires Amortizable(l)
    ensures BalanceAfter(l.principal, l.monthlyRate, MonthlyPayment(l), l.totalPayments) == 0.0
  {
    var r := l.monthlyRate;
    var m := MonthlyPayment(l);
    BalanceClosedForm(l.principal, r, m, l.totalPayments);
    var b := BalanceAfter(l.principal, r, m, l.totalPayments);
    assert b * r == 0.0;
  }

  /** The payment formula of the Calc page, `P*r*(1+r)^n / ((1+r)^n - 1)`,
      gives the same payment. */
  lemma ClosedFormPaymentAgrees(l: Loan)
    requires Amortizable(l)
    ensures Growth(l) > 1.0
    ensures MonthlyPayment(l)
            == (l.principal * l.monthlyRate) * Growth(l) / (Growth(l) - 1.0)
  {
    PowAboveOne(1.0 + l.monthlyRate, l.totalPayments);
    Quotient(MonthlyPayment(l), l.principal * l.monthlyRate * Growth(l), Growth(l) - 1.0);
  }

  lemma Quotient(m: real, n: real, d: real)
    requires d != 0.0 && m * d == n
    ensures m == n / d
  {
  }

  /** Financing nothing (`downPayment == principal`) costs nothing per month. */
  lemma FullDownPaymentZeroPayment(principal: real, rate: real, years: int)
    requires rate > 0.0 && years >= 1
    ensures MonthlyPayment(NewLoan(principal, rate, years, principal)) == 0.0
  {
  }

  /** `(1+r)^n - 1 <= n * r * (1+r)^n`: the growth over `n` months is at
      most `n` months of simple interest on the grown amount. */
  lemma {:induction false} GrowthBound(r: real, n: nat)
    requires r > 0.0
    ensures Pow(1.0 + r, n) - 1.0 <= n as real * r * Pow(1.0 + r, n)
  {
    if n > 0 {
      GrowthBound(r, n - 1);
      var q := 1.0 + r;
      var p := Pow(q, n - 1);
      PowAtLeastOne(q, n - 1);
      assert Pow(q, n) == q * p;
      assert q * (p - 1.0) <= q * ((n - 1) as real * r * p);
      calc {
        Pow(q, n) - 1.0;
        q * (p - 1.0) + r;
      <= (n - 1) as real * r * (q * p) + r;
      <= (n - 1) as real * r * (q * p) + r * (q * p);
        n as real * r * Pow(q, n);
      }
    }
  }

  lemma {:induction false} PowAtLeastOne(x: real, n: nat)
    requires x >= 1.0
    ensures Pow(x, n) >= 1.0
  {
    if n > 0 {
      PowAtLeastOne(x, n - 1);
      assert x * Pow(x, n - 1) >= Pow(x, n - 1);
    }
  }

  /** With the computed payment, the total interest of a loan on a
      non-negative financed amount is never negative. */
  lemma TotalInterestNonNegative(l: Loan)
    requires Amortizable(l) && l.principal >= 0.0
    ensures TotalInterest(l, TotalPayment(l, MonthlyPayment(l))) >= 0.0
  {
    var r := l.monthlyRate;
    var q := Growth(l);
    PowAboveOne(1.0 + r, l.totalPayments);
    GrowthBound(r, l.totalPayments);
    InterestSign(MonthlyPayment(l), l.totalPayments as real, l.principal, r, q);
  }

  /** The arithmetic core of `TotalInterestNonNegative`: from
      `m*(q-1) == p*r*q` and `q-1 <= n*r*q` follows `m*n >= p`. */
  lemma InterestSign(m: real, n: real, p: real, r: real, q: real)
    requires q > 1.0 && n >= 0.0 && p >= 0.0
    requires m * (q - 1.0) == p * r * q
    requires q - 1.0 <= n * r * q
    ensures m * n - p >= 0.0
  {
    var g := n * r * q;
    assert (m * n) * (q - 1.0) == p * g by {
      calc {
        (m * n) * (q - 1.0);
        n * (m * (q - 1.0));
        n * (p * r * q);
        p * g;
      }
    }
    MulMonotone(p, q - 1.0, g);
    assert (m * n - p) * (q - 1.0) >= 0.0;
    PositiveFactor(m * n - p, q - 1.0);
  }

  lemma MulMonotone(p: real, a: real, b: real)
    requires p >= 0.0 && a <= b
    ensures p * a <= p * b
  {
  }

  lemma PositiveFactor(x: real, y: real)
    requires y > 0.0 && x * y >= 0.0
    ensures x >= 0.0
  {
  }

  /** The balance before row `k` of `rows`: the financed amount for the
      first row, the previous row's balance afterwards. */
  function OpeningBalance(l: Loan, rows: seq<Row>, k: nat): real
    requires k <= |rows|
  {
    if k == 0 then l.principal else rows[k - 1].balance
  }

  /** The row for month `month` when the balance before it is `opening`. */
  function ScheduleRow(month: int, opening: real, rate: real, m: real): (row: Row)
    ensures row.month == month
    ensures row.interestPayment == opening * rate
    ensures row.principalPayment + row.interestPayment == m
    ensures row.balance == opening - row.principalPayment
  {
    var interestPayment := opening * rate;
    var principalPayment := m - interestPayment;
    Row(month, principalPayment, interestPayment, opening - principalPayment)
  }

  /** Every row of `rows` follows from the one before it by the source's
      update with payment `m`. */
  predicate Recurrence(l: Loan, rows: seq<Row>, m: real) {
    forall k :: 0 <= k < |rows| ==> RowFollows(l, rows, m, k)
  }

  predicate RowFollows(l: Loan, rows: seq<Row>, m: real, k: nat)
    requires k < |rows|
  {
    rows[k] == ScheduleRow(k + 1, OpeningBalance(l, rows, k), l.monthlyRate, m)
  }

  function SumPrincipal(rows: seq<Row>): real {
    if |rows| == 0 then 0.0 else SumPrincipal(rows[..|rows| - 1]) + rows[|rows| - 1].principalPayment
  }

  function SumInterest(rows: seq<Row>): real {
    if |rows| == 0 then 0.0 else SumInterest(rows[..|rows| - 1]) + rows[|rows| - 1].interestPayment
  }

  lemma RecurrencePrefix(l: Loan, rows: seq<Row>, m: real, j: nat)
    requires Recurrence(l, rows, m) && j <= |rows|
    ensures Recurrence(l, rows[..j], m)
  {
    forall k | 0 <= k < j
      ensures RowFollows(l, rows[..j], m, k)
    {
      assert RowFollows(l, rows, m, k);
      assert OpeningBalance(l, rows[..j], k) == OpeningBalance(l, rows, k);
    }
  }

  /** Row `k` closes with the balance `BalanceAfter(..., k + 1)`. */
  lemma {:induction false} RecurrenceBalance(l: Loan, rows: seq<Row>, m: real, k: nat)
    requires Recurrence(l, rows, m) && k < |rows|
    ensures rows[k].balance == BalanceAfter(l.principal, l.monthlyRate, m, k + 1)
  {
    if k > 0 {
      RecurrenceBalance(l, rows, m, k - 1);
    }
    assert RowFollows(l, rows, m, k);
    BalanceStep(l.principal, l.monthlyRate, m, k);
  }

  /** The principal column telescopes to the drop in balance, and the two
      columns together add up to the payments made. */
  lemma {:induction false} RecurrenceSums(l: Loan, rows: seq<Row>, m: real)
    requires Recurrence(l, rows, m)
    ensures SumPrincipal(rows) == l.principal - OpeningBalance(l, rows, |rows|)
    ensures SumInterest(rows) == m * |rows| as real - SumPrincipal(rows)
    decreases |rows|
  {
    if |rows| > 0 {
      var n := |rows|;
      var front := rows[..n - 1];
      var last := rows[n - 1];
      RecurrencePrefix(l, rows, m, n - 1);
      RecurrenceSums(l, front, m);
      assert OpeningBalance(l, front, n - 1) == OpeningBalance(l, rows, n - 1);
      assert RowFollows(l, rows, m, n - 1);
      assert SumPrincipal(rows) == SumPrincipal(front) + last.principalPayment;
      assert SumInterest(rows) == SumInterest(front) + last.interestPayment;
      var paidBefore := m * |front| as real;
      var paid := m * |rows| as real;
      assert paidBefore + m == paid by {
        MulSucc(m, |front| as real, |rows| as real);
      }
      assert SumInterest(front) == paidBefore - SumPrincipal(front);
      assert last.principalPayment + last.interestPayment == m;
      assert SumInterest(rows) == paid - SumPrincipal(rows);
    }
  }

  lemma MulSucc(m: real, a: real, b: real)
    requires b == a + 1.0
    ensures m * a + m == m * b
  {
  }

  /** `generateAmortizationSchedule(monthlyPayment)` */
  method GenerateAmortizationSchedule(l: Loan, m: real) returns (rows: seq<Row>)
    ensures |rows| == if l.totalPayments > 0 then l.totalPayments else 0
    ensures Recurrence(l, rows, m)
    ensures forall k :: 0 <= k < |rows| ==>
              rows[k].month == k + 1 && rows[k].balance == BalanceAfter(l.principal, l.monthlyRate, m, k + 1)
    ensures Amortizable(l) && m == MonthlyPayment(l) ==>
              && rows[|rows| - 1].balance == 0.0
              && SumPrincipal(rows) == l.principal
              && SumInterest(rows) == TotalInterest(l, TotalPayment(l, m))
  {
    var balance := l.principal;
    rows := [];
    var i := 0;
    while i < l.totalPayments
      invariant 0 <= i == |rows|
      invariant l.totalPayments > 0 ==> i <= l.totalPayments
      invariant l.totalPayments <= 0 ==> i == 0
      invariant balance == OpeningBalance(l, rows, i)
      invariant Recurrence(l, rows, m)
    {
      var row := ScheduleRow(i + 1, balance, l.monthlyRate, m);
      RecurrenceAppend(l, rows, m, row);
      balance := row.balance;
      rows := rows + [row];
      i := i + 1;
    }
    RecurrenceRows(l, rows, m);
    if Amortizable(l) && m == MonthlyPayment(l) {
      ScheduleSettles(l, rows, m);
    }
  }

  /** With the computed payment the full schedule ends at a zero balance,
      repays the financed amount and charges the total interest. */
  lemma ScheduleSettles(l: Loan, rows: seq<Row>, m: real)
    requires Amortizable(l) && m == MonthlyPayment(l)
    requires |rows| == l.totalPayments && Recurrence(l, rows, m)
    ensures rows[|rows| - 1].balance == 0.0
    ensures SumPrincipal(rows) == l.principal
    ensures SumInterest(rows) == TotalInterest(l, TotalPayment(l, m))
  {
    var n := |rows|;
    RecurrenceBalance(l, rows, m, n - 1);
    FinalBalanceZero(l);
    RecurrenceSums(l, rows, m);
    assert OpeningBalance(l, rows, n) == 0.0;
  }

  lemma RecurrenceAppend(l: Loan, rows: seq<Row>, m: real, row: Row)
    requires Recurrence(l, rows, m)
    requires row == ScheduleRow(|rows| + 1, OpeningBalance(l, rows, |rows|), l.monthlyRate, m)
    ensures Recurrence(l, rows + [row], m)
  {
    var i := |rows|;
    forall k | 0 <= k <= i
      ensures RowFollows(l, rows + [row], m, k)
    {
      if k < i {
        assert RowFollows(l, rows, m, k);
        assert OpeningBalance(l, rows + [row], k) == OpeningBalance(l, rows, k);
      }
    }
  }

  /** Row `k` of a schedule that follows the recurrence is month `k + 1`
      and closes with the balance `BalanceAfter(..., k + 1)`. */
  lemma RecurrenceRows(l: Loan, rows: seq<Row>, m: real)
    requires Recurrence(l, rows, m)
    ensures forall k :: 0 <= k < |rows| ==>
              rows[k].month == k + 1 && rows[k].balance == BalanceAfter(l.principal, l.monthlyRate, m, k + 1)
  {
    forall k | 0 <= k < |rows|
      ensures rows[k].month == k + 1
      ensures rows[k].balance == BalanceAfter(l.principal, l.monthlyRate, m, k + 1)
    {
      assert RowFollows(l, rows, m, k);
      RecurrenceBalance(l, rows, m, k);
    }
  }
}

=== FILE: loan_validator.dfy ===
/** `InputValidator.validate`: three regular expressions checked in a fixed
    order, each failure raising its own alert, then a non-negativity and
    not-NaN check on the four numeric inputs that fails silently.

    The regular expressions are tested against the text JavaScript produces
    for the value (`String(rate)` for a parsed number), so each numeric
    input is given both as that text and as its value; `None` is `NaN`. */
module LoanValidator {
  import opened Wrappers
  import opened Text

  datatype NumberInput = NumberInput(text: string, value: Option<real>)

  datatype LoanInputs = LoanInputs(principal: Option<real>, rate: NumberInput, years: NumberInput,
                                   downPayment: Option<real>, bankName: string)

  /** `Rejected(Some(msg))` is a failure with an alert, `Rejected(None)` the
      silent `false` of the final numeric check. */
  datatype Verdict = Accepted | Rejected(alert: Option<string>)

  const RateMessage := "Interest rate must be between 1 and 99 percent."
  const YearsMessage := "Loan term must be between 1 and 50 years."
  const BankNameMessage := "Bank name must start with a capital letter, can contain letters and numbers (not at the start), and be up to 50 characters long."

  predicate IsNonZeroDigit(c: char) {
    '1' <= c <= '9'
  }

  /** `/^(?:[1-9][0-9]?|99)$/` */
  predicate RateRegex(s: string) {
    || (|s| == 1 && IsNonZeroDigit(s[0]))
    || (|s| == 2 && IsNonZeroDigit(s[0]) && IsDigit(s[1]))
    || s == "99"
  }

  /** `/^(?:[1-9]|[1-4][0-9]|50)$/` */
  predicate YearsRegex(s: string) {
    || (|s| == 1 && IsNonZeroDigit(s[0]))
    || (|s| == 2 && '1' <= s[0] <= '4' && IsDigit(s[1]))
    || s == "50"
  }

  /** A character of `[a-zA-Z0-9\s]` */
  predicate IsNameChar(c: char) {
    ('a' <= c <= 'z') || IsUpper(c) || IsDigit(c) || IsSpace(c)
  }

  /** `/^[A-Z][a-zA-Z0-9\s]{0,49}$/` */
  predicate BankNameRegex(s: string) {
    1 <= |s| <= 50 && IsUpper(s[0]) && forall i :: 1 <= i < |s| ==> IsNameChar(s[i])
  }

  /** The operand check of the last line: `x >= 0 && !isNaN(x)`. */
  predicate NonNegativeNumber(x: Option<real>) {
    x.Some? && x.value >= 0.0
  }

  /** `InputValidator.validate(inputs)`: the first failing check decides. */
  function Validate(inputs: LoanInputs): (v: Verdict)
    ensures !RateRegex(inputs.rate.text) ==> v == Rejected(Some(RateMessage))
    ensures RateRegex(inputs.rate.text) && !YearsRegex(inputs.years.text)
            ==> v == Rejected(Some(YearsMessage))
    ensures RateRegex(inputs.rate.text) && YearsRegex(inputs.years.text) && !BankNameRegex(inputs.bankName)
            ==> v == Rejected(Some(BankNameMessage))
    ensures v == Accepted <==>
              && RateRegex(inputs.rate.text) && YearsRegex(inputs.years.text) && BankNameRegex(inputs.bankName)
              && NonNegativeNumber(inputs.principal) && NonNegativeNumber(inputs.rate.value)
              && NonNegativeNumber(inputs.years.value) && NonNegativeNumber(inputs.downPayment)
    ensures v.Rejected? && v.alert.None? ==>
              RateRegex(inputs.rate.text) && YearsRegex(inputs.years.text) && BankNameRegex(inputs.bankName)
  {
    if !RateRegex(inputs.rate.text) then Rejected(Some(RateMessage))
    else if !YearsRegex(inputs.years.text) then Rejected(Some(YearsMessage))
    else if !BankNameRegex(inputs.bankName) then Rejected(Some(BankNameMessage))
    else if && NonNegativeNumber(inputs.principal) && NonNegativeNumber(inputs.rate.value)
            && NonNegativeNumber(inputs.years.value) && NonNegativeNumber(inputs.downPayment)
    then Accepted
    else Rejected(None)
  }

  /** The rate pattern accepts exactly the decimal numerals of 1..99. */
  lemma RateRegexExactly(s: string)
    ensures RateRegex(s) <==> exists k :: 1 <= k <= 99 && s == NatToDecimal(k)
  {
    if RateRegex(s) {
      var k := DecimalValue(s);
      TwoDigitNumeral(s);
      assert 1 <= k <= 99 && s == NatToDecimal(k);
    }
    if exists k :: 1 <= k <= 99 && s == NatToDecimal(k) {
      var k :| 1 <= k <= 99 && s == NatToDecimal(k);
      NumeralBelowHundred(k);
    }
  }

  /** The term pattern accepts exactly the decimal numerals of 1..50. */
  lemma YearsRegexExactly(s: string)
    ensures YearsRegex(s) <==> exists k :: 1 <= k <= 50 && s == NatToDecimal(k)
  {
    if YearsRegex(s) {
      var k := DecimalValue(s);
      TwoDigitNumeral(s);
      assert 1 <= k <= 50 && s == NatToDecimal(k);
    }
    if exists k :: 1 <= k <= 50 && s == NatToDecimal(k) {
      var k :| 1 <= k <= 50 && s == NatToDecimal(k);
      NumeralBelowHundred(k);
    }
  }

  /** A one- or two-digit numeral without a leading zero renders its value. */
  lemma TwoDigitNumeral(s: string)
    requires 1 <= |s| <= 2 && IsNonZeroDigit(s[0]) && forall i :: 0 <= i < |s| ==> IsDigit(s[i])
    ensures 1 <= DecimalValue(s) <= 99
    ensures NatToDecimal(DecimalValue(s)) == s
    ensures |s| == 1 ==> DecimalValue(s) <= 9
    ensures |s| == 2 ==> DecimalValue(s) == 10 * DigitValue(s[0]) + DigitValue(s[1])
  {
    if |s| == 2 {
      assert s[..1] == [s[0]];
      var k := DecimalValue(s);
      assert k / 10 == DigitValue(s[0]) && k % 10 == DigitValue(s[1]);
      assert NatToDecimal(k) == NatToDecimal(k / 10) + [DigitChar(k % 10)];
    }
  }

  lemma NumeralBelowHundred(k: nat)
    requires 1 <= k <= 99
    ensures var s := NatToDecimal(k);
            && 1 <= |s| <= 2 && IsNonZeroDigit(s[0]) && (forall i :: 0 <= i < |s| ==> IsDigit(s[i]))
            && (|s| == 2 ==> 10 * DigitValue(s[0]) + DigitValue(s[1]) == k)
            && (|s| == 1 ==> DigitValue(s[0]) == k)
  {
    if k >= 10 {
      assert NatToDecimal(k) == NatToDecimal(k / 10) + [DigitChar(k % 10)];
    }
  }

  /** The boundary cases of the rate and name policies. */
  lemma PolicyExamples()
    ensures !RateRegex("0") && !RateRegex("100") && !RateRegex("5.5")
    ensures RateRegex("1") && RateRegex("99")
    ensures !YearsRegex("0") && YearsRegex("50") && !YearsRegex("51")
    ensures BankNameRegex("Chase1") && !BankNameRegex("chase")
    ensures !BankNameRegex("Abcdefghijabcdefghijabcdefghijabcdefghijabcdefghija")
  {
    assert |"Abcdefghijabcdefghijabcdefghijabcdefghijabcdefghija"| == 51;
  }
}

=== FILE: locales.dfy ===
/** The locale table and the choice of the interface language.  The saved
    choice (`localStorage.getItem('locale')`, `None` when absent) and the
    browser language (`navigator.language`) are parameters; a page reload
    is an output flag.  The message catalogues are not modelled. */
module Locales {
  import opened Wrappers
  import opened Text
  import JsValue

  datatype LocaleInfo = LocaleInfo(code: string, name: string, flag: string)

  const English := "en"
  const Ukrainian := "uk"

  /** The `locales` object, in its key order. */
  const Table: seq<LocaleInfo> := [
    LocaleInfo(English, "English", "\U{1F1FA}\U{1F1F8}"),
    LocaleInfo(Ukrainian, "\U{0423}\U{043A}\U{0440}\U{0430}\U{0457}\U{043D}\U{0441}\U{044C}\U{043A}\U{0430}", "\U{1F1FA}\U{1F1E6}")
  ]

  /** An own key of `locales`. */
  predicate Supported(code: string) {
    exists i :: 0 <= i < |Table| && Table[i].code == code
  }

  lemma SupportedCodes(code: string)
    ensures Supported(code) <==> code == English || code == Ukrainian
  {
    if code == English { assert Table[0].code == code; }
    if code == Ukrainian { assert Table[1].code == code; }
  }

  /** `locales[code]` for a supported code. */
  function Entry(code: string): (e: LocaleInfo)
    requires Supported(code)
    ensures e in Table && e.code == code
  {
    SupportedCodes(code);
    if code == English then Table[0] else Table[1]
  }

  /** `locales[key]` is truthy: an own entry or an inherited property. */
  predicate PropertyTruthy(key: string) {
    Supported(key) || key in JsValue.ObjectPrototypeNames
  }

  /** `navigator.language.split('-')[0]` */
  function LanguagePrefix(language: string): (r: string)
    ensures |r| <= |language| && r == language[..|r|] && '-' !in r
    ensures |r| < |language| ==> language[|r|] == '-'
  {
    UpTo(language, '-')
  }

  /** `getLocale()` as written: the saved locale and the browser language
      are accepted whenever `locales[...]` is truthy. */
  function GetLocaleAsWritten(saved: Option<string>, language: string): (r: string)
    ensures PropertyTruthy(r)
    ensures saved.Some? && saved.value != "" && PropertyTruthy(saved.value) ==> r == saved.value
  {
    SupportedCodes(English);
    if saved.Some? && saved.value != "" && PropertyTruthy(saved.value) then saved.value
    else
      var browser := LanguagePrefix(language);
      if PropertyTruthy(browser) then browser else English
  }

  /** `getLocale()` accepting own keys of the table only: the saved locale
      when it is supported, else the browser language's primary subtag when
      it is supported, else English. */
  function GetLocale(saved: Option<string>, language: string): (r: string)
    ensures Supported(r)
    ensures saved.Some? && Supported(saved.value) ==> r == saved.value
    ensures !(saved.Some? && Supported(saved.value)) && Supported(LanguagePrefix(language)) ==>
              r == LanguagePrefix(language)
    ensures r == English || (saved.Some? && r == saved.value) || r == LanguagePrefix(language)
  {
    SupportedCodes(English);
    if saved.Some? && Supported(saved.value) then saved.value
    else
      var browser := LanguagePrefix(language);
      if Supported(browser) then browser else English
  }

  /** The stored value after `setLocale(code)` and whether the page
      reloads. */
  datatype SetOutcome = SetOutcome(stored: Option<string>, reload: bool)

  /** `setLocale(code)` as written: stores and reloads when `locales[code]`
      is truthy. */
  function SetLocaleAsWritten(stored: Option<string>, code: string): (r: SetOutcome)
    ensures r.reload <==> PropertyTruthy(code)
    ensures r.stored == if PropertyTruthy(code) then Some(code) else stored
  {
    if PropertyTruthy(code) then SetOutcome(Some(code), true) else SetOutcome(stored, false)
  }

  /** `setLocale(code)` for own keys only. */
  function SetLocale(stored: Option<string>, code: string): (r: SetOutcome)
    ensures r.reload <==> Supported(code)
    ensures r.stored == if Supported(code) then Some(code) else stored
  {
    if Supported(code) then SetOutcome(Some(code), true) else SetOutcome(stored, false)
  }

  /** The locale chosen after `setLocale(code)` is `code` for a supported
      code and is unchanged otherwise, whatever the browser says. */
  lemma SetThenGet(stored: Option<string>, code: string, language: string)
    ensures Supported(code) ==> GetLocale(SetLocale(stored, code).stored, language) == code
    ensures !Supported(code) ==> GetLocale(SetLocale(stored, code).stored, language) == GetLocale(stored, language)
  {
  }

  /** Off the inherited property names the two readings agree. */
  lemma AsWrittenAgrees(saved: Option<string>, language: string)
    requires saved.Some? ==> saved.value !in JsValue.ObjectPrototypeNames
    requires LanguagePrefix(language) !in JsValue.ObjectPrototypeNames
    ensures GetLocaleAsWritten(saved, language) == GetLocale(saved, language)
  {
    SupportedCodes("");
  }

  /** A saved `toString` is returned by `getLocale` as written, although
      it is no locale; `setLocale('toString')` would store it. */
  lemma PrototypeKeyReturned(language: string)
    ensures GetLocaleAsWritten(Some("toString"), language) == "toString"
    ensures !Supported("toString")
    ensures SetLocaleAsWritten(None, "toString") == SetOutcome(Some("toString"), true)
  {
    assert "toString" in JsValue.ObjectPrototypeNames;
    SupportedCodes("toString");
  }

  /** What `useLocale()` returns, less the `setLocale` function. */
  datatype LocaleView = LocaleView(currentLocale: string, localeName: string, localeFlag: string,
                                   locales: seq<LocaleInfo>)

  /** `Object.keys(locales).map(key => ({ code: key, ...locales[key] }))` */
  function ListLocales(keys: seq<string>): (r: seq<LocaleInfo>)
    requires forall i :: 0 <= i < |keys| ==> Supported(keys[i])
    ensures |r| == |keys|
    ensures forall i :: 0 <= i < |r| ==> r[i].code == keys[i] && r[i] == Entry(keys[i])
  {
    if |keys| == 0 then [] else [Entry(keys[0])] + ListLocales(keys[1..])
  }

  function Codes(table: seq<LocaleInfo>): (r: seq<string>)
    ensures |r| == |table|
    ensures forall i :: 0 <= i < |r| ==> r[i] == table[i].code
  {
    if |table| == 0 then [] else [table[0].code] + Codes(table[1..])
  }

  /** `useLocale()` */
  function UseLocale(saved: Option<string>, language: string): (v: LocaleView)
    ensures Supported(v.currentLocale) && v.currentLocale == GetLocale(saved, language)
    ensures exists i :: 0 <= i < |Table| && Table[i] == LocaleInfo(v.currentLocale, v.localeName, v.localeFlag)
    ensures v.locales == Table
  {
    var current := GetLocale(saved, language);
    var e := Entry(current);
    var keys := Codes(Table);
    var list := ListLocales(keys);
    assert forall i :: 0 <= i < |Table| ==> Entry(Table[i].code) == Table[i] by {
      SupportedCodes(English);
      SupportedCodes(Ukrainian);
    }
    LocaleView(current, e.name, e.flag, list)
  }

  /** The list `useLocale` returns has exactly one entry per supported
      locale: its codes are distinct and are the supported ones. */
  lemma OneEntryPerLocale(saved: Option<string>, language: string)
    ensures var list := UseLocale(saved, language).locales;
            && (forall i, j :: 0 <= i < j < |list| ==> list[i].code != list[j].code)
            && (forall code :: Supported(code) <==> exists i :: 0 <= i < |list| && list[i].code == code)
  {
  }

  /** A Ukrainian browser without a saved choice gets Ukrainian. */
  lemma BrowserLanguageUsed()
    ensures GetLocale(None, "uk-UA") == Ukrainian
  {
    SupportedCodes(Ukrainian);
    assert LanguagePrefix("uk-UA") == Ukrainian;
  }

  /** A saved choice wins over the browser language. */
  lemma SavedChoiceWins(language: string)
    ensures GetLocale(Some(English), language) == English
    ensures GetLocale(Some(Ukrainian), language) == Ukrainian
  {
    SupportedCodes(English);
    SupportedCodes(Ukrainian);
  }

  /** An unsupported saved value and browser language give English. */
  lemma EnglishFallback()
    ensures GetLocale(Some("fr"), "de-DE") == English
  {
    SupportedCodes("fr");
    SupportedCodes("de");
    assert LanguagePrefix("de-DE") == "de";
  }

  /** Choosing Ukrainian stores it and reloads; an unknown code changes
      nothing. */
  lemma SetExamples()
    ensures SetLocale(None, Ukrainian) == SetOutcome(Some(Ukrainian), true)
    ensures SetLocale(Some(English), "fr") == SetOutcome(Some(English), false)
  {
    SupportedCodes(Ukrainian);
    SupportedCodes("fr");
  }
}

=== FILE: patterns_demo.dfy ===
/** The sign-up form of the patterns demo page: three fields, the rules
    they carry, and what the validation hook makes of them. */
module PatternsDemo {
  import opened Wrappers
  import opened Text
  import opened FormValidation
  import Sanitize

  const EmailField := "email"
  const PasswordField := "password"
  const ConfirmField := "confirmPassword"

  const EmailRequired := "Email is required"
  const EmailInvalid := "Please enter a valid email address"
  const PasswordRequired := "Password is required"
  const PasswordTooShort := "Password must be at least 6 characters"
  const ConfirmRequired := "Please confirm your password"
  const PasswordsDiffer := "Passwords do not match"

  /** The confirmation check: `value !== values.password`. */
  function ConfirmCheck(value: Option<string>, values: Values): (e: string)
    ensures e == "" <==> value == Lookup(values, PasswordField)
  {
    if value != Lookup(values, PasswordField) then PasswordsDiffer else ""
  }

  const EmailRule := Rule(RequiredWith(EmailRequired), 0, "", 0, "",
                          Some(s => Sanitize.EmailPattern(s)), EmailInvalid, None)
  const PasswordRule := Rule(RequiredWith(PasswordRequired), 6, PasswordTooShort, 0, "", None, "", None)
  const ConfirmRule := Rule(RequiredWith(ConfirmRequired), 0, "", 0, "", None, "", Some(ConfirmCheck))

  const DemoRules: Rules := map[EmailField := EmailRule, PasswordField := PasswordRule, ConfirmField := ConfirmRule]

  const Blanks: Values := map[EmailField := "", PasswordField := "", ConfirmField := ""]

  /** A filled-in email that the pattern refuses is reported with the
      email message. */
  lemma InvalidEmailReported(values: Values, touched: set<string>)
    requires EmailField in values && !Blank(Some(values[EmailField]))
    requires !Sanitize.EmailPattern(values[EmailField])
    ensures ValidateForm(values, touched, DemoRules).0[EmailField] == EmailInvalid
  {
    assert ErrorOf(values, touched, DemoRules, EmailField) == Some(EmailInvalid);
  }

  /** A filled-in password of fewer than six characters is reported. */
  lemma ShortPasswordReported(values: Values, touched: set<string>)
    requires PasswordField in values && !Blank(Some(values[PasswordField]))
    requires Utf16Length(values[PasswordField]) < 6
    ensures ValidateForm(values, touched, DemoRules).0[PasswordField] == PasswordTooShort
  {
    assert ErrorOf(values, touched, DemoRules, PasswordField) == Some(PasswordTooShort);
  }

  /** A filled-in confirmation that differs from the password is reported. */
  lemma MismatchReported(values: Values, touched: set<string>)
    requires ConfirmField in values && !Blank(Some(values[ConfirmField]))
    requires Lookup(values, ConfirmField) != Lookup(values, PasswordField)
    ensures ValidateForm(values, touched, DemoRules).0[ConfirmField] == PasswordsDiffer
  {
    assert ErrorOf(values, touched, DemoRules, ConfirmField) == Some(PasswordsDiffer);
  }

  /** A form with a well-formed email, a password of six or more
      characters and a matching confirmation has no errors, touched or not. */
  lemma CompleteFormValid(values: Values, touched: set<string>)
    requires EmailField in values && PasswordField in values && ConfirmField in values
    requires !Blank(Some(values[EmailField])) && Sanitize.EmailPattern(values[EmailField])
    requires !Blank(Some(values[PasswordField])) && Utf16Length(values[PasswordField]) >= 6
    requires values[ConfirmField] == values[PasswordField]
    ensures ValidateForm(values, touched, DemoRules) == (map[], true)
  {
    forall f | f in DemoRules
      ensures ErrorOf(values, touched, DemoRules, f).None?
    {
      if f == EmailField {
        EmailAccepted(values, touched);
      } else if f == PasswordField {
        PasswordAccepted(values, touched);
      } else {
        ConfirmAccepted(values, touched);
      }
    }
    AllPassNoErrors(values, touched, DemoRules);
  }

  lemma EmailAccepted(values: Values, touched: set<string>)
    requires EmailField in values
    requires !Blank(Some(values[EmailField])) && Sanitize.EmailPattern(values[EmailField])
    ensures ErrorOf(values, touched, DemoRules, EmailField).None?
  {
    assert DemoRules[EmailField] == EmailRule;
  }

  lemma PasswordAccepted(values: Values, touched: set<string>)
    requires PasswordField in values
    requires !Blank(Some(values[PasswordField])) && Utf16Length(values[PasswordField]) >= 6
    ensures ErrorOf(values, touched, DemoRules, PasswordField).None?
  {
    assert DemoRules[PasswordField] == PasswordRule;
  }

  lemma ConfirmAccepted(values: Values, touched: set<string>)
    requires ConfirmField in values && PasswordField in values
    requires !Blank(Some(values[ConfirmField]))
    requires values[ConfirmField] == values[PasswordField]
    ensures ErrorOf(values, touched, DemoRules, ConfirmField).None?
  {
    assert DemoRules[ConfirmField] == ConfirmRule;
  }

  /** After a submit has marked every field, a blank email is reported
      with its own required message; so are the other two fields. */
  lemma BlankEmailRequired(values: Values)
    requires Blank(Lookup(values, EmailField))
    ensures ValidateForm(values, DemoRules.Keys, DemoRules).0[EmailField] == EmailRequired
  {
    BlankRequiredReported(values, DemoRules.Keys, DemoRules, EmailField);
  }

  lemma BlankPasswordRequired(values: Values)
    requires Blank(Lookup(values, PasswordField))
    ensures ValidateForm(values, DemoRules.Keys, DemoRules).0[PasswordField] == PasswordRequired
  {
    BlankRequiredReported(values, DemoRules.Keys, DemoRules, PasswordField);
  }

  lemma BlankConfirmRequired(values: Values)
    requires Blank(Lookup(values, ConfirmField))
    ensures ValidateForm(values, DemoRules.Keys, DemoRules).0[ConfirmField] == ConfirmRequired
  {
    BlankRequiredReported(values, DemoRules.Keys, DemoRules, ConfirmField);
  }

  /** As the hook is written, the freshly mounted demo form is valid (no
      field is touched or filled, so none is checked), and a first submit
      hands the three empty strings to the submit handler. */
  lemma EmptyFormSubmitted()
    ensures Mount(Blanks, DemoRules).isValid
    ensures HandleSubmit(Mount(Blanks, DemoRules), DemoRules).1 == Some(Blanks)
  {
    assert forall f :: f in DemoRules ==> !Present(Lookup(Blanks, f));
    assert forall f :: f in DemoRules ==> ErrorOf(Blanks, {}, DemoRules, f).None?;
  }

  /** The corrected submit refuses the same empty form. */
  lemma EmptyFormRefused()
    ensures SubmitWhenValid(Mount(Blanks, DemoRules), DemoRules).1 == None
  {
    assert ErrorOf(Blanks, DemoRules.Keys, DemoRules, EmailField).Some?;
  }
}

=== FILE: rate_limit.dfy ===
/** The sliding-window rate limiter of the security utilities: each key
    keeps the times of its recent requests, a request is refused when the
    window already holds `maxRequests` of them, and `cleanup` drops times a
    minute old and keys left with none.  `Date.now()` is the `now`
    parameter; the module-level `Map` is passed in and returned. */
module RateLimit {
  import opened Seqs

  /** `rateLimiting.requests`: request times in milliseconds per key. */
  type Store = map<string, seq<int>>

  const DefaultMaxRequests := 10
  const DefaultWindowMs := 60000

  /** The window `cleanup` uses, whatever window the calls used. */
  const CleanupWindowMs := 60000

  /** `times.filter(time => now - time < windowMs)` */
  function Prune(times: seq<int>, now: int, windowMs: int): (r: seq<int>)
    ensures |r| <= |times|
    ensures forall i :: 0 <= i < |r| ==> now - r[i] < windowMs && r[i] in times
    ensures forall t :: t in times && now - t < windowMs ==> t in r
    ensures r == Filter(t => now - t < windowMs, times)
    decreases |times|
  {
    if |times| == 0 then []
    else
      var rest := Prune(times[1..], now, windowMs);
      if now - times[0] < windowMs then [times[0]] + rest else rest
  }

  /** Each time occurs after pruning as often as before when it is inside
      the window, and not at all otherwise. */
  lemma PruneCounts(times: seq<int>, now: int, windowMs: int)
    ensures forall t :: multiset(Prune(times, now, windowMs))[t] == if now - t < windowMs then multiset(times)[t] else 0
  {
    FilterCounts(t => now - t < windowMs, times);
  }

  /** `requests.get(key) || []` */
  function Requests(store: Store, key: string): seq<int> {
    if key in store then store[key] else []
  }

  /** `rateLimiting.isAllowed(key, maxRequests, windowMs)` at time `now`:
      the verdict and the store afterwards. */
  function IsAllowed(store: Store, key: string, now: int, maxRequests: int, windowMs: int): (r: (bool, Store))
    ensures var recent := Prune(Requests(store, key), now, windowMs);
            && (r.0 <==> |recent| < maxRequests)
            && (!r.0 ==> r.1 == store)
            && (r.0 ==> r.1 == store[key := recent + [now]])
  {
    var recent := Prune(Requests(store, key), now, windowMs);
    if |recent| >= maxRequests then (false, store)
    else (true, store[key := recent + [now]])
  }

  /** No key holds more than `maxRequests` times. */
  predicate Bounded(store: Store, maxRequests: int) {
    forall k :: k in store ==> |store[k]| <= maxRequests
  }

  /** A call never lets a key hold more times than the limit, and the times
      it stores for the key all lie in the window ending at `now`. */
  lemma IsAllowedKeepsBound(store: Store, key: string, now: int, maxRequests: int, windowMs: int)
    requires Bounded(store, maxRequests)
    requires windowMs > 0
    ensures Bounded(IsAllowed(store, key, now, maxRequests, windowMs).1, maxRequests)
    ensures var r := IsAllowed(store, key, now, maxRequests, windowMs);
            r.0 ==> forall t :: t in r.1[key] ==> now - t < windowMs
  {
  }

  /** Another key's calls leave this key's verdicts unchanged. */
  lemma KeysIndependent(store: Store, key: string, other: string, now: int, maxRequests: int, windowMs: int)
    requires key != other
    ensures var r := IsAllowed(store, other, now, maxRequests, windowMs);
            Requests(r.1, key) == Requests(store, key)
  {
  }

  /** The store after a series of calls for one key at the given times. */
  function Run(store: Store, key: string, nows: seq<int>, maxRequests: int, windowMs: int): (r: Store)
    ensures forall k :: k != key ==> (k in r <==> k in store)
    ensures forall k :: k != key && k in store ==> r[k] == store[k]
    decreases |nows|
  {
    if |nows| == 0 then store
    else
      var before := Run(store, key, nows[..|nows| - 1], maxRequests, windowMs);
      IsAllowed(before, key, nows[|nows| - 1], maxRequests, windowMs).1
  }

  /** The verdict of call `i` of the series. */
  function Verdict(store: Store, key: string, nows: seq<int>, i: nat, maxRequests: int, windowMs: int): (ok: bool)
    requires i < |nows|
    ensures var before := Run(store, key, nows[..i], maxRequests, windowMs);
            ok <==> |Prune(Requests(before, key), nows[i], windowMs)| < maxRequests
    ensures Run(store, key, nows[..i + 1], maxRequests, windowMs)
            == IsAllowed(Run(store, key, nows[..i], maxRequests, windowMs), key, nows[i], maxRequests, windowMs).1
  {
    assert nows[..i + 1][..i] == nows[..i];
    IsAllowed(Run(store, key, nows[..i], maxRequests, windowMs), key, nows[i], maxRequests, windowMs).0
  }

  predicate NonDecreasing(nows: seq<int>) {
    forall i, j :: 0 <= i <= j < |nows| ==> nows[i] <= nows[j]
  }

  function Min(a: int, b: int): int {
    if a <= b then a else b
  }

  /** During a burst that fits in one window, starting from no history, the
      key keeps exactly the first `maxRequests` times. */
  lemma {:induction false} BurstHistory(store: Store, key: string, nows: seq<int>, i: nat, maxRequests: nat, windowMs: int)
    requires key !in store
    requires NonDecreasing(nows) && |nows| > 0 && nows[|nows| - 1] - nows[0] < windowMs
    requires i <= |nows|
    ensures Requests(Run(store, key, nows[..i], maxRequests, windowMs), key) == nows[..Min(i, maxRequests)]
    decreases i
  {
    if i > 0 {
      var before := Run(store, key, nows[..i - 1], maxRequests, windowMs);
      RunStep(store, key, nows, i, maxRequests, windowMs);
      BurstHistory(store, key, nows, i - 1, maxRequests, windowMs);
      var kept := nows[..Min(i - 1, maxRequests)];
      BurstInWindow(nows, Min(i - 1, maxRequests), i - 1, windowMs);
      BurstStep(before, key, kept, nows[i - 1], maxRequests, windowMs);
      BurstGrowth(nows, i, maxRequests);
    }
  }

  /** The first `maxRequests` times of a burst, one call further on. */
  lemma BurstGrowth(nows: seq<int>, i: nat, maxRequests: nat)
    requires 0 < i <= |nows|
    ensures var kept := nows[..Min(i - 1, maxRequests)];
            (if |kept| < maxRequests then kept + [nows[i - 1]] else kept) == nows[..Min(i, maxRequests)]
  {
    if i - 1 < maxRequests {
      assert nows[..i - 1] + [nows[i - 1]] == nows[..i];
    }
  }

  /** The series up to call `i` is the series up to call `i - 1` and then
      call `i`. */
  lemma RunStep(store: Store, key: string, nows: seq<int>, i: nat, maxRequests: int, windowMs: int)
    requires 0 < i <= |nows|
    ensures Run(store, key, nows[..i], maxRequests, windowMs)
            == IsAllowed(Run(store, key, nows[..i - 1], maxRequests, windowMs), key, nows[i - 1], maxRequests, windowMs).1
  {
    var prefix := nows[..i];
    assert |prefix| == i;
    assert prefix[..|prefix| - 1] == nows[..i - 1];
    assert prefix[|prefix| - 1] == nows[i - 1];
  }

  /** Every earlier time of a burst is within the window of a later one. */
  lemma BurstInWindow(nows: seq<int>, m: nat, i: nat, windowMs: int)
    requires NonDecreasing(nows) && |nows| > 0 && nows[|nows| - 1] - nows[0] < windowMs
    requires m <= i < |nows|
    ensures forall j :: 0 <= j < |nows[..m]| ==> nows[i] - nows[..m][j] < windowMs
  {
    assert nows[i] <= nows[|nows| - 1];
    assert forall j :: 0 <= j < m ==> nows[0] <= nows[j];
  }

  /** One call of a burst: the history grows by the call's time while it is
      below the limit and stays put after. */
  lemma BurstStep(before: Store, key: string, kept: seq<int>, now: int, maxRequests: int, windowMs: int)
    requires Requests(before, key) == kept
    requires forall j :: 0 <= j < |kept| ==> now - kept[j] < windowMs
    ensures Requests(IsAllowed(before, key, now, maxRequests, windowMs).1, key)
            == if |kept| < maxRequests then kept + [now] else kept
  {
    PruneKeepsAll(kept, now, windowMs);
  }

  /** Times a full window old all go. */
  lemma {:induction false} PruneDropsAll(times: seq<int>, now: int, windowMs: int)
    requires forall t :: t in times ==> now - t >= windowMs
    ensures Prune(times, now, windowMs) == []
    decreases |times|
  {
    if |times| > 0 {
      assert times[0] in times;
      assert forall t :: t in times[1..] ==> t in times;
      PruneDropsAll(times[1..], now, windowMs);
    }
  }

  /** Times no older than the window all survive pruning. */
  lemma {:induction false} PruneKeepsAll(times: seq<int>, now: int, windowMs: int)
    requires forall i :: 0 <= i < |times| ==> now - times[i] < windowMs
    ensures Prune(times, now, windowMs) == times
    decreases |times|
  {
    if |times| > 0 {
      PruneKeepsAll(times[1..], now, windowMs);
      assert [times[0]] + times[1..] == times;
    }
  }

  /** The unit tests' burst: within one window, from no history, exactly the
      first `maxRequests` calls are allowed. */
  lemma BurstVerdicts(store: Store, key: string, nows: seq<int>, maxRequests: nat, windowMs: int)
    requires key !in store
    requires NonDecreasing(nows) && |nows| > 0 && nows[|nows| - 1] - nows[0] < windowMs
    ensures forall i :: 0 <= i < |nows| ==> (Verdict(store, key, nows, i, maxRequests, windowMs) <==> i < maxRequests)
  {
    forall i | 0 <= i < |nows|
      ensures Verdict(store, key, nows, i, maxRequests, windowMs) <==> i < maxRequests
    {
      BurstHistory(store, key, nows, i, maxRequests, windowMs);
      var kept := nows[..Min(i, maxRequests)];
      PruneKeepsAll(kept, nows[i], windowMs);
    }
  }

  /** Once every stored time of the key is a full window old, the next call
      is allowed and starts a fresh history. */
  lemma ResetAfterWindow(store: Store, key: string, now: int, maxRequests: int, windowMs: int)
    requires maxRequests >= 1
    requires forall t :: t in Requests(store, key) ==> now - t >= windowMs
    ensures IsAllowed(store, key, now, maxRequests, windowMs) == (true, store[key := [now]])
  {
    PruneDropsAll(Requests(store, key), now, windowMs);
    assert [] + [now] == [now];
  }

  // ---------------------------------------------------------------------
  // cleanup

  /** `rateLimiting.cleanup()` at time `now`. */
  function Cleanup(store: Store, now: int): (r: Store)
    ensures forall k :: k in r <==> k in store && Prune(store[k], now, CleanupWindowMs) != []
    ensures forall k :: k in r ==> r[k] == Prune(store[k], now, CleanupWindowMs)
  {
    map k | k in store && Prune(store[k], now, CleanupWindowMs) != [] :: Prune(store[k], now, CleanupWindowMs)
  }

  /** Pruning at an earlier time first changes nothing about pruning later. */
  lemma {:induction false} PruneTwice(times: seq<int>, earlier: int, now: int, windowMs: int)
    requires earlier <= now
    ensures Prune(Prune(times, earlier, windowMs), now, windowMs) == Prune(times, now, windowMs)
    decreases |times|
  {
    if |times| > 0 {
      PruneTwice(times[1..], earlier, now, windowMs);
    }
  }

  /** A cleanup never changes a later verdict of a call with the default
      window, nor what that call stores for its key. */
  lemma CleanupInvisible(store: Store, key: string, earlier: int, now: int, maxRequests: int)
    requires earlier <= now
    ensures var before := IsAllowed(store, key, now, maxRequests, CleanupWindowMs);
            var after := IsAllowed(Cleanup(store, earlier), key, now, maxRequests, CleanupWindowMs);
            && after.0 == before.0
            && (after.0 ==> after.1[key] == before.1[key])
  {
    var c := Cleanup(store, earlier);
    if key in store {
      PruneTwice(store[key], earlier, now, CleanupWindowMs);
    }
    assert Prune(Requests(c, key), now, CleanupWindowMs) == Prune(Requests(store, key), now, CleanupWindowMs);
  }

  /** Cleaning up twice at the same time is cleaning up once, and a cleanup
      never makes a key exceed a bound it kept. */
  lemma CleanupIdempotent(store: Store, now: int, maxRequests: int)
    ensures Cleanup(Cleanup(store, now), now) == Cleanup(store, now)
    ensures Bounded(store, maxRequests) ==> Bounded(Cleanup(store, now), maxRequests)
  {
    var c := Cleanup(store, now);
    forall k | k in c
      ensures Prune(c[k], now, CleanupWindowMs) == c[k]
    {
      PruneTwice(store[k], now, now, CleanupWindowMs);
    }
  }
}

=== FILE: sanitize.dfy ===
/** The string sanitizers of the security utilities: `sanitizeInput`,
    `sanitizeEmail` and `sanitizeURL`.

    `sanitizeInput` runs three global regular-expression deletions and a trim:
    `/[<>]/g`, then `/javascript:/gi`, then `/on\w+=/gi`.  A global replace
    scans left to right and resumes after each match, so each deletion is one
    pass; a pass can bring two halves of a pattern together (`javajavascript:script:`
    becomes `javascript:`), so the result is not claimed free of the patterns. */
module Sanitize {
  import opened Wrappers
  import opened Text
  import opened JsValue

  // ---------------------------------------------------------------------
  // The three deletion passes

  predicate IsAngle(c: char) {
    c == '<' || c == '>'
  }

  /** `.replace(/[<>]/g, '')` */
  function DeleteAngles(s: string): (r: string)
    ensures '<' !in r && '>' !in r
    ensures IsSubsequence(r, s)
    decreases |s|
  {
    if |s| == 0 then []
    else
      var rest := DeleteAngles(s[1..]);
      if IsAngle(s[0]) then
        SubsequenceExtend(rest, s);
        rest
      else
        SubsequenceCons(s[0], rest, s[1..]);
        assert [s[0]] + s[1..] == s;
        [s[0]] + rest
  }

  /** `javascript:` in any ASCII letter case starts `s`. */
  predicate JavascriptAtStart(s: string) {
    |s| >= 11 && ToLower(s[..11]) == "javascript:"
  }

  /** `.replace(/javascript:/gi, '')` */
  function DeleteJavascript(s: string): (r: string)
    ensures IsSubsequence(r, s)
    decreases |s|
  {
    if |s| == 0 then []
    else if JavascriptAtStart(s) then
      var rest := DeleteJavascript(s[11..]);
      SubsequenceDrop(rest, s, 11);
      rest
    else
      var rest := DeleteJavascript(s[1..]);
      SubsequenceCons(s[0], rest, s[1..]);
      assert [s[0]] + s[1..] == s;
      [s[0]] + rest
  }

  /** The end of the run of word characters that starts at `i`. */
  function WordRunEnd(s: string, i: nat): (j: nat)
    requires i <= |s|
    ensures i <= j <= |s|
    ensures forall k :: i <= k < j ==> IsWordChar(s[k])
    ensures j < |s| ==> !IsWordChar(s[j])
    decreases |s| - i
  {
    if i < |s| && IsWordChar(s[i]) then WordRunEnd(s, i + 1) else i
  }

  /** The length of the match of `/on\w+=/i` at the start of `s`, if any.
      `=` is not a word character, so the greedy `\w+` must stop exactly at
      the end of the word run for the `=` to follow. */
  function HandlerAtStart(s: string): (r: Option<nat>)
    ensures r.Some? ==> 4 <= r.value <= |s| && s[r.value - 1] == '='
    ensures r.Some? ==> LowerChar(s[0]) == 'o' && LowerChar(s[1]) == 'n'
    ensures r.Some? ==> forall k :: 2 <= k < r.value - 1 ==> IsWordChar(s[k])
  {
    if |s| >= 2 && LowerChar(s[0]) == 'o' && LowerChar(s[1]) == 'n' then
      var j := WordRunEnd(s, 2);
      if j > 2 && j < |s| && s[j] == '=' then Some(j + 1) else None
    else None
  }

  /** `.replace(/on\w+=/gi, '')` */
  function DeleteEventHandlers(s: string): (r: string)
    ensures IsSubsequence(r, s)
    decreases |s|
  {
    if |s| == 0 then []
    else match HandlerAtStart(s)
      case Some(n) =>
        var rest := DeleteEventHandlers(s[n..]);
        SubsequenceDrop(rest, s, n);
        rest
      case None =>
        var rest := DeleteEventHandlers(s[1..]);
        SubsequenceCons(s[0], rest, s[1..]);
        assert [s[0]] + s[1..] == s;
        [s[0]] + rest
  }

  // ---------------------------------------------------------------------
  // sanitizeInput

  /** `sanitizeInput` on a string: the result has no angle brackets, no
      white space at either end, and is obtained from the input by deleting
      characters, so it is never longer. */
  function SanitizeString(s: string): (r: string)
    ensures '<' !in r && '>' !in r
    ensures Trimmed(r)
    ensures IsSubsequence(r, s)
    ensures |r| <= |s|
  {
    var a := DeleteAngles(s);
    var b := DeleteJavascript(a);
    var c := DeleteEventHandlers(b);
    var r := Trim(c);
    TrimIsSubsequence(c);
    SubsequenceTrans(r, c, b);
    SubsequenceTrans(r, b, a);
    SubsequenceElements(r, a);
    SubsequenceTrans(r, a, s);
    SubsequenceLength(r, s);
    r
  }

  /** `sanitizeInput(input)`: a non-string is returned unchanged. */
  function SanitizeInput(input: Json): (r: Json)
    ensures !(input.JPrim? && input.p.Str?) ==> r == input
    ensures input.JPrim? && input.p.Str? ==>
              && r.JPrim? && r.p.Str?
              && '<' !in r.p.s && '>' !in r.p.s && Trimmed(r.p.s)
              && IsSubsequence(r.p.s, input.p.s)
  {
    match input
    case JPrim(Str(s)) => JPrim(Str(SanitizeString(s)))
    case _ => input
  }

  /** A string none of the passes touches. */
  predicate Clean(s: string) {
    && '<' !in s && '>' !in s
    && (forall k :: 0 <= k < |s| ==> !JavascriptAtStart(s[k..]))
    && (forall k :: 0 <= k < |s| ==> HandlerAtStart(s[k..]).None?)
    && Trimmed(s)
  }

  lemma {:induction false} DeleteAnglesKeeps(s: string)
    requires '<' !in s && '>' !in s
    ensures DeleteAngles(s) == s
    decreases |s|
  {
    if |s| > 0 {
      assert s[0] in s;
      assert forall x | x in s[1..] :: x in s;
      DeleteAnglesKeeps(s[1..]);
      assert [s[0]] + s[1..] == s;
    }
  }

  lemma {:induction false} DeleteJavascriptKeeps(s: string)
    requires forall k :: 0 <= k < |s| ==> !JavascriptAtStart(s[k..])
    ensures DeleteJavascript(s) == s
    decreases |s|
  {
    if |s| > 0 {
      assert s[0..] == s;
      forall k | 0 <= k < |s| - 1
        ensures !JavascriptAtStart(s[1..][k..])
      {
        assert s[1..][k..] == s[k + 1..];
      }
      DeleteJavascriptKeeps(s[1..]);
      assert [s[0]] + s[1..] == s;
    }
  }

  lemma {:induction false} DeleteEventHandlersKeeps(s: string)
    requires forall k :: 0 <= k < |s| ==> HandlerAtStart(s[k..]).None?
    ensures DeleteEventHandlers(s) == s
    decreases |s|
  {
    if |s| > 0 {
      assert s[0..] == s;
      forall k | 0 <= k < |s| - 1
        ensures HandlerAtStart(s[1..][k..]).None?
      {
        assert s[1..][k..] == s[k + 1..];
      }
      DeleteEventHandlersKeeps(s[1..]);
      assert [s[0]] + s[1..] == s;
    }
  }

  /** A string with nothing to delete and nothing to trim is its own
      sanitization. */
  lemma CleanIsFixedPoint(s: string)
    requires Clean(s)
    ensures SanitizeString(s) == s
  {
    DeleteAnglesKeeps(s);
    DeleteJavascriptKeeps(s);
    DeleteEventHandlersKeeps(s);
    TrimOfTrimmed(s);
  }

  /** No character folds to `j`, so no `javascript:` can start anywhere. */
  predicate NoLetterJ(s: string) {
    forall k :: 0 <= k < |s| ==> s[k] != 'j' && s[k] != 'J'
  }

  /** No `o` is followed by an `n` in any letter case, so no handler can
      start anywhere. */
  predicate NoOnPair(s: string) {
    forall k :: 0 <= k < |s| - 1 ==> !((s[k] == 'o' || s[k] == 'O') && (s[k + 1] == 'n' || s[k + 1] == 'N'))
  }

  lemma NoLetterJKeeps(s: string)
    requires NoLetterJ(s)
    ensures DeleteJavascript(s) == s
  {
    forall k | 0 <= k < |s|
      ensures !JavascriptAtStart(s[k..])
    {
      if |s| - k >= 11 {
        assert ToLower(s[k..][..11])[0] == LowerChar(s[k]);
      }
    }
    DeleteJavascriptKeeps(s);
  }

  lemma NoOnPairKeeps(s: string)
    requires NoOnPair(s)
    ensures DeleteEventHandlers(s) == s
  {
    forall k | 0 <= k < |s|
      ensures HandlerAtStart(s[k..]).None?
    {
      if |s| - k >= 2 {
        assert s[k..][0] == s[k] && s[k..][1] == s[k + 1];
      }
    }
    DeleteEventHandlersKeeps(s);
  }

  /** Printable ASCII other than the angle brackets and the letter `j`. */
  predicate PlainChar(c: char) {
    ' ' <= c <= '~' && c != '<' && c != '>' && c != 'j' && c != 'J'
  }

  /** A sufficient, character-level condition for `Clean`. */
  predicate Plain(s: string) {
    (forall k :: 0 <= k < |s| ==> PlainChar(s[k])) && NoOnPair(s) && Trimmed(s)
  }

  /** Two plain texts join into a plain text unless the join makes an `on`. */
  lemma PlainJoin(a: string, b: string)
    requires Plain(a) && Plain(b) && |a| > 0 && |b| > 0
    requires a[|a| - 1] != 'o' && a[|a| - 1] != 'O'
    ensures Plain(a + b)
  {
    var s := a + b;
    forall k | 0 <= k < |s|
      ensures PlainChar(s[k])
    {
      if k < |a| { assert s[k] == a[k]; } else { assert s[k] == b[k - |a|]; }
    }
    forall k | 0 <= k < |s| - 1
      ensures !((s[k] == 'o' || s[k] == 'O') && (s[k + 1] == 'n' || s[k + 1] == 'N'))
    {
      if k + 1 < |a| { assert s[k] == a[k] && s[k + 1] == a[k + 1]; }
      else if k >= |a| { assert s[k] == b[k - |a|] && s[k + 1] == b[k + 1 - |a|]; }
      else { assert s[k] == a[|a| - 1]; }
    }
  }

  lemma PlainKept(s: string)
    requires Plain(s)
    ensures SanitizeString(s) == s
    ensures '<' !in s && '>' !in s
    ensures DeleteJavascript(s) == s && DeleteEventHandlers(s) == s
  {
    DeleteAnglesKeeps(s);
    NoLetterJKeeps(s);
    NoOnPairKeeps(s);
    TrimOfTrimmed(s);
  }

  /** White space around plain text is all `sanitizeInput` removes. */
  lemma PaddedPlainKept(p: string, x: string, q: string)
    requires AllSpace(p) && AllSpace(q)
    requires Plain(x) && |x| > 0
    ensures SanitizeString(p + x + q) == x
  {
    var s := p + x + q;
    PaddedParts(p, x, q);
    DeleteAnglesKeeps(s);
    NoLetterJKeeps(s);
    NoOnPairKeeps(s);
    TrimPadded(p, x, q);
  }

  /** White space around a plain text adds no bracket, no `j` and no
      `on`. */
  lemma PaddedParts(p: string, x: string, q: string)
    requires AllSpace(p) && AllSpace(q) && Plain(x)
    ensures var s := p + x + q; '<' !in s && '>' !in s && NoLetterJ(s) && NoOnPair(s)
  {
    var s := p + x + q;
    assert forall k :: 0 <= k < |s| ==> PlainChar(s[k]) || IsSpace(s[k]);
    forall k | 0 <= k < |s| - 1
      ensures !((s[k] == 'o' || s[k] == 'O') && (s[k + 1] == 'n' || s[k + 1] == 'N'))
    {
      if |p| <= k && k + 1 < |p| + |x| {
        assert s[k] == x[k - |p|] && s[k + 1] == x[k + 1 - |p|];
      }
    }
  }

  /** Deleting angle brackets works piecewise. */
  lemma {:induction false} DeleteAnglesAppend(a: string, b: string)
    ensures DeleteAngles(a + b) == DeleteAngles(a) + DeleteAngles(b)
    decreases |a|
  {
    if |a| == 0 {
      assert a + b == b;
    } else {
      assert (a + b)[0] == a[0];
      assert (a + b)[1..] == a[1..] + b;
      DeleteAnglesAppend(a[1..], b);
    }
  }

  /** No protocol starts before index `k`. */
  predicate NoProtocolBefore(s: string, k: nat)
    requires k <= |s|
  {
    forall i :: 0 <= i < k ==> !JavascriptAtStart(s[i..])
  }

  lemma NoProtocolBeforeTail(s: string, k: nat)
    requires 0 < k <= |s| && NoProtocolBefore(s, k)
    ensures NoProtocolBefore(s[1..], k - 1)
    ensures DeleteJavascript(s) == [s[0]] + DeleteJavascript(s[1..])
  {
    assert s[0..] == s;
    forall i | 0 <= i < k - 1
      ensures !JavascriptAtStart(s[1..][i..])
    {
      assert s[1..][i..] == s[i + 1..];
    }
  }

  /** Scanning past positions where no protocol starts copies them. */
  lemma {:induction false} DeleteJavascriptSkips(s: string, k: nat)
    requires k <= |s| && NoProtocolBefore(s, k)
    ensures DeleteJavascript(s) == s[..k] + DeleteJavascript(s[k..])
    decreases k
  {
    if k > 0 {
      var tail, d := s[1..], DeleteJavascript(s[k..]);
      NoProtocolBeforeTail(s, k);
      DeleteJavascriptSkips(tail, k - 1);
      SkipsJoin(s, k, d);
      assert DeleteJavascript(tail) == tail[..k - 1] + d;
    } else {
      assert s[..0] + s[0..] == s;
    }
  }

  lemma SkipsJoin(s: string, k: nat, d: string)
    requires 0 < k <= |s|
    ensures [s[0]] + (s[1..][..k - 1] + d) == s[..k] + d
    ensures s[1..][k - 1..] == s[k..]
  {
    assert s[..k] == [s[0]] + s[1..][..k - 1];
  }

  /** A leading `javascript:` is dropped whole and scanning resumes after it. */
  lemma JavascriptPrefixDropped(rest: string)
    ensures DeleteJavascript("javascript:" + rest) == DeleteJavascript(rest)
  {
    var s := "javascript:" + rest;
    assert s[..11] == "javascript:";
    assert ToLower(s[..11]) == "javascript:";
    assert s[11..] == rest;
  }

  /** Before a plain text, a leading protocol is all that is removed. */
  lemma LeadingProtocolDropped(rest: string)
    requires Plain(rest)
    ensures SanitizeString("javascript:" + rest) == rest
  {
    var s := "javascript:" + rest;
    assert '<' !in s && '>' !in s by {
      assert forall i | 0 <= i < 11 :: s[i] == "javascript:"[i];
      assert forall i | 11 <= i < |s| :: s[i] == rest[i - 11];
    }
    DeleteAnglesKeeps(s);
    JavascriptPrefixDropped(rest);
    PlainKept(rest);
  }

  /** Before a plain text, a leading handler is all that is removed. */
  lemma LeadingHandlerDropped(s: string, n: nat)
    requires '<' !in s && '>' !in s && NoLetterJ(s)
    requires HandlerAtStart(s) == Some(n) && Plain(s[n..])
    ensures SanitizeString(s) == s[n..]
  {
    DeleteAnglesKeeps(s);
    NoLetterJKeeps(s);
    PlainKept(s[n..]);
  }

  /** When what is left after the brackets go is plain, the other passes
      and the trim change nothing. */
  lemma AnglesOnlyRemoved(s: string)
    requires Plain(DeleteAngles(s))
    ensures SanitizeString(s) == DeleteAngles(s)
  {
    PlainKept(DeleteAngles(s));
    TrimOfTrimmed(DeleteAngles(s));
  }

  /** A bracketed word loses exactly its brackets. */
  lemma BracketsDropped(w: string)
    requires '<' !in w && '>' !in w
    ensures DeleteAngles("<" + w + ">") == w
  {
    DeleteAnglesAppend("<" + w, ">");
    DeleteAnglesAppend("<", w);
    DeleteAnglesKeeps(w);
    assert DeleteAngles("<") == [] && DeleteAngles(">") == [];
  }

  // ---------------------------------------------------------------------
  // sanitizeEmail

  /** `/^[^\s@]+@[^\s@]+\.[^\s@]+$/` as a direct check: no white space,
      exactly one `@`, not first, and a `.` with at least one character on
      each side somewhere after the character that follows the `@`. */
  predicate EmailPattern(s: string) {
    && (forall k :: 0 <= k < |s| ==> !IsSpace(s[k]))
    && exists i | 0 < i < |s| ::
         && s[i] == '@'
         && (forall k :: 0 <= k < |s| && k != i ==> s[k] != '@')
         && exists j | i + 1 < j < |s| - 1 :: s[j] == '.'
  }

  /** One `[^\s@]+` group */
  predicate EmailPart(p: string) {
    |p| > 0 && forall k :: 0 <= k < |p| ==> !IsSpace(p[k]) && p[k] != '@'
  }

  /** The same regular expression read as a concatenation of its parts. */
  ghost predicate EmailRegex(s: string) {
    exists a, b, c :: EmailPart(a) && EmailPart(b) && EmailPart(c) && s == a + "@" + b + "." + c
  }

  lemma EmailPatternMatchesRegex(s: string)
    ensures EmailPattern(s) <==> EmailRegex(s)
  {
    if EmailPattern(s) {
      EmailPatternSplits(s);
    }
    if EmailRegex(s) {
      var a, b, c :| EmailPart(a) && EmailPart(b) && EmailPart(c) && s == a + "@" + b + "." + c;
      EmailPartsJoin(a, b, c);
    }
  }

  lemma EmailPatternSplits(s: string)
    requires EmailPattern(s)
    ensures EmailRegex(s)
  {
    var i :| 0 < i < |s| && s[i] == '@'
             && (forall k :: 0 <= k < |s| && k != i ==> s[k] != '@')
             && exists j | i + 1 < j < |s| - 1 :: s[j] == '.';
    var j :| i + 1 < j < |s| - 1 && s[j] == '.';
    var a, b, c := s[..i], s[i + 1..j], s[j + 1..];
    assert s[..j] == a + "@" + b;
    assert s == s[..j] + "." + c;
    forall k | 0 <= k < |a| ensures !IsSpace(a[k]) && a[k] != '@' {
      assert a[k] == s[k];
    }
    forall k | 0 <= k < |b| ensures !IsSpace(b[k]) && b[k] != '@' {
      assert b[k] == s[i + 1 + k];
    }
    forall k | 0 <= k < |c| ensures !IsSpace(c[k]) && c[k] != '@' {
      assert c[k] == s[j + 1 + k];
    }
    assert s == a + "@" + b + "." + c;
    assert EmailPart(a) && EmailPart(b) && EmailPart(c);
  }

  lemma EmailPartsJoin(a: string, b: string, c: string)
    requires EmailPart(a) && EmailPart(b) && EmailPart(c)
    ensures EmailPattern(a + "@" + b + "." + c)
  {
    var s := a + "@" + b + "." + c;
    var i := |a|;
    var j := |a| + 1 + |b|;
    assert s[i] == '@' && s[j] == '.';
    forall k | 0 <= k < |s|
      ensures !IsSpace(s[k])
      ensures k != i ==> s[k] != '@'
    {
      if k < i { assert s[k] == a[k]; }
      else if i < k < j { assert s[k] == b[k - i - 1]; }
      else if k > j { assert s[k] == c[k - j - 1]; }
    }
  }

  /** `sanitizeEmail(email)` */
  function SanitizeEmail(email: string): (r: string)
    ensures email == "" ==> r == ""
    ensures r == "" || (EmailPattern(r) && NoUpper(r) && Trimmed(r))
    ensures r != "" ==> IsSubsequence(r, ToLower(email))
  {
    if email == "" then ""
    else
      var lowered := ToLower(email);
      var t := Trim(lowered);
      var sanitized := SanitizeString(t);
      TrimIsSubsequence(lowered);
      SubsequenceTrans(sanitized, t, lowered);
      SubsequenceElements(sanitized, lowered);
      ToLowerNoUpper(email);
      assert NoUpper(sanitized) by {
        forall k | 0 <= k < |sanitized| ensures !IsUpper(sanitized[k]) {
          assert sanitized[k] in lowered;
        }
      }
      if EmailPattern(sanitized) then sanitized else ""
  }

  /** `sanitizeEmail(email)` on any value: a falsy value gives `''`, any
      other non-string throws at `email.toLowerCase()`, and a string is
      checked as `SanitizeEmail` does. */
  function SanitizeEmailValue(email: Json): (r: Result<string>)
    ensures r.Failure? <==> TruthyJson(email) && !(email.JPrim? && email.p.Str?)
    ensures r.Failure? ==> r.error == TypeError
    ensures !TruthyJson(email) ==> r == Success("")
    ensures email.JPrim? && email.p.Str? ==> r == Success(SanitizeEmail(email.p.s))
  {
    if !TruthyJson(email) then Success("")
    else
      match email
      case JPrim(Str(s)) => Success(SanitizeEmail(s))
      case _ => Failure(TypeError)
  }

  /** A kept address is stable: when the text `sanitizeEmail` returns has
      nothing left for `sanitizeInput` to remove, checking it again gives
      it back. */
  lemma SanitizeEmailStable(email: string)
    ensures var r := SanitizeEmail(email);
            Clean(r) ==> SanitizeEmail(r) == r
  {
    var r := SanitizeEmail(email);
    if r != "" && Clean(r) {
      NoUpperLowered(r);
      TrimOfTrimmed(r);
      CleanIsFixedPoint(r);
      EmailOfSanitized(r, r);
    }
  }

  /** A lowered character is `@` or `.` only if the original was. */
  lemma LoweredPunctuation(s: string, c: char)
    requires c == '@' || c == '.'
    requires c in ToLower(s)
    ensures c in s
  {
    var k :| 0 <= k < |s| && ToLower(s)[k] == c;
    assert s[k] == c;
  }

  /** Without an `@` or without a `.` there is no address to keep. */
  lemma EmailNeedsAtAndDot(email: string)
    requires '@' !in email || '.' !in email
    ensures SanitizeEmail(email) == ""
  {
    var r := SanitizeEmail(email);
    if r != "" {
      var i :| 0 < i < |r| && r[i] == '@' && exists j | i + 1 < j < |r| - 1 :: r[j] == '.';
      var j :| i + 1 < j < |r| - 1 && r[j] == '.';
      SubsequenceElements(r, ToLower(email));
      assert r[i] in r && r[j] in r;
      if '@' !in email {
        LoweredPunctuation(email, '@');
      } else {
        LoweredPunctuation(email, '.');
      }
    }
  }

  /** The address check sees the sanitized, trimmed, lower-cased text. */
  lemma EmailOfSanitized(email: string, a: string)
    requires email != "" && SanitizeString(Trim(ToLower(email))) == a
    ensures EmailPattern(a) ==> SanitizeEmail(email) == a
    ensures !EmailPattern(a) ==> SanitizeEmail(email) == ""
  {
  }

  /** A plain, lower-case, trimmed text comes out of the address
      clean-up unchanged, before the shape check. */
  lemma PlainEmailSteps(email: string)
    requires email != "" && Plain(email) && NoUpper(email)
    ensures SanitizeEmail(email) == if EmailPattern(email) then email else ""
  {
    assert ToLower(email) == email;
    TrimOfTrimmed(email);
    PlainKept(email);
    assert SanitizeString(Trim(ToLower(email))) == email;
  }

  /** A plain, lower-case address is kept as it is. */
  lemma PlainAddressKept(email: string)
    requires Plain(email) && NoUpper(email) && EmailPattern(email)
    ensures SanitizeEmail(email) == email
  {
    PlainEmailSteps(email);
  }

  /** An address that is already clean once lowered and trimmed is kept
      as that lowered, trimmed text, whatever letters or words it holds. */
  lemma CleanAddressKept(email: string)
    requires Clean(Trim(ToLower(email))) && EmailPattern(Trim(ToLower(email)))
    ensures SanitizeEmail(email) == Trim(ToLower(email))
  {
    var t := Trim(ToLower(email));
    CleanIsFixedPoint(t);
    EmailOfSanitized(email, t);
  }

  /** A plain, lower-case text without the address shape is refused. */
  lemma PlainNonAddressRefused(email: string)
    requires email != "" && Plain(email) && NoUpper(email) && !EmailPattern(email)
    ensures SanitizeEmail(email) == ""
  {
    PlainEmailSteps(email);
  }

  // ---------------------------------------------------------------------
  // sanitizeURL

  /** `/^(https?:\/\/|\/|#)/` */
  predicate AllowedUrlStart(s: string) {
    StartsWith(s, "http://") || StartsWith(s, "https://") || StartsWith(s, "/") || StartsWith(s, "#")
  }

  /** `sanitizeURL(url)` */
  function SanitizeUrl(url: string): (r: string)
    ensures url == "" ==> r == ""
    ensures url != "" ==> AllowedUrlStart(r)
    ensures url != "" ==>
              var t := SanitizeString(Trim(url));
              (AllowedUrlStart(t) ==> r == t) && (!AllowedUrlStart(t) ==> r == "https://" + t)
  {
    if url == "" then ""
    else
      var sanitized := SanitizeString(Trim(url));
      if AllowedUrlStart(sanitized) then sanitized
      else
        var r := "https://" + sanitized;
        assert r[..8] == "https://";
        r
  }

  /** `sanitizeURL(url)` on any value: a falsy value gives `''`, any other
      non-string throws at `url.trim()`, and a string is handled as
      `SanitizeUrl` does. */
  function SanitizeUrlValue(url: Json): (r: Result<string>)
    ensures r.Failure? <==> TruthyJson(url) && !(url.JPrim? && url.p.Str?)
    ensures r.Failure? ==> r.error == TypeError
    ensures !TruthyJson(url) ==> r == Success("")
    ensures url.JPrim? && url.p.Str? ==> r == Success(SanitizeUrl(url.p.s))
    ensures r.Success? && r.value != "" ==> AllowedUrlStart(r.value)
  {
    if !TruthyJson(url) then Success("")
    else
      match url
      case JPrim(Str(s)) => Success(SanitizeUrl(s))
      case _ => Failure(TypeError)
  }

  /** A clean URL that already has an allowed start comes back unchanged. */
  lemma CleanPrefixedUrlUnchanged(url: string)
    requires Clean(url) && AllowedUrlStart(url)
    ensures SanitizeUrl(url) == url
  {
    TrimOfTrimmed(url);
    CleanIsFixedPoint(url);
  }

  /** The same for the character-level condition. */
  lemma PlainPrefixedUrlUnchanged(url: string)
    requires Plain(url) && AllowedUrlStart(url)
    ensures SanitizeUrl(url) == url
  {
    TrimOfTrimmed(url);
    PlainKept(url);
  }

  /** A plain text without an allowed start gets the `https://` scheme. */
  lemma PlainUrlGetsScheme(url: string)
    requires url != "" && Plain(url) && !AllowedUrlStart(url)
    ensures SanitizeUrl(url) == "https://" + url
  {
    TrimOfTrimmed(url);
    PlainKept(url);
  }
}

=== FILE: sanitize_examples.dfy ===
/** The sanitizers on the sample inputs their unit tests use.  Each lemma
    takes the sample as a parameter fixed by its `requires`; the facts about
    the individual characters of a sample are kept in lemmas of their own. */
module SanitizeExamples {
  import opened Wrappers
  import opened Text
  import opened Sanitize

  /** The script call used as the payload of the dangerous samples. */
  const Payload := "alert(\"xss\")"

  lemma PayloadPlain()
    ensures Plain(Payload) && !AllowedUrlStart(Payload)
  {
    PayloadPlainChars();
    assert Payload[0] == 'a';
  }

  lemma PayloadPlainChars()
    ensures Plain(Payload)
  {
    assert Payload[0] == 'a' && Payload[|Payload| - 1] == ')';
  }

  // ---------------------------------------------------------------------
  // sanitizeInput

  /** `javascript:alert("xss")` loses its protocol. */
  lemma ProtocolRemoved(s: string)
    requires s == "javascript:" + Payload
    ensures SanitizeString(s) == Payload
  {
    PayloadPlain();
    LeadingProtocolDropped(Payload);
  }

  lemma HandlerSampleFacts(s: string)
    requires s == "onclick=" + Payload
    ensures '<' !in s && '>' !in s && NoLetterJ(s)
    ensures HandlerAtStart(s) == Some(8) && s[8..] == Payload
  {
    assert WordRunEnd(s, 7) == 7;
    assert WordRunEnd(s, 2) == 7;
  }

  /** `onclick=alert("xss")` loses its handler. */
  lemma HandlerRemoved(s: string)
    requires s == "onclick=" + Payload
    ensures SanitizeString(s) == Payload
  {
    HandlerSampleFacts(s);
    PayloadPlain();
    LeadingHandlerDropped(s, 8);
  }

  lemma TagSampleAngles(s: string)
    requires s == "<script>" + Payload + "</script>"
    ensures DeleteAngles(s) == "script" + Payload + "/script"
  {
    assert "<script>" == "<" + "script" + ">";
    assert "</script>" == "<" + "/script" + ">";
    assert '<' !in "script" && '>' !in "script" && '<' !in "/script" && '>' !in "/script";
    PayloadPlain();
    BracketsDropped("script");
    BracketsDropped("/script");
    DeleteAnglesKeeps(Payload);
    DeleteAnglesAppend("<script>", Payload);
    DeleteAnglesAppend("<script>" + Payload, "</script>");
  }

  lemma TagRemainderPlain(t: string)
    requires t == "script" + Payload + "/script"
    ensures Plain(t)
  {
    assert forall k :: 0 <= k < |t| ==> PlainChar(t[k]);
    assert NoOnPair(t);
    assert Trimmed(t);
  }

  /** `<script>alert("xss")</script>` keeps everything but its brackets. */
  lemma TagBracketsRemoved(s: string)
    requires s == "<script>" + Payload + "</script>"
    ensures SanitizeString(s) == "script" + Payload + "/script"
  {
    TagSampleAngles(s);
    TagRemainderPlain("script" + Payload + "/script");
    AnglesOnlyRemoved(s);
  }

  /** No protocol starts in the first four characters of
      `java` + `javascript:` + `script:` + rest. */
  lemma RecreationFacts(rest: string)
    ensures var s := "java" + "javascript:" + "script:" + rest;
            && NoProtocolBefore(s, 4)
            && s[..4] == "java" && s[4..] == "javascript:" + ("script:" + rest)
  {
    var s := "java" + "javascript:" + "script:" + rest;
    forall i | 0 <= i < 4
      ensures !JavascriptAtStart(s[i..])
    {
      if i == 0 {
        assert ToLower(s[..11])[4] == LowerChar(s[4]) == 'j';
      } else {
        assert ToLower(s[i..][..11])[0] == LowerChar(s[i]) != 'j';
      }
    }
  }

  /** One pass of the protocol deletion joins `java` and `script:` into a
      new protocol. */
  lemma ProtocolRecreated(rest: string)
    requires NoLetterJ(rest)
    ensures DeleteJavascript("java" + "javascript:" + "script:" + rest) == "javascript:" + rest
  {
    var s := "java" + "javascript:" + "script:" + rest;
    RecreationFacts(rest);
    DeleteJavascriptSkips(s, 4);
    JavascriptPrefixDropped("script:" + rest);
    ScriptTailKept(rest);
    JavaJoin(rest);
  }

  lemma JavaJoin(rest: string)
    ensures "java" + ("script:" + rest) == "javascript:" + rest
  {
  }

  lemma ScriptTailKept(rest: string)
    requires NoLetterJ(rest)
    ensures DeleteJavascript("script:" + rest) == "script:" + rest
  {
    var t := "script:" + rest;
    assert forall i :: 7 <= i < |t| ==> t[i] == rest[i - 7];
    NoLetterJKeeps(t);
  }

  lemma RecreatedFacts(r: string)
    requires r == "javascript:x"
    ensures '<' !in r && '>' !in r && NoOnPair(r) && Trimmed(r)
    ensures r == "javascript:" + "x" && Plain("x")
  {
  }

  /** What one pass re-creates, the following passes keep. */
  lemma RecreatedSurvives(s: string)
    requires s == "java" + "javascript:" + "script:x"
    ensures SanitizeString(s) == "javascript:x"
  {
    assert '<' !in s && '>' !in s;
    DeleteAnglesKeeps(s);
    assert s == "java" + "javascript:" + "script:" + "x";
    ProtocolRecreated("x");
    RecreatedFacts("javascript:x");
    NoOnPairKeeps("javascript:x");
    TrimOfTrimmed("javascript:x");
  }

  /** So the sanitized text can still hold `javascript:`, and sanitizing it
      again changes it. */
  lemma SanitizeInputNotIdempotent(s: string)
    requires s == "java" + "javascript:" + "script:x"
    ensures SanitizeString(s) == "javascript:x"
    ensures SanitizeString(SanitizeString(s)) == "x"
  {
    RecreatedSurvives(s);
    RecreatedFacts("javascript:x");
    LeadingProtocolDropped("x");
  }

  // ---------------------------------------------------------------------
  // sanitizeEmail

  /** The sample address in lower case. */
  const Address := "test@example.com"

  lemma AddressFacts(a: string)
    requires a == Address
    ensures Plain(a) && EmailPattern(a) && |a| > 0
  {
    AddressPlain(a);
    AddressShape(a);
  }

  lemma AddressShape(a: string)
    requires a == Address
    ensures EmailPattern(a)
  {
    forall k | 0 <= k < |a|
      ensures !IsSpace(a[k])
      ensures k != 4 ==> a[k] != '@'
    {
      assert '!' <= a[k] <= '~';
    }
    assert a[4] == '@' && a[12] == '.';
  }

  lemma AddressPlain(a: string)
    requires a == Address
    ensures Plain(a)
  {
    assert forall k :: 0 <= k < |a| ==> PlainChar(a[k]);
    assert NoOnPair(a);
    assert Trimmed(a);
  }

  lemma UpperAddressLowered(email: string)
    requires email == "  " + "TEST@EXAMPLE.COM" + "  "
    ensures ToLower(email) == "  " + Address + "  "
  {
  }

  /** `  TEST@EXAMPLE.COM  ` becomes `test@example.com`. */
  lemma AddressNormalised(email: string)
    requires email == "  " + "TEST@EXAMPLE.COM" + "  "
    ensures SanitizeEmail(email) == Address
  {
    UpperAddressLowered(email);
    AddressFacts(Address);
    assert AllSpace("  ");
    TrimPadded("  ", Address, "  ");
    PlainKept(Address);
    EmailOfSanitized(email, Address);
  }

  /** `invalid` and `test@` are refused: one lacks the `@`, the other the `.`. */
  lemma MissingPartsRefused(a: string, b: string)
    requires a == "invalid" && b == "test@"
    ensures SanitizeEmail(a) == "" && SanitizeEmail(b) == ""
  {
    assert '@' !in a && '.' !in b;
    EmailNeedsAtAndDot(a);
    EmailNeedsAtAndDot(b);
  }

  lemma LeadingAtFacts(email: string)
    requires email == "@example.com"
    ensures Plain(email) && NoUpper(email) && !EmailPattern(email)
  {
    LeadingAtPlain(email);
    assert forall i | 0 < i < |email| :: email[i] != '@';
  }

  lemma LeadingAtPlain(email: string)
    requires email == "@example.com"
    ensures Plain(email) && NoUpper(email)
  {
    assert email[0] == '@' && email[|email| - 1] == 'm';
  }

  /** `@example.com` is refused: nothing precedes the `@`. */
  lemma LeadingAtRefused(email: string)
    requires email == "@example.com"
    ensures SanitizeEmail(email) == ""
  {
    LeadingAtFacts(email);
    PlainNonAddressRefused(email);
  }

  lemma DangerousAddressFacts(email: string, r: string)
    requires email == "<script>" + Payload + "</script>" + "@example.com"
    requires r == "script" + Payload + "/script" + "@example.com"
    ensures ToLower(email) == email && Trimmed(email)
    ensures '<' !in "@example.com" && '>' !in "@example.com"
  {
    assert email[0] == '<' && email[|email| - 1] == 'm';
  }

  lemma StrippedAddressPlain(r: string)
    requires r == "script" + Payload + "/script" + "@example.com"
    ensures Plain(r)
  {
    var t := "script" + Payload + "/script";
    TagRemainderPlain(t);
    DomainPlain("@example.com");
    assert t[|t| - 1] == 't';
    PlainJoin(t, "@example.com");
  }

  lemma DomainPlain(d: string)
    requires d == "@example.com"
    ensures Plain(d) && d[0] == '@'
  {
    assert forall k :: 0 <= k < |d| ==> PlainChar(d[k]);
    assert NoOnPair(d);
  }

  lemma StrippedAddressShape(r: string)
    requires r == "script" + Payload + "/script" + "@example.com"
    ensures EmailPattern(r)
  {
    forall k | 0 <= k < |r|
      ensures !IsSpace(r[k])
      ensures k != 25 ==> r[k] != '@'
    {
      assert '!' <= r[k] <= '~';
    }
    assert r[25] == '@' && r[33] == '.';
  }

  /** Markup around the local part is not refused: the brackets go and what
      is left still has the shape of an address. */
  lemma DangerousAddressKept(email: string)
    requires email == "<script>" + Payload + "</script>" + "@example.com"
    ensures SanitizeEmail(email) == "script" + Payload + "/script" + "@example.com"
  {
    var tagged := "<script>" + Payload + "</script>";
    var r := "script" + Payload + "/script" + "@example.com";
    DangerousAddressFacts(email, r);
    TrimOfTrimmed(email);
    TagSampleAngles(tagged);
    DeleteAnglesKeeps("@example.com");
    DeleteAnglesAppend(tagged, "@example.com");
    StrippedAddressPlain(r);
    StrippedAddressShape(r);
    AnglesOnlyRemoved(email);
    EmailOfSanitized(email, r);
  }

  // ---------------------------------------------------------------------
  // sanitizeURL

  lemma AbsoluteUrlFacts(a: string, b: string)
    requires a == "https://example.com" && b == "http://example.com"
    ensures Plain(a) && AllowedUrlStart(a) && Plain(b) && AllowedUrlStart(b)
  {
    SecureUrlFacts(a);
    assert b[..7] == "http://";
    assert forall k :: 0 <= k < |b| ==> PlainChar(b[k]);
    assert NoOnPair(b);
  }

  lemma SecureUrlFacts(a: string)
    requires a == "https://example.com"
    ensures Plain(a) && AllowedUrlStart(a)
  {
    assert a[..8] == "https://";
    assert forall k :: 0 <= k < |a| ==> PlainChar(a[k]);
    assert NoOnPair(a);
  }

  lemma RelativeUrlFacts(c: string, d: string)
    requires c == "/relative/path" && d == "#anchor"
    ensures Plain(c) && AllowedUrlStart(c) && Plain(d) && AllowedUrlStart(d)
  {
    assert c[..1] == "/" && d[..1] == "#";
  }

  /** The four accepted forms come back unchanged. */
  lemma AllowedUrlsUnchanged(a: string, b: string, c: string, d: string)
    requires a == "https://example.com" && b == "http://example.com"
    requires c == "/relative/path" && d == "#anchor"
    ensures SanitizeUrl(a) == a && SanitizeUrl(b) == b
    ensures SanitizeUrl(c) == c && SanitizeUrl(d) == d
  {
    AbsoluteUrlFacts(a, b);
    RelativeUrlFacts(c, d);
    PlainPrefixedUrlUnchanged(a);
    PlainPrefixedUrlUnchanged(b);
    PlainPrefixedUrlUnchanged(c);
    PlainPrefixedUrlUnchanged(d);
  }

  lemma HostFacts(url: string)
    requires url == "example.com"
    ensures url != "" && Plain(url) && !AllowedUrlStart(url)
  {
    HostPlain(url);
    assert url[0] == 'e';
  }

  lemma HostPlain(url: string)
    requires url == "example.com"
    ensures Plain(url)
  {
    assert url[0] == 'e' && url[|url| - 1] == 'm';
  }

  /** `example.com` gets the `https://` scheme. */
  lemma HostGetsScheme(url: string)
    requires url == "example.com"
    ensures SanitizeUrl(url) == "https://example.com"
  {
    HostFacts(url);
    PlainUrlGetsScheme(url);
  }

  /** `javascript:alert("xss")` loses its protocol and is sent to `https://`. */
  lemma ProtocolUrlRewritten(url: string)
    requires url == "javascript:" + Payload
    ensures SanitizeUrl(url) == "https://" + Payload
  {
    assert url[0] == 'j' && url[|url| - 1] == ')';
    TrimOfTrimmed(url);
    ProtocolRemoved(url);
    PayloadPlain();
  }
}

=== FILE: seqs.dfy ===
/** `Array.prototype.filter` as a reference definition, with the facts the
    list operations of the model are stated against. */
module Seqs {
  import opened Text

  /** `s.filter(p)`: the elements satisfying `p`, in their original order. */
  function Filter<T>(p: T -> bool, s: seq<T>): (r: seq<T>)
    ensures |r| <= |s|
    ensures forall i :: 0 <= i < |r| ==> p(r[i])
    decreases |s|
  {
    if |s| == 0 then []
    else if p(s[0]) then [s[0]] + Filter(p, s[1..])
    else Filter(p, s[1..])
  }

  /** An element survives exactly when it was there and satisfies `p`. */
  lemma {:induction false} FilterMembership<T>(p: T -> bool, s: seq<T>, x: T)
    ensures x in Filter(p, s) <==> x in s && p(x)
    decreases |s|
  {
    if |s| > 0 {
      FilterMembership(p, s[1..], x);
      assert s == [s[0]] + s[1..];
    }
  }

  /** The survivors keep their relative order. */
  lemma {:induction false} FilterSubsequence<T>(p: T -> bool, s: seq<T>)
    ensures IsSubsequence(Filter(p, s), s)
    decreases |s|
  {
    if |s| > 0 {
      FilterSubsequence(p, s[1..]);
      if p(s[0]) {
        SubsequenceCons(s[0], Filter(p, s[1..]), s[1..]);
        assert [s[0]] + s[1..] == s;
      } else {
        SubsequenceExtend(Filter(p, s[1..]), s);
      }
    }
  }

  /** Nothing is dropped when every element passes. */
  lemma {:induction false} FilterKeepsAll<T>(p: T -> bool, s: seq<T>)
    requires forall i :: 0 <= i < |s| ==> p(s[i])
    ensures Filter(p, s) == s
    decreases |s|
  {
    if |s| > 0 {
      FilterKeepsAll(p, s[1..]);
      assert [s[0]] + s[1..] == s;
    }
  }

  /** Filtering distributes over concatenation. */
  lemma {:induction false} FilterAppend<T>(p: T -> bool, a: seq<T>, b: seq<T>)
    ensures Filter(p, a + b) == Filter(p, a) + Filter(p, b)
    decreases |a|
  {
    if |a| == 0 {
      assert a + b == b;
    } else {
      assert (a + b)[1..] == a[1..] + b;
      FilterAppend(p, a[1..], b);
    }
  }

  /** Filtering twice is filtering once by both tests. */
  lemma {:induction false} FilterTwice<T>(p: T -> bool, q: T -> bool, s: seq<T>)
    ensures Filter(p, Filter(q, s)) == Filter(x => q(x) && p(x), s)
    decreases |s|
  {
    if |s| > 0 {
      FilterTwice(p, q, s[1..]);
    }
  }

  /** Each element is kept as often as it occurs, when it passes, and
      dropped entirely otherwise. */
  lemma {:induction false} FilterCount<T>(p: T -> bool, s: seq<T>, x: T)
    ensures multiset(Filter(p, s))[x] == if p(x) then multiset(s)[x] else 0
    decreases |s|
  {
    if |s| > 0 {
      FilterCount(p, s[1..], x);
      assert s == [s[0]] + s[1..];
    }
  }

  lemma FilterCounts<T>(p: T -> bool, s: seq<T>)
    ensures forall x :: multiset(Filter(p, s))[x] == if p(x) then multiset(s)[x] else 0
  {
    forall x ensures multiset(Filter(p, s))[x] == if p(x) then multiset(s)[x] else 0 {
      FilterCount(p, s, x);
    }
  }
}

=== FILE: text.dfy ===
/** String primitives of JavaScript that the modelled code relies on, stated
    over `seq<char>`: the `\s` and `\w` character classes, `trim`, ASCII
    `toLowerCase`, `includes`, `startsWith`, `split` with a string separator,
    and the decimal rendering of integers.  Also the "obtained by deletions
    only" relation used to describe the sanitizers. */
module Text {
  import opened Wrappers

  /** A character in JavaScript's `\s` class; `String.prototype.trim` strips
      exactly these (WhiteSpace and LineTerminator of ECMA-262). */
  predicate IsSpace(c: char) {
    || c == ' ' || c == '\t' || c == '\n' || c == '\r' || c == '\U{000B}' || c == '\U{000C}'
    || c == '\U{00A0}' || c == '\U{1680}' || ('\U{2000}' <= c <= '\U{200A}')
    || c == '\U{2028}' || c == '\U{2029}' || c == '\U{202F}' || c == '\U{205F}'
    || c == '\U{3000}' || c == '\U{FEFF}'
  }

  /** A character in JavaScript's `\w` class (also under the `i` flag). */
  predicate IsWordChar(c: char) {
    ('a' <= c <= 'z') || ('A' <= c <= 'Z') || ('0' <= c <= '9') || c == '_'
  }

  predicate IsDigit(c: char) {
    '0' <= c <= '9'
  }

  predicate IsUpper(c: char) {
    'A' <= c <= 'Z'
  }

  predicate NoSpace(s: string) {
    forall i :: 0 <= i < |s| ==> !IsSpace(s[i])
  }

  /** Neither the first nor the last character is white space. */
  predicate Trimmed(s: string) {
    |s| == 0 || (!IsSpace(s[0]) && !IsSpace(s[|s| - 1]))
  }

  // ---------------------------------------------------------------------
  // Case folding (ASCII letters only)

  function LowerChar(c: char): (r: char)
    ensures !IsUpper(r)
    ensures !IsUpper(c) ==> r == c
    ensures IsSpace(r) <==> IsSpace(c)
  {
    if IsUpper(c) then (c as int + 32) as char else c
  }

  function ToLower(s: string): (r: string)
    ensures |r| == |s|
    ensures forall i :: 0 <= i < |s| ==> r[i] == LowerChar(s[i])
  {
    seq(|s|, i requires 0 <= i < |s| => LowerChar(s[i]))
  }

  predicate NoUpper(s: string) {
    forall i :: 0 <= i < |s| ==> !IsUpper(s[i])
  }

  lemma ToLowerNoUpper(s: string)
    ensures NoUpper(ToLower(s))
    ensures ToLower(ToLower(s)) == ToLower(s)
  {
  }

  /** Lower-casing text without capitals changes nothing. */
  lemma NoUpperLowered(s: string)
    requires NoUpper(s)
    ensures ToLower(s) == s
  {
  }

  // ---------------------------------------------------------------------
  // Trimming

  /** The index of the first non-white-space character at or after `i`
      (or `|s|`). */
  function SkipSpaces(s: string, i: nat): (r: nat)
    requires i <= |s|
    ensures i <= r <= |s|
    ensures forall m :: i <= m < r ==> IsSpace(s[m])
    ensures r < |s| ==> !IsSpace(s[r])
    decreases |s| - i
  {
    if i < |s| && IsSpace(s[i]) then SkipSpaces(s, i + 1) else i
  }

  /** The end of `s[lo..j]` once trailing white space is dropped. */
  function BackSpaces(s: string, lo: nat, j: nat): (r: nat)
    requires lo <= j <= |s|
    ensures lo <= r <= j
    ensures forall m :: r <= m < j ==> IsSpace(s[m])
    ensures r > lo ==> !IsSpace(s[r - 1])
    decreases j
  {
    if j > lo && IsSpace(s[j - 1]) then BackSpaces(s, lo, j - 1) else j
  }

  /** How many white-space characters `trim` removes at the front. */
  function LeadingSpaces(s: string): (n: nat)
    ensures n <= |s|
  {
    SkipSpaces(s, 0)
  }

  /** `String.prototype.trim`: the result is the slice of `s` left after
      removing the white space at both ends. */
  function Trim(s: string): (r: string)
    ensures Trimmed(r)
    ensures LeadingSpaces(s) + |r| <= |s|
    ensures r == s[LeadingSpaces(s)..LeadingSpaces(s) + |r|]
    ensures forall m :: 0 <= m < LeadingSpaces(s) ==> IsSpace(s[m])
    ensures forall m :: LeadingSpaces(s) + |r| <= m < |s| ==> IsSpace(s[m])
  {
    var l := SkipSpaces(s, 0);
    var e := BackSpaces(s, l, |s|);
    var r := s[l..e];
    assert |r| > 0 ==> r[0] == s[l] && r[|r| - 1] == s[e - 1];
    r
  }

  lemma TrimOfTrimmed(s: string)
    requires Trimmed(s)
    ensures Trim(s) == s
  {
  }

  predicate AllSpace(s: string) {
    forall i :: 0 <= i < |s| ==> IsSpace(s[i])
  }

  /** `trim` removes exactly the white-space padding around a trimmed,
      non-empty text. */
  lemma TrimPadded(p: string, x: string, q: string)
    requires AllSpace(p) && AllSpace(q)
    requires |x| > 0 && Trimmed(x)
    ensures Trim(p + x + q) == x
  {
    var s := p + x + q;
    var r := Trim(s);
    var l := LeadingSpaces(s);
    assert s[|p|] == x[0];
    assert s[|p| + |x| - 1] == x[|x| - 1];
    assert l == |p|;
    assert r == s[|p|..|p| + |x|];
    assert s[|p|..|p| + |x|] == x;
  }

  lemma TrimIsSubsequence(s: string)
    ensures IsSubsequence(Trim(s), s)
  {
    var r := Trim(s);
    SliceIsSubsequence(s, LeadingSpaces(s), LeadingSpaces(s) + |r|);
  }

  // ---------------------------------------------------------------------
  // Substrings

  /** `t` occurs in `s` starting at index `k`. */
  predicate OccursAt(s: string, t: string, k: int) {
    0 <= k && k + |t| <= |s| && s[k..k + |t|] == t
  }

  /** `s.includes(t)` */
  predicate Contains(s: string, t: string) {
    exists k | 0 <= k <= |s| - |t| :: OccursAt(s, t, k)
  }

  /** `s.startsWith(t)` */
  predicate StartsWith(s: string, t: string) {
    |t| <= |s| && s[..|t|] == t
  }

  lemma ContainsIff(s: string, t: string)
    ensures Contains(s, t) <==> exists k :: OccursAt(s, t, k)
  {
  }

  lemma ContainsSelf(s: string)
    ensures Contains(s, s)
  {
    assert OccursAt(s, s, 0);
  }

  lemma ContainsEmpty(s: string)
    ensures Contains(s, [])
  {
    assert OccursAt(s, [], 0);
  }

  /** The first index at or after `from` where `t` occurs in `s`. */
  function FindFrom(s: string, t: string, from: nat): (r: Option<nat>)
    ensures r.Some? ==> from <= r.value && OccursAt(s, t, r.value)
    ensures r.Some? ==> forall k :: from <= k < r.value ==> !OccursAt(s, t, k)
    ensures r.None? ==> forall k :: from <= k ==> !OccursAt(s, t, k)
    decreases |s| - from
  {
    if from + |t| > |s| then None
    else if s[from..from + |t|] == t then Some(from)
    else FindFrom(s, t, from + 1)
  }

  /** `s.indexOf(t)`, with `None` for -1. */
  function IndexOf(s: string, t: string): (r: Option<nat>)
    ensures r.Some? ==> OccursAt(s, t, r.value) && forall k :: 0 <= k < r.value ==> !OccursAt(s, t, k)
    ensures r.None? <==> !Contains(s, t)
  {
    ContainsIff(s, t);
    FindFrom(s, t, 0)
  }

  // ---------------------------------------------------------------------
  // split / join

  /** `s.split(sep)` for a non-empty separator string: occurrences are found
      left to right and do not overlap. */
  function Split(s: string, sep: string): (parts: seq<string>)
    requires |sep| > 0
    ensures |parts| >= 1
    ensures forall p | p in parts :: !Contains(p, sep)
    ensures Join(parts, sep) == s
    decreases |s|
  {
    match IndexOf(s, sep)
    case None => [s]
    case Some(i) =>
      var rest := Split(s[i + |sep|..], sep);
      assert !Contains(s[..i], sep) by {
        if Contains(s[..i], sep) {
          ContainsIff(s[..i], sep);
          var k :| OccursAt(s[..i], sep, k);
          assert s[k..k + |sep|] == s[..i][k..k + |sep|];
          assert OccursAt(s, sep, k);
        }
      }
      assert s == s[..i] + sep + s[i + |sep|..];
      [s[..i]] + rest
  }

  /** An occurrence after the first one is an occurrence in the text the
      split continues with. */
  lemma OccursAfter(s: string, t: string, f: nat, j: nat)
    requires OccursAt(s, t, j) && f + |t| <= j
    ensures OccursAt(s[f + |t|..], t, j - f - |t|)
  {
    var rest := s[f + |t|..];
    assert rest[j - f - |t|..j - f] == s[j..j + |t|];
  }

  /** Two occurrences that do not overlap split the text in three parts or
      more. */
  lemma SplitTwice(s: string, sep: string, i: nat, j: nat)
    requires |sep| > 0 && OccursAt(s, sep, i) && OccursAt(s, sep, j) && i + |sep| <= j
    ensures |Split(s, sep)| >= 3
  {
    assert Contains(s, sep);
    var f := IndexOf(s, sep).value;
    var rest := s[f + |sep|..];
    OccursAfter(s, sep, f, j);
    assert Contains(rest, sep);
    assert IndexOf(rest, sep).Some?;
    assert |Split(rest, sep)| >= 2;
    assert Split(s, sep) == [s[..f]] + Split(rest, sep);
  }

  /** `parts.join(sep)` */
  function Join(parts: seq<string>, sep: string): string
    requires |parts| >= 1
    decreases |parts|
  {
    if |parts| == 1 then parts[0] else parts[0] + sep + Join(parts[1..], sep)
  }

  /** The text before the first `c`, or all of `s` when there is none:
      `s.split(c).shift()` for a one-character separator. */
  function UpTo(s: string, c: char): (r: string)
    ensures |r| <= |s| && r == s[..|r|]
    ensures c !in r
    ensures |r| < |s| ==> s[|r|] == c
  {
    if |s| == 0 || s[0] == c then [] else [s[0]] + UpTo(s[1..], c)
  }

  // ---------------------------------------------------------------------
  // Decimal numerals

  function DigitChar(d: nat): (c: char)
    requires d < 10
    ensures IsDigit(c)
  {
    ('0' as int + d) as char
  }

  function DigitValue(c: char): nat
    requires IsDigit(c)
  {
    c as int - '0' as int
  }

  /** `String(n)` for a non-negative integer: no leading zeros. */
  function NatToDecimal(n: nat): (s: string)
    ensures |s| >= 1
    ensures forall i :: 0 <= i < |s| ==> IsDigit(s[i])
    ensures s[0] == '0' ==> n == 0
    ensures n < 10 <==> |s| == 1
    decreases n
  {
    if n < 10 then [DigitChar(n)] else NatToDecimal(n / 10) + [DigitChar(n % 10)]
  }

  /** `String(n)` for any integer */
  function IntToDecimal(n: int): string {
    if n < 0 then "-" + NatToDecimal(-n) else NatToDecimal(n)
  }

  /** The value of a string of decimal digits. */
  function DecimalValue(s: string): nat
    requires forall i :: 0 <= i < |s| ==> IsDigit(s[i])
  {
    if |s| == 0 then 0 else 10 * DecimalValue(s[..|s| - 1]) + DigitValue(s[|s| - 1])
  }

  lemma {:induction false} DecimalRoundTrip(n: nat)
    ensures DecimalValue(NatToDecimal(n)) == n
    decreases n
  {
    if n >= 10 {
      var s := NatToDecimal(n);
      assert s[..|s| - 1] == NatToDecimal(n / 10);
      DecimalRoundTrip(n / 10);
    }
  }

  // ---------------------------------------------------------------------
  // UTF-16: JavaScript strings are sequences of 16-bit code units

  /** A character of the Basic Multilingual Plane: one code unit. */
  predicate BmpChar(c: char) {
    c as int < 0x1_0000
  }

  /** The UTF-16 code units of one character: itself, or a high surrogate
      followed by a low surrogate. */
  function CodeUnits(c: char): (u: seq<int>)
    ensures |u| == if BmpChar(c) then 1 else 2
    ensures forall k :: 0 <= k < |u| ==> 0 <= u[k] < 0x1_0000
    ensures BmpChar(c) ==> u[0] == c as int && !(0xD800 <= u[0] < 0xE000)
    ensures !BmpChar(c) ==> 0xD800 <= u[0] < 0xDC00 && 0xDC00 <= u[1] < 0xE000
  {
    var v := c as int;
    if v < 0x1_0000 then [v]
    else [0xD800 + (v - 0x1_0000) / 0x400, 0xDC00 + (v - 0x1_0000) % 0x400]
  }

  /** A surrogate pair decodes back to the character it encodes. */
  lemma SurrogatePairDecodes(c: char)
    requires !BmpChar(c)
    ensures 0x1_0000 + (CodeUnits(c)[0] - 0xD800) * 0x400 + (CodeUnits(c)[1] - 0xDC00) == c as int
  {
  }

  /** Two different characters differ at some code unit, with equal units
      before it. */
  lemma CodeUnitsDiffer(c: char, d: char) returns (k: nat)
    requires c != d
    ensures k < |CodeUnits(c)| && k < |CodeUnits(d)|
    ensures CodeUnits(c)[k] != CodeUnits(d)[k]
    ensures CodeUnits(c)[..k] == CodeUnits(d)[..k]
  {
    if BmpChar(c) || BmpChar(d) || CodeUnits(c)[0] != CodeUnits(d)[0] {
      k := 0;
    } else {
      SurrogatePairDecodes(c);
      SurrogatePairDecodes(d);
      k := 1;
    }
  }

  /** The code units of a string. */
  function Utf16(s: string): (u: seq<int>)
    ensures |s| <= |u| <= 2 * |s|
    ensures |u| == |s| <==> forall i :: 0 <= i < |s| ==> BmpChar(s[i])
    decreases |s|
  {
    if |s| == 0 then []
    else
      var u := CodeUnits(s[0]) + Utf16(s[1..]);
      assert forall i :: 1 <= i < |s| ==> s[i] == s[1..][i - 1];
      u
  }

  /** `s.length`: the number of UTF-16 code units. */
  function Utf16Length(s: string): (n: nat)
    ensures |s| <= n <= 2 * |s|
    ensures n == |s| <==> forall i :: 0 <= i < |s| ==> BmpChar(s[i])
  {
    |Utf16(s)|
  }

  /** Different strings have different code units. */
  lemma {:induction false} Utf16Injective(a: string, b: string)
    ensures Utf16(a) == Utf16(b) ==> a == b
    decreases |a|
  {
    if |a| > 0 && |b| > 0 {
      if a[0] != b[0] {
        var k := CodeUnitsDiffer(a[0], b[0]);
        assert Utf16(a)[k] == CodeUnits(a[0])[k];
        assert Utf16(b)[k] == CodeUnits(b[0])[k];
      } else {
        Utf16Injective(a[1..], b[1..]);
        var n := |CodeUnits(a[0])|;
        if Utf16(a) == Utf16(b) {
          assert Utf16(a[1..]) == Utf16(a)[n..];
          assert Utf16(b[1..]) == Utf16(b)[n..];
          assert a == [a[0]] + a[1..] && b == [b[0]] + b[1..];
        }
      }
    }
  }

  /** Deleting characters never lengthens a string in code units. */
  lemma {:induction false} SubsequenceUtf16Length(a: string, b: string)
    requires IsSubsequence(a, b)
    ensures Utf16Length(a) <= Utf16Length(b)
    decreases |b|
  {
    if |a| > 0 {
      if a[0] == b[0] {
        SubsequenceUtf16Length(a[1..], b[1..]);
      } else {
        SubsequenceUtf16Length(a, b[1..]);
      }
    }
  }

  // ---------------------------------------------------------------------
  // Deletion-only transformations

  /** `a` is obtained from `b` by deleting characters (greedy left-to-right
      matching decides it). */
  predicate IsSubsequence<T(==)>(a: seq<T>, b: seq<T>)
    decreases |b|
  {
    if |a| == 0 then true
    else if |b| == 0 then false
    else if a[0] == b[0] then IsSubsequence(a[1..], b[1..])
    else IsSubsequence(a, b[1..])
  }

  lemma {:induction false} SubsequenceLength<T>(a: seq<T>, b: seq<T>)
    requires IsSubsequence(a, b)
    ensures |a| <= |b|
    decreases |b|
  {
    if |a| > 0 {
      if a[0] == b[0] {
        SubsequenceLength(a[1..], b[1..]);
      } else {
        SubsequenceLength(a, b[1..]);
      }
    }
  }

  /** Deleting never introduces an element. */
  lemma {:induction false} SubsequenceElements<T>(a: seq<T>, b: seq<T>)
    requires IsSubsequence(a, b)
    ensures forall x | x in a :: x in b
    decreases |b|
  {
    if |a| > 0 {
      if a[0] == b[0] {
        SubsequenceElements(a[1..], b[1..]);
        assert a == [a[0]] + a[1..];
        assert b == [b[0]] + b[1..];
      } else {
        SubsequenceElements(a, b[1..]);
        assert b == [b[0]] + b[1..];
      }
    }
  }

  lemma {:induction false} SubsequenceRefl<T>(a: seq<T>)
    ensures IsSubsequence(a, a)
    decreases |a|
  {
    if |a| > 0 {
      SubsequenceRefl(a[1..]);
    }
  }

  /** Dropping the head of the shorter sequence keeps it a subsequence. */
  lemma {:induction false} SubsequenceTail<T>(a: seq<T>, b: seq<T>)
    requires |a| > 0 && IsSubsequence(a, b)
    ensures IsSubsequence(a[1..], b)
    decreases |b|, 1
  {
    if a[0] == b[0] {
      SubsequenceExtend(a[1..], b);
    } else {
      SubsequenceTail(a, b[1..]);
      SubsequenceExtend(a[1..], b);
    }
  }

  /** A subsequence of `b[1..]` is a subsequence of `b`. */
  lemma {:induction false} SubsequenceExtend<T>(a: seq<T>, b: seq<T>)
    requires |b| > 0 && IsSubsequence(a, b[1..])
    ensures IsSubsequence(a, b)
    decreases |b|, 0
  {
    if |a| > 0 && a[0] == b[0] {
      SubsequenceTail(a, b[1..]);
    }
  }

  lemma {:induction false} SubsequenceDrop<T>(a: seq<T>, b: seq<T>, k: nat)
    requires k <= |b| && IsSubsequence(a, b[k..])
    ensures IsSubsequence(a, b)
    decreases k
  {
    if k > 0 {
      assert b[k..] == b[k - 1..][1..];
      SubsequenceExtend(a, b[k - 1..]);
      SubsequenceDrop(a, b, k - 1);
    }
  }

  lemma {:induction false} SubsequenceCons<T>(x: T, a: seq<T>, b: seq<T>)
    requires IsSubsequence(a, b)
    ensures IsSubsequence([x] + a, [x] + b)
  {
    assert ([x] + a)[1..] == a;
    assert ([x] + b)[1..] == b;
  }

  lemma {:induction false} SubsequenceTrans<T>(a: seq<T>, b: seq<T>, c: seq<T>)
    requires IsSubsequence(a, b) && IsSubsequence(b, c)
    ensures IsSubsequence(a, c)
    decreases |c|
  {
    if |a| > 0 {
      if b[0] == c[0] {
        if a[0] == b[0] {
          SubsequenceTrans(a[1..], b[1..], c[1..]);
        } else {
          SubsequenceTrans(a, b[1..], c[1..]);
        }
      } else {
        SubsequenceTrans(a, b, c[1..]);
        if a[0] == c[0] {
          SubsequenceTail(a, c[1..]);
        }
      }
    }
  }

  lemma {:induction false} SliceIsSubsequence<T>(s: seq<T>, i: nat, j: nat)
    requires i <= j <= |s|
    ensures IsSubsequence(s[i..j], s)
    decreases |s| - j
  {
    if j == |s| {
      assert s[i..j] == s[i..];
      SubsequenceRefl(s[i..]);
      SubsequenceDrop(s[i..], s, i);
    } else {
      SliceIsSubsequence(s[..|s| - 1], i, j);
      assert s[..|s| - 1][i..j] == s[i..j];
      PrefixSubsequence(s[i..j], s[..|s| - 1], s);
    }
  }

  /** A subsequence of a prefix is a subsequence of the whole. */
  lemma {:induction false} PrefixSubsequence<T>(a: seq<T>, p: seq<T>, s: seq<T>)
    requires |p| <= |s| && p == s[..|p|] && IsSubsequence(a, p)
    ensures IsSubsequence(a, s)
    decreases |p|
  {
    if |a| > 0 {
      assert p[1..] == s[1..][..|p| - 1];
      if a[0] == p[0] {
        PrefixSubsequence(a[1..], p[1..], s[1..]);
      } else {
        PrefixSubsequence(a, p[1..], s[1..]);
      }
    }
  }
}

=== FILE: wrappers.dfy ===
/** Failure-compatible wrappers shared by every module of the model:
    `Option` stands for JavaScript's `undefined`/`null` versus a value,
    `Result` for a value versus a thrown `Error`. */
module Wrappers {

  datatype Option<+T> = None | Some(value: T) {

    /** Returns the wrapped value, or `default` when there is none */
    function GetOr(default: T): T {
      match this
      case Some(v) => v
      case None => default
    }
  }

  /** `Failure` carries the message of the error the source would throw */
  datatype Result<+R> = Success(value: R) | Failure(error: string)
}
